=== FILE: README.md ===
# CHD system — a Dafny model of its request-handling core

CHD_system_ML predicts coronary heart disease. It has three parts:

- a React frontend with a diagnosis form, a results page, a patient-history page and a chatbot;
- an Express/MongoDB backend;
- a Flask service that runs pickled classifiers.

This project models the deterministic rules of these parts as pure Dafny functions over immutable data. It proves what those rules promise.

- **Conversation store and chat turn.**
  - A patient's chat document holds an append-only conversation of `user` and `assistant` messages (`ChatModel`).
  - History pairing, the recent-message window, clearing and statistics live in `ChatHistory`.
  - `Chatbot` models the chat turn: empty-message guard, keyword intent, diagnosis source, templated reply or prompt plus generative outcome, and the appended pair.
  - `Migration` models the one-off migration from old (message, reply) records.
  - `ChatClient` models the chatbot page: history flattening, diagnosis acceptance, send guard, outgoing context and reply fallbacks.
- **Clinical features.**
  - `Features` models the backend's `calculate*` helpers.
  - `FeatureRows` models the per-row rules of `engineer_features` in the ML service, and compares the two encodings.
- **Diagnosis records.**
  - `DiagnosisModel` holds the schema and its casting.
  - `DiagnosisStore` covers latest-by-id and latest-by-name, pagination, the history route, and delete with its chat cascade.
  - `Prediction` covers `predictDiagnosis` and the `batchPredict` loop.
- **ML service.** `MlApi` covers:
  - the metric-key table;
  - the `/predict` validation order and answer labelling;
  - `/model-metrics`, `/models` and `/model-comparison`.
- **Frontend helpers.**
  - `DiagnosisForm`: gender map, required fields, patient-id normalisation, payload.
  - `ResultsDisplay`: error state, advice, confidence bands, charts, metrics source, chatbot context.
  - `PatientHistory`: grouping, sorting, chart points, delete.

Shared modules:

- `Wrappers` holds `Option`, `Result` and the three-way `Lookup` (found / absent / read failed).
- `Text` holds the JavaScript and Python whitespace classes, trimming, ASCII lower-casing, substring search, whitespace-run replacement and decimal digits.
- `Sorting` is a stable insertion sort by a real key.

MongoDB collections are maps keyed by `patientId`, or sequences of records. Three things are parameters rather than computations:

- the ML service's answer;
- the generative API's outcome;
- the clock (`now`).

Numbers are exact `real`s. JavaScript division by zero is modelled with `Features.Num` (finite, ±Infinity, NaN).

## Model

| member | source | states |
|---|---|---|
| Text.Trim | frontend/src/components/DiagnosisForm.js:51 | The result has no leading or trailing whitespace. It is the input with its leading and trailing whitespace removed. It is empty exactly when the input is all whitespace. |
| Text.TrimIdempotent | ml-api/app.py:85 | Stripping a stripped string changes nothing. |
| Text.ToLower | backend/controllers/chatbotController.js:82 | Lower-casing keeps the length, lowers each character in place and leaves no upper-case letter. |
| Text.Contains | backend/controllers/chatbotController.js:93 | `includes` holds exactly when the substring occurs at some position. |
| Text.ReplaceSpaceRuns | frontend/src/components/DiagnosisForm.js:51 | Replacing each whitespace run with `_` leaves no whitespace. It never lengthens the string and keeps only the original characters and `_`. A string without whitespace is unchanged, and the result is empty only for the empty string. |
| Text.ParseIntOfNatToString | backend/controllers/chatbotController.js:98 | `parseInt` of a number's decimal rendering gives the number back. |
| Text.ParseInt | backend/controllers/chatbotController.js:98 | `parseInt` yields a number only when the text holds a decimal digit. |
| ChatModel.ParseRole | backend/models/Chat.js:19-23 | A role is accepted exactly when it is `user` or `assistant`, and it maps back to the same name. |
| ChatModel.ParseRoleName | backend/models/Chat.js:19-23 | Every role round-trips through its stored name. |
| ChatModel.ValidateMessage | backend/models/Chat.js:18-32 | A message is accepted exactly when its role is valid and its content is present and non-empty. The timestamp defaults to the creation time. A failure reports which of the two rules broke. |
| ChatModel.NewChatDoc | backend/models/Chat.js:4-38 | A new document has an empty conversation and `lastActive` equal to now. `patientId` defaults to `general`. |
| ChatModel.PushPair | backend/controllers/chatbotController.js:215-235 | The upsert appends exactly the two messages to that patient's conversation and creates the document if it is absent. It sets `lastActive`. Every other document is unchanged, and the store stays keyed by patient. |
| ChatModel.ResetConversation | backend/controllers/chatbotController.js:40-49 | The upsert leaves that patient with an empty conversation. Every other document is unchanged. |
| ChatModel.FindChat | backend/controllers/chatbotController.js:9 | `findOne` returns the stored document, or reports absence exactly when no document is keyed by that patient, or reports a read failure. |
| ChatHistory.PairUpSound | backend/controllers/chatbotController.js:16-28 | Every history entry comes from a user message immediately followed by an assistant message. Its message, reply and both times are taken from that pair. |
| ChatHistory.PairUpComplete | backend/controllers/chatbotController.js:16-28 | Every user message immediately followed by an assistant message yields an entry. |
| ChatHistory.PairUpConcat | backend/controllers/chatbotController.js:16-28 | Pairing distributes over concatenation unless the seam joins a trailing user message to a leading assistant message. |
| ChatHistory.AppendPairHistory | backend/controllers/chatbotController.js:16-28 | Appending a user message and then an assistant message adds exactly that entry, last, to the history. |
| ChatHistory.PairUpWellPaired | backend/controllers/chatbotController.js:16-28 | On an alternating conversation the history has one entry per pair, in order. |
| ChatHistory.PairUp | backend/controllers/chatbotController.js:15-28 | Each entry consumes a user and an assistant message, so there are at most half as many entries as messages. |
| ChatHistory.GetHistory | backend/controllers/chatbotController.js:6-35 | A missing document or an empty conversation gives `[]`. A failed read gives an error, and only a failed read does. A found document gives exactly the pairing of its conversation, so PairUpSound and PairUpComplete describe its entries. |
| ChatHistory.RecentContext | backend/controllers/chatbotController.js:61-79 | The result is the last min(limit, n) messages in their original order, with role and content only. A limit of 0 keeps everything, as `slice(-0)` does. No document or a failed read gives `[]`. |
| ChatHistory.ClearHistory | backend/controllers/chatbotController.js:37-58 | Clearing empties the patient's conversation, creating the document if absent. No other patient's conversation changes. |
| ChatHistory.ClearIdempotent | backend/controllers/chatbotController.js:37-58 | Clearing twice is the same as clearing once. |
| ChatHistory.ClearThenHistoryEmpty | backend/controllers/chatbotController.js:37-58 | After a clear the patient's history is `[]`. |
| ChatHistory.ClearRoute | backend/controllers/chatbotController.js:37-58 | A failed `updateOne` answers 500 and leaves the store as it was. Otherwise the answer is 200, the patient's conversation is empty and every other conversation is unchanged. |
| ChatHistory.ClearRouteHistory | backend/controllers/chatbotController.js:37-58 | After a clear request the patient's history is `[]`, unless the write failed, in which case it is what it was before. |
| ChatHistory.CountRolesPartition | backend/controllers/chatbotController.js:258-260 | User count plus assistant count equals the number of messages. |
| ChatHistory.CountRole | backend/controllers/chatbotController.js:259-260 | A role count never exceeds the number of messages. |
| ChatHistory.ConversationStats | backend/controllers/chatbotController.js:247-270 | The answer is 404 exactly for a missing or empty conversation and 500 for a failed read. Otherwise total = user + assistant, with the first and last message times and `lastActive`. |
| Chatbot.IsRiskQuery | backend/controllers/chatbotController.js:93 | A message takes the risk path exactly when `risk` or `predict` occurs in it at some position. |
| Chatbot.BulletsContainItems | backend/controllers/chatbotController.js:119 | Each recommendation item appears in the bullet block. |
| Chatbot.AtRiskReplyContents | backend/controllers/chatbotController.js:115-119 | The at-risk reply names the model, the confidence percentage and all five recommendations. |
| Chatbot.RiskRepliesDistinct | backend/controllers/chatbotController.js:113-125 | The at-risk, not-at-risk and no-diagnosis replies can never coincide. |
| Chatbot.ResolveSnapshot | backend/controllers/chatbotController.js:94-111 | A context whose prediction is present, `null` included, takes precedence. Otherwise the stored latest diagnosis is used. A missing probability becomes 0.85 and a missing model becomes `Unknown Model`. With neither source there is no snapshot. |
| Chatbot.RiskReply | backend/controllers/chatbotController.js:113-125 | No prediction gives the fixed no-diagnosis reply, prediction 1 gives the at-risk template and anything else gives the not-at-risk template. |
| Chatbot.NullContextPredictionIsNotAtRisk | backend/controllers/chatbotController.js:97-125 | A context with `prediction: null` ignores the stored record, and `parseInt(null)` is NaN, so the reply is the not-at-risk one. |
| Chatbot.SystemMessage | backend/controllers/chatbotController.js:128-133 | The persona comes first. The risk-status sentence is appended exactly when the context defines a prediction, and says "at risk" exactly for 1. |
| Chatbot.PromptParts | backend/controllers/chatbotController.js:138-145 | The "System:" part comes first, then each recent message labelled User or Assistant in order, then "User: " plus the original message. The length is the recent count + 2. |
| Chatbot.AiReply | backend/controllers/chatbotController.js:199-210 | A non-200 status or transport failure gives the unavailable reply. A 200 without text gives the no-response reply. Otherwise the text is the reply, which is never empty. |
| Chatbot.ComputeReply | backend/controllers/chatbotController.js:92-213 | The prompt is built exactly for non-risk messages. A reply is missing only when the stored-diagnosis read fails on the risk path without a usable context. A non-risk message gets the generative service's reply. A risk message gets the risk reply for the context's prediction, or else for the patient's latest stored diagnosis. |
| Chatbot.Turn | backend/controllers/chatbotController.js:81-245 | 400 exactly for an absent or empty message, with nothing stored and no prompt. 500 exactly when the chat write fails, or when the risk path needs the stored diagnosis and its read fails; a 500 leaves the store unchanged. A 200 stores exactly one user + assistant pair. Its reply is the generative service's for a non-risk message and the risk reply for the context or latest stored diagnosis otherwise. A prompt is sent exactly for a non-empty non-risk message and has the system line first and the message last. |
| Chatbot.TurnAppendsOnePair | backend/controllers/chatbotController.js:215-235 | A completed turn adds exactly one history entry, holding the original message and the reply. |
| Chatbot.TurnPreservesStoreInvariants | backend/controllers/chatbotController.js:215-235 | A turn keeps every stored message valid and every conversation alternating user/assistant. |
| Chatbot.ClearPreservesStoreInvariants | backend/controllers/chatbotController.js:37-49 | Clearing keeps the same store invariants. |
| Chatbot.ContextTakesPrecedence | backend/controllers/chatbotController.js:97-104 | With a context prediction on a risk query, the stored diagnoses and their read failures do not affect the turn. |
| Chatbot.NoDiagnosisYet | backend/controllers/chatbotController.js:113-114 | A risk query with no context and no stored diagnosis answers with the no-diagnosis reply. |
| Chatbot.StoredDiagnosisAnswersRisk | backend/controllers/chatbotController.js:101-125 | With no context, a risk query answers 200 with the risk reply built from the patient's latest stored diagnosis, whatever its prediction. |
| Chatbot.AtRiskScenario | backend/controllers/chatbotController.js:93-119 | "Am I at risk?" for a patient whose stored diagnosis is at risk answers with the at-risk template. |
| Chatbot.EatQuestionIsOpenEnded | backend/controllers/chatbotController.js:93 | "What should I eat?" contains neither keyword. |
| Chatbot.UnavailableScenario | backend/controllers/chatbotController.js:199-235 | A failed generative call still answers 200 with the unavailable reply and stores it. |
| ChatClient.BubbleKeysDistinct | frontend/src/components/Chatbot.js:53-58 | The `user-i` and `bot-j` keys never collide, and distinct indices give distinct keys. |
| ChatClient.Flatten | frontend/src/components/Chatbot.js:47-61 | n entries flatten to 2n bubbles: the user message at 2i and the bot reply at 2i+1, keyed `user-i` and `bot-i`. |
| ChatClient.LoadMessages | frontend/src/components/Chatbot.js:47-71 | A non-array or empty history, or a failed fetch, gives no messages. Otherwise there are twice as many messages as entries. |
| ChatClient.FlattenPairUp | frontend/src/components/Chatbot.js:48-61 | Flattening the server's pairing of an alternating conversation reproduces each message's text and role, in conversation order. |
| ChatClient.PageShowsStoredConversation | frontend/src/components/Chatbot.js:44-62 | The page shows every stored message's content, in order. |
| ChatClient.FetchLatest | frontend/src/services/api.js:94-107 | A successful lookup yields the `{success, diagnosis}` envelope with the record nested. A 404 or transport failure yields null. |
| ChatClient.AcceptFields | frontend/src/components/Chatbot.js:78-85 | An object is kept exactly when `prediction` or `result` is defined. |
| ChatClient.LatestNeverAcceptedAsWritten | frontend/src/components/Chatbot.js:78 | As written, the page never accepts the fetched diagnosis. |
| ChatClient.AcceptLatest | frontend/src/components/Chatbot.js:78-85 | Corrected test: something is kept exactly when the body's nested record carries a prediction or a result, and then it is that record. |
| ChatClient.LatestAcceptedCorrected | frontend/src/components/Chatbot.js:78-85 | Corrected, the page accepts the stored diagnosis exactly when the lookup succeeded. |
| ChatClient.OutgoingContext | frontend/src/components/Chatbot.js:156-164 | Without a diagnosis the context is null. Otherwise `prediction` is `prediction ?? result`, `model` is `model` or `unknown`, and `probability` is passed through. |
| ChatClient.ContextCarriesStoredDiagnosis | frontend/src/components/Chatbot.js:156-164 | With the corrected acceptance, the server resolves the stored record's prediction, probability and model from the context. |
| ChatClient.ShouldSend | frontend/src/components/Chatbot.js:130 | The page sends exactly when no reply is pending and the input has a non-whitespace character. |
| ChatClient.SentMessageNotRejected | frontend/src/components/Chatbot.js:130-132 | A message that passes the send guard is never answered with the server's 400. |
| ChatClient.ShownReply | frontend/src/components/Chatbot.js:176-190 | A non-OK status or exception gives the failure notice. A falsy reply gives the no-response notice. Otherwise the reply is shown. |
| ChatClient.ShownReplyOfTurn | frontend/src/components/Chatbot.js:176-190 | The page shows the server's reply for a 200 and the failure notice otherwise. |
| ChatClient.Load | frontend/src/components/Chatbot.js:26-95 | Without a patient name only the notice is shown. Otherwise the history is loaded, and the body itself is kept exactly when its top level carries a prediction or a result. |
| ChatClient.LoadKeepsNoDiagnosis | frontend/src/components/Chatbot.js:73-91 | Whatever the backend stores, the loaded page holds no diagnosis, so its outgoing context is null. |
| ChatClient.LoadCorrected | frontend/src/components/Chatbot.js:26-95 | With the corrected test, the nested record is kept exactly when it carries a prediction or a result. |
| ChatClient.LoadCorrectedKeepsStoredDiagnosis | frontend/src/components/Chatbot.js:73-91 | With the corrected test, the page keeps the stored record the lookup found and sends a context built from it. |
| ChatClient.Send | frontend/src/components/Chatbot.js:129-192 | A blank input or a send while typing changes nothing. Otherwise the trimmed message and the shown reply are appended and earlier messages are kept. |
| Migration.Pairs | backend/migrate-chats.js:54-70 | Each old record gives two messages, and the result alternates user/assistant. |
| Migration.PairsAt | backend/migrate-chats.js:59-69 | Record i becomes a user message (message, createdAt or now) at 2i. It is followed by an assistant message (reply, updatedAt or createdAt or now). |
| Migration.PairsRoundTrip | backend/migrate-chats.js:59-69 | Pairing the migrated messages reproduces the old (message, reply) records in order. |
| Migration.GroupIsPairsOfRecords | backend/migrate-chats.js:54-70 | A patient has a conversation exactly when it has records, and that conversation is the pairs of its records in input order. |
| Migration.GroupTotal | backend/migrate-chats.js:54-70 | The conversations hold exactly twice as many messages as there were records. |
| Migration.Group | backend/migrate-chats.js:54-70 | The grouping has one list per distinct key of the records, each holding at least one pair. |
| Migration.NullIdSharesStringKey | backend/migrate-chats.js:55-59 | A record with a `null` id and one with the id `"null"` share one conversation, since object keys are strings. |
| Migration.Documents | backend/migrate-chats.js:73-80 | There is one document per patient key, holding its conversation, with `lastActive` equal to the last message's timestamp. |
| Migration.SortKeepsKeys | backend/migrate-chats.js:45 | Sorting by createdAt keeps the set of patients. |
| Migration.Migrate | backend/migrate-chats.js:41-82 | Empty source: the target is untouched. A patient key that a plain object inherits (`toString`, `constructor`, …): the grouping throws and the target is untouched. A record with an empty patientId, message or reply: the target is emptied and nothing is inserted. Otherwise one valid document per distinct patient replaces the target. |
| Migration.EmptyPatientIdRejected | backend/migrate-chats.js:26-31 | A record with patientId `""` fails the required check, leaving the target empty. |
| Migration.InheritedKeyKeepsTarget | backend/migrate-chats.js:54-59 | A patient keyed `toString` aborts the migration before the target is emptied. |
| Migration.MigratedConversation | backend/migrate-chats.js:45-80 | Each migrated conversation is that patient's records in ascending createdAt order, two messages each. Pairing it gives back those records. |
| Migration.MigratedTotal | backend/migrate-chats.js:54-80 | The migrated documents hold 2 × the number of old records. |
| Migration.MigratedStoreInvariants | backend/migrate-chats.js:54-82 | Every migrated conversation alternates user/assistant and holds only valid messages. |
| Migration.RerunIsStable | backend/migrate-chats.js:81-82 | Re-running on the same source, with the first run's target, changes nothing. |
| Features.Divide | backend/controllers/diagnosisController.js:6-7 | JavaScript division: an exact quotient for a non-zero divisor. Otherwise ±Infinity or NaN according to the dividend's sign. |
| Features.Bmi | backend/controllers/diagnosisController.js:5-8 | bmi × (height/100)² = weight. A zero height gives Infinity, or NaN for a zero weight. |
| Features.BmiCategory | backend/controllers/diagnosisController.js:10-15 | The category is in 1..4 and is bounded below by 18.5, 25 and 30. NaN falls into 4. |
| Features.BmiCategoryMonotone | backend/controllers/diagnosisController.js:10-15 | A larger BMI never has a lower category. |
| Features.PulsePressure | backend/controllers/diagnosisController.js:17-19 | Pulse pressure plus diastolic gives back the systolic reading. |
| Features.MeanArterialPressure | backend/controllers/diagnosisController.js:21-23 | 3·MAP = systolic + 2·diastolic, and MAP lies between diastolic and systolic when diastolic ≤ systolic. |
| Features.BpCategory | backend/controllers/diagnosisController.js:25-31 | The category is in 1..5 and is the first rule that matches. It is 1 exactly when systolic < 120 and diastolic < 80. |
| Features.BpCategoryNotMonotone | backend/controllers/diagnosisController.js:25-31 | A higher diastolic can lower the category: (150,70) is 4 but (150,85) is 3. |
| Features.AgeGroup | backend/controllers/diagnosisController.js:33-38 | The group is in 1..4 with thresholds 40, 50 and 60. |
| Features.AgeGroupMonotone | backend/controllers/diagnosisController.js:33-38 | An older age never has a lower group. |
| Features.LifestyleRisk | backend/controllers/diagnosisController.js:40-46 | The risk is in 0..4. It is 4 exactly for a smoker who drinks and is inactive, and 0 exactly when no indicator fires. |
| Features.LifestyleRiskAdditive | backend/controllers/diagnosisController.js:40-46 | The risk is the sum of three independent indicators: 2 for smoking (`smoke == 1`), 1 for alcohol (`alco == 1`) and 1 for inactivity (`active == 0`). |
| Features.MetabolicRisk | backend/controllers/diagnosisController.js:48-54 | The risk is in 0..3. It is 3 exactly when all three indicators hold and 0 exactly when none does. |
| Features.MetabolicRiskAdditive | backend/controllers/diagnosisController.js:48-54 | The risk is the sum of three independent one-point indicators: cholesterol ≥ 2, glucose ≥ 2 and BMI > 30. |
| Features.RiskScore | backend/controllers/diagnosisController.js:56-68 | The score is at most 10 and at most the uncapped score, and it falls short of the uncapped score only at the cap. |
| Features.RiskScoreCapReached | backend/controllers/diagnosisController.js:56-68 | The uncapped maximum 13 is reached and capped to 10. |
| FeatureRows.AgeYears | ml-api/models/data_processor.py:21 | age_years × 365.25 = age in days. |
| FeatureRows.AgeGroup | ml-api/models/data_processor.py:22-26 | Right-closed bins (0,40], (40,50], (50,60], (60,70] and (70,100] map to 1..5. Outside (0,100] there is no group. |
| FeatureRows.AgeGroupMonotone | ml-api/models/data_processor.py:22-26 | Within (0,100] an older age never has a lower group. |
| FeatureRows.BpCategory | ml-api/models/data_processor.py:29-31 | The category is 1 whenever either reading is in the elevated band, because the later assignment overrides. Otherwise it is 2 for high readings and 0 for the rest. |
| FeatureRows.BmiCategory | ml-api/models/data_processor.py:32-41 | The category is in 0..3 with thresholds 18.5, 25 and 30. |
| FeatureRows.BmiCategoryMonotone | ml-api/models/data_processor.py:32-41 | A larger BMI never has a lower category. |
| FeatureRows.EngineerRow | ml-api/models/data_processor.py:18-48 | A row is derived exactly when age_group is defined. Every category is in its range, and map equals the backend's MAP. |
| FeatureRows.MapAgrees | ml-api/models/data_processor.py:42 | (ap_hi + 2·ap_lo)/3 equals the backend's diastolic + (systolic − diastolic)/3. |
| FeatureRows.BmiCategoryOffByOne | ml-api/models/data_processor.py:32-41 | The backend's BMI category is always the service's + 1. |
| FeatureRows.BpCategoryEncodingsDiffer | ml-api/models/data_processor.py:29-31 | The two blood-pressure encodings disagree on concrete readings. |
| FeatureRows.AgeGroupEncodingsDiffer | ml-api/models/data_processor.py:22-26 | The two age encodings disagree at 40 years. |
| FeatureRows.LifestyleRiskWeighsSmoking | ml-api/models/data_processor.py:27 | For binary habits the backend's lifestyle risk is the service's plus the smoking flag. |
| FeatureRows.LifestyleRisk | ml-api/models/data_processor.py:27 | For binary habits the risk is in 0..3. |
| FeatureRows.MetabolicRisk | ml-api/models/data_processor.py:28 | For levels 1..3 the risk is in 0..4. |
| FeatureRows.RiskScore | ml-api/models/data_processor.py:43-47 | For binary habits the score is in 0..4. |
| DiagnosisModel.ParseModelName | backend/models/Diagnosis.js:46-58 | The enum accepts exactly the seven model keys. |
| DiagnosisModel.ModelKeyRoundTrip | backend/models/Diagnosis.js:46-58 | Every model is recognised under its own key. |
| MlApi.ModelTableMatchesSchema | ml-api/app.py:14-22 | The service's model table and the diagnosis schema's enum hold the same names. |
| DiagnosisModel.Validate | backend/models/Diagnosis.js:3-76 | A record is stored exactly when the required fields, enums and [0,1] ranges hold. The stored record is well formed, keeps prediction, probability and model, has a trimmed patientId, and its timestamp defaults to now. A failure names at least one field. |
| DiagnosisStore.Latest | backend/controllers/diagnosisController.js:128-129 | `findOne(...).sort({timestamp: -1})` returns a matching record with the greatest timestamp, or nothing exactly when none matches. |
| DiagnosisStore.BackendPatientId | backend/controllers/diagnosisController.js:160 | The backend's name normalisation contains no whitespace. |
| DiagnosisStore.LatestByPatientName | backend/controllers/diagnosisController.js:149-180 | An empty name is a 400 and a failed read is a 500. 404 is returned exactly when no record matches by patientName or normalised patientId. Otherwise the newest matching record is returned. |
| DiagnosisStore.LatestByPatientId | backend/controllers/diagnosisController.js:120-147 | The same as by name, matching patientId only. |
| DiagnosisStore.Page | backend/controllers/diagnosisController.js:438-441 | The window is sorted newest first, has min(limit, remaining) records, is a sub-multiset of the input, and is empty past the end. A limit of 0 means no limit. |
| DiagnosisStore.FirstPageUnlimited | backend/controllers/diagnosisController.js:438-441 | The unlimited page from 0 is a permutation of all records. |
| DiagnosisStore.SkippedThenRest | backend/controllers/diagnosisController.js:438-441 | The first `skip` records, then everything from `skip`, make up the whole newest-first listing. |
| DiagnosisStore.PageThenRest | backend/controllers/diagnosisController.js:438-441 | A page, then everything from its end, make up everything from `skip`. So a page is exactly the records ranked `skip` to `skip + limit − 1` by recency. |
| DiagnosisStore.PageCount | backend/controllers/diagnosisController.js:452 | `ceil(total/limit)`: the smallest page count covering the total. It is absent for limit 0. |
| DiagnosisStore.DiagnosisHistory | backend/controllers/diagnosisController.js:427-463 | The handler filters by query patientId only. A missing `limit` is 50 and a missing `page` is 1. It reports the filtered total, the page and limit, and ceil(total/limit) pages, and returns exactly the records ranked `(page−1)·limit` onwards, one page long, newest first. It answers 500 exactly for a negative skip or a failed read. |
| DiagnosisStore.HistoryRoute | backend/routes/diagnosis.js:14-15 | Whatever name the path carries, the route fails exactly on a failed read or a negative skip. Without a `patientId` query it counts and pages through every patient's records. |
| DiagnosisStore.HistoryRouteIgnoresName | backend/routes/diagnosis.js:14-15 | `/history/:patientName` answers the same as `/history`, whatever the name. |
| DiagnosisStore.QuerylessHistoryCall | frontend/src/services/api.js:41 | The patient-history page's call, `/history/<name>` with no query string, gets the 50 newest records of all patients as page 1, whatever the name. |
| DiagnosisStore.AllDiagnoses | backend/controllers/diagnosisController.js:97-118 | The list route answers 500 exactly for a failed read or a negative skip. Otherwise it returns at most every record. |
| DiagnosisStore.AllDiagnosesIsUnfilteredHistory | backend/controllers/diagnosisController.js:97-118 | The bare list, with the same defaults of 50 and 1, is exactly the `diagnoses` of the history answer to the same query without a patient filter. Both fail together. |
| DiagnosisStore.IndexOfId | backend/routes/diagnosis.js:28 | Gives the position of the record with that id, or −1 exactly when there is none. |
| DiagnosisStore.RemoveAt | backend/routes/diagnosis.js:28 | Removing one record keeps every other record in order, and ids stay unique. |
| DiagnosisStore.RemoveChatsOf | backend/routes/diagnosis.js:33 | Removes exactly the chat documents whose patientId equals the name and leaves the rest unchanged. |
| DiagnosisStore.DeleteDiagnosis | backend/routes/diagnosis.js:26-40 | An unknown id gives 404 and changes nothing. A failed lookup changes nothing. Otherwise exactly that record is removed and the others are kept. |
| DiagnosisStore.DeleteCascadesToChats | backend/routes/diagnosis.js:32-33 | Deleting a named record removes exactly the chats keyed by its patientName and touches no other chat. |
| Prediction.SelectedModel | backend/controllers/diagnosisController.js:249 | The default `voting_ensemble` applies exactly when the field is absent. A `null` stays `null`, and a string is used as given. |
| Prediction.MapFeatures | backend/controllers/diagnosisController.js:255-290 | The payload carries the vitals unchanged and pulse pressure = ap_hi − ap_lo. Every derived category and risk is in its range, and MAP lies between the readings. |
| Prediction.ErrorStatus | backend/controllers/diagnosisController.js:347-364 | An upstream status is passed through (500 when it is missing), ECONNREFUSED gives 503 and anything else gives 500. |
| Prediction.PatientNameOf | backend/controllers/diagnosisController.js:303 | The stored name is never empty. Without a name it is the given patientId. With neither, the generated `Patient_<now>` differs from the generated id `patient_<now>`. |
| Prediction.PatientIdOf | backend/controllers/diagnosisController.js:302 | The stored patient id is never empty. |
| Prediction.PredictDiagnosis | backend/controllers/diagnosisController.js:247-366 | Missing patientData gives 400 with no ML call. An ML failure gives its classified status. A record is saved and 200 returned exactly when the ML call succeeds and the save succeeds. The saved record is well formed and uses the selected model. |
| Prediction.GeneratedIdKept | backend/controllers/diagnosisController.js:302 | Without a patientId the generated `patient_<now>` id is stored unchanged. |
| Prediction.DefaultModelUsed | backend/controllers/diagnosisController.js:249 | Without a selected model the ML service is asked for `voting_ensemble`. |
| Prediction.NullModelNeverSaved | backend/controllers/diagnosisController.js:249-321 | `selectedModel: null` is sent to the ML service as `null`, and no record is saved. If the ML call succeeds anyway, the schema's required `model` makes the answer 500. |
| Prediction.BatchPredict | backend/controllers/diagnosisController.js:368-425 | An absent or empty list gives 400. Otherwise successful + failed = total. Each index is in predictions exactly when its call succeeded and in errors exactly when it failed. Both lists are in ascending index order. In both lists an entry's id is the patient's `id`, defaulting to `batch_patient_i`, and an error entry carries the upstream error text or else the error message. |
| MlApi.MetricKey | ml-api/app.py:143-157 | The seven model names map to their short keys, which are distinct from every model name. Any other name maps to itself. |
| MlApi.MetricKeyProperties | ml-api/app.py:41-54 | Mapping is idempotent, and distinct models keep distinct keys. |
| MlApi.DisplayName | ml-api/app.py:168 | `replace("_"," ").title()` keeps the length, turns underscores into spaces, capitalises the start of each word and keeps the rest in lower case. |
| MlApi.PyIndex | ml-api/app.py:134 | Python indexing: negative indices count from the end, and anything out of range raises. |
| MlApi.RiskLabel | ml-api/app.py:161 | "High Risk" exactly for prediction 1, otherwise "Low Risk". |
| MlApi.Answer | ml-api/app.py:129-171 | The answer carries result = prediction, its label, the probability of the predicted class, both class probabilities, confidence equal to the largest class probability, and the mapped metrics. A model without probabilities, or an index out of range, gives 500. |
| MlApi.CheckName | ml-api/app.py:85-91 | A non-string is a 500. A name empty after strip is a 400. A name outside the table is a 400. Otherwise the stripped name is returned. |
| MlApi.CheckModel | ml-api/app.py:83-100 | The checks run in order: missing body or `model` key → 400, then the name checks, then a missing file → 404, then a failed load → 500. |
| MlApi.NullModelIsServerError | ml-api/app.py:82-85 | `{"model": null}` has the key, so `.strip()` on None raises and the answer is 500, not 400. |
| MlApi.CheckFeatures | ml-api/app.py:102-112 | Missing or empty inputData gives 400. Missing columns give 400 listing exactly the expected columns not sent. |
| MlApi.Predict | ml-api/app.py:79-180 | The first failing check answers. Once both checks pass, a raising inference gives 500, and otherwise the answer is exactly `Answer` for the checked model name, including its own 500 cases. A success implies that every check passed and that the model ran. |
| MlApi.WellFormedRequestReachesModel | ml-api/app.py:83-112 | A known, present model with every expected column passes all checks. |
| MlApi.ModelMetrics | ml-api/app.py:182-214 | 404 exactly when the mapped key is absent. Otherwise the stored metrics. |
| MlApi.FallbackLacksEnsembleMetrics | ml-api/app.py:27-32 | The fallback table has no entry for the default model. |
| MlApi.ListModels | ml-api/app.py:34-77 | Every table key is listed in order, available exactly when its file exists. Unavailable entries have no metrics. |
| MlApi.AvailableCountIsFiles | ml-api/app.py:73 | `available_count` is the number of table models whose file exists. |
| MlApi.Rank | ml-api/app.py:244-252 | The ranking is a permutation sorted by accuracy descending, with a missing accuracy counted as 0. The best model is the first entry, or none when there are no entries. |
| MlApi.CompareModels | ml-api/app.py:216-257 | Exactly the models whose file exists are ranked by accuracy descending. The best model is the first and exists on disk. |
| DiagnosisForm.GenderCode | frontend/src/components/DiagnosisForm.js:5-9 | "Male" → 2, "Female" → 1, anything else → 0. |
| DiagnosisForm.FirstEmpty | frontend/src/components/DiagnosisForm.js:43-49 | The first empty field in list order, or none exactly when every field is filled. |
| DiagnosisForm.FormPatientId | frontend/src/components/DiagnosisForm.js:51 | The id has no whitespace and no upper-case letter, and is empty exactly for an all-whitespace name. |
| DiagnosisForm.FormPatientIdIdempotent | frontend/src/components/DiagnosisForm.js:51 | Normalising a normalised id changes nothing. |
| DiagnosisForm.FormAgreesWithBackend | frontend/src/components/DiagnosisForm.js:51 | For names without outer whitespace, the form and the backend normalise alike. |
| DiagnosisForm.PaddedNameDisagrees | backend/controllers/diagnosisController.js:160 | A leading space makes the backend's id differ from the form's. |
| DiagnosisForm.Submit | frontend/src/components/DiagnosisForm.js:34-75 | Submission stops at the first empty required field, in list order, and sends nothing. Otherwise it sends the normalised id and `voting_ensemble`. |
| DiagnosisForm.RequiredFieldsDistinct | frontend/src/components/DiagnosisForm.js:38-41 | The required-field list names twelve different fields. |
| DiagnosisForm.FirstEmptyField | frontend/src/components/DiagnosisForm.js:43-49 | The field reported is empty, and every field before it is filled. |
| DiagnosisForm.BackendRequest | frontend/src/components/DiagnosisForm.js:67-76 | The request carries the form's patientId and the selected model, and no patientName. |
| DiagnosisForm.StoredNameIsNormalisedId | backend/controllers/diagnosisController.js:302-303 | A form submission is stored with patientName equal to the normalised id. |
| ResultsDisplay.Shown | frontend/src/components/ResultsDisplay.js:57-73 | The error state is shown exactly when the result is missing, unsuccessful or lacks `prediction.result`. |
| ResultsDisplay.AdviceFor | frontend/src/components/ResultsDisplay.js:81-85 | The at-risk message, and the immediate actions at 342-353, appear exactly for prediction 1. |
| ResultsDisplay.ConfidenceBand | frontend/src/components/ResultsDisplay.js:99-115 | The bands on confidence·100 are ≥90 Very High, [75,90) High, [60,75) Moderate and below 60 Low. Each value is in exactly one band, and a missing confidence is Low. |
| ResultsDisplay.ConfidenceBandMonotone | frontend/src/components/ResultsDisplay.js:99-115 | A higher confidence never gets a lower band. |
| ResultsDisplay.ConfidenceChart | frontend/src/components/ResultsDisplay.js:229-232 | Confidence and uncertainty sum to 100. |
| ResultsDisplay.ProbabilityChart | frontend/src/components/ResultsDisplay.js:234-237 | There is no chart without probabilities. Otherwise it has two slices, with a missing value counting as 0. |
| ResultsDisplay.ProbabilityChartComplete | frontend/src/components/ResultsDisplay.js:234-237 | Complementary class probabilities give slices summing to 100. |
| ResultsDisplay.MetricsShown | frontend/src/components/ResultsDisplay.js:20-55 | Metrics from the result are used without a fetch. A failed fetch shows the fallback constants. A fetch answered without success shows nothing. |
| ResultsDisplay.EmptyMetricsSuppressFallback | frontend/src/components/ResultsDisplay.js:23-27 | An empty metrics object in the result is truthy, so neither a fetch nor the fallback happens. |
| ResultsDisplay.ContextFor | frontend/src/components/ResultsDisplay.js:87-95 | The stored chatbot context carries prediction, probability, confidence, the matching message and modelUsed = modelInfo.name. |
| PatientHistory.GroupName | frontend/src/components/PatientHistory.js:31 | The group key is patientName, else patientId, else "Unknown", and is never empty. |
| PatientHistory.FirstAt | frontend/src/components/PatientHistory.js:29-34 | The position of the first entry of a group, or the length when the group is absent. |
| PatientHistory.TimeKey | frontend/src/components/PatientHistory.js:36 | The sort key is `timestamp`, else `createdAt`. It is non-negative exactly when the entry has a time, so entries without one sort first. |
| PatientHistory.GroupEntries | frontend/src/components/PatientHistory.js:29-34 | The loop throws exactly when some name is inherited by a plain object (`constructor`, `toString`, …). Otherwise each entry lands in its own group, in input order. Groups appear in first-appearance order, and the group sizes sum to the input length. |
| Sorting.SortBy | frontend/src/components/PatientHistory.js:36 | The result is ascending by the key and is a permutation of the input. |
| PatientHistory.SortGroups | frontend/src/components/PatientHistory.js:35-37 | Each group is sorted ascending by time, is a permutation of itself, and keeps its size. |
| PatientHistory.PointOf | frontend/src/components/PatientHistory.js:40-47 | A point keeps id, time and percentage, and its label is "At Risk" exactly for prediction 1. |
| PatientHistory.Chart | frontend/src/components/PatientHistory.js:39-47 | The global chart holds the entries' points as a multiset, one per entry, in ascending time. |
| PatientHistory.Load | frontend/src/components/PatientHistory.js:22-57 | A non-array answer, or a grouping that throws, leaves the page empty. Otherwise the listed names are the entries' names, each group holds its entries, the group sizes and the chart length equal the number of entries, and the chart holds every entry's point. |
| PatientHistory.InheritedNameEmptiesPage | frontend/src/components/PatientHistory.js:29-54 | One entry for a patient named `constructor` leaves the whole page empty. |
| PatientHistory.SingleEntryNoTrend | frontend/src/components/PatientHistory.js:126 | A single entry does not show the trend chart. |
| PatientHistory.FilterKeepsDistinct | frontend/src/components/PatientHistory.js:66 | Dropping a group name keeps the others, each once. |
| PatientHistory.Delete | frontend/src/components/PatientHistory.js:59-74 | Only entries with that id leave that patient's group and the chart. The group is dropped when it empties. Other groups are unchanged, and a failed request changes nothing. |

## Left out

- Network, database and process plumbing are left out: Express and Flask routing, CORS, MongoDB connections, `fetch` wrappers, `localStorage` and logging. Stores are in-memory maps or sequences, and each read or write failure is a boolean parameter.
- The generative API request is left out (host, headers, generation settings, JSON parsing, backend/controllers/chatbotController.js:147-197). Only its outcome is modelled: a status and an optional text, or a transport failure.
- ML inference and training are left out: loading, scaling, polynomial features, `predict`/`predict_proba`, tuning, outlier removal, CSV loading and train split (ml-api/app.py:96-141, ml-api/models/data_processor.py:6-16, 50-75). The inference result is a parameter.
- Number formatting is not modelled. `toFixed` in the reply templates is a caller-supplied `fmt`. The payload's `bmi` and `map` are kept exact, without the two-decimal rounding at backend/controllers/diagnosisController.js:274, 288. The percentage strings of `modelInfo` (333-337) are left out. PatientHistory.PointOf keeps the exact percentage, without the `Number((probability * 100).toFixed(2))` rounding at frontend/src/components/PatientHistory.js:43.
- Text.ToLower: lower-cases ASCII A–Z only, because full Unicode case mapping is outside the model.
- Text.ParseInt: leading whitespace, an optional sign and a run of decimal digits only. There is no `0x` prefix and no other radix, because the source applies it to 0/1 predictions. Its contract states only that a number needs a digit. Its round trip is ParseIntOfNatToString.
- JSON `null` and `undefined` are one absent value (`None`), except where the source tests for presence and the value can arrive as `null`. There a present `null` is a present value: `{"model": null}` is `MlApi.OtherField`, `context.prediction` of `null` is `Chatbot.NotANumber` (its `parseInt` result), and `selectedModel: null` is `Prediction.NullChoice`, which the destructuring default at backend/controllers/diagnosisController.js:249 and 370 does not replace. Two presence tests are not distinguished, because no `null` reaches them from this backend: the `!== undefined` test at frontend/src/components/Chatbot.js:78 reads fields of the lookup envelope, and the record nested in it always carries the schema's required `prediction`. The `=== undefined` test at frontend/src/components/ResultsDisplay.js:57 reads `prediction.result`, which the backend sends only after saving the same value as the schema's required `prediction` (backend/controllers/diagnosisController.js:305, 317, 323), so it is never `null`. A present value of another JSON type is modelled only where the source branches on it.
- One `now` stands for every clock read within a request, so both messages of a turn carry the same timestamp.
- The Mongo sort leaves the order of equal timestamps open. The model picks the first of them in store order.
- Concurrency is left out: two simultaneous turns for one patient may interleave their appends.
- The typing animation and scrolling (frontend/src/components/Chatbot.js:20-24, 97-127) are left out. ChatClient.Send shows the state after the animation ends.
- The clear button of the chatbot page (frontend/src/components/Chatbot.js:201-236) is modelled only at the server, by ChatHistory.ClearHistory.
- The SVG charts, circle geometry and all rendering (frontend/src/components/ResultsDisplay.js:155-207, 263-283) and frontend/src/components/Navigation.js are left out.
- Three copies of the metric-key chain (ml-api/app.py:41-54, 143-157, 185-199) are written identically in the source, so they are modelled as one function, MlApi.MetricKey.
- MlApi.CompareModels: the model stops at the Python dictionary `dict(sorted_models)`, whose insertion order is the accuracy ranking. Flask's `jsonify` sorts object keys when it serialises (ml-api/app.py:250-254), so a client receives `comparison` in alphabetical key order and sees the ranking only through `best_model`. Key sorting during serialisation is not modelled.
- MlApi.ListModels: likewise, the listing is in table order before serialisation, and `jsonify` sends `models` in alphabetical key order (ml-api/app.py:70-74).
- The `/test` and `/health` endpoints and `checkMLApiHealth` are left out, as are `getDiagnosisById` (backend/controllers/diagnosisController.js:465-486) and the proxy handlers to the ML service (182-245). These are pass-through plumbing.
- `saveDiagnosis` (backend/controllers/diagnosisController.js:70-95) is covered only by the schema casting in DiagnosisModel.Validate.
- `getConversationStats` is not registered in backend/routes/chatbot.js. It is modelled as a function without claiming a route. `batchPredict` likewise has no route in backend/routes/diagnosis.js.
- Prediction.BatchPredict: each patient is assumed to be an object. A `null` entry makes the source's error handler itself throw, which is not modelled.
- PatientHistory.Delete: requires the group to exist, as the page only offers delete buttons inside an existing group. The delete request's answer is ignored, as in the source.
- Sorting.SortBy: it is stable, as JavaScript's `Array.prototype.sort` is, but its contract states only order and permutation, not stability.
- PatientHistory: entries without a time sort first, standing for JavaScript's `NaN` comparison. Integer-like group names are kept in first-appearance order, not JavaScript's numeric key order.
- DiagnosisForm.BackendRequest: a required field that `parseInt` cannot read makes the whole patient payload absent, rather than sending `NaN` values to the backend.
- DiagnosisStore.DeleteDiagnosis: a deleted record without a patientName removes no chat documents. The source's `deleteMany({patientId: undefined})` depends on driver behaviour.
- Migration.Migrate: the target's unique index on patientId is not modelled, because the grouping already yields distinct keys. A missing patientId is keyed `undefined` and a null one `null`, as JavaScript object keys would be; a non-string id is not modelled, since the old schema casts it to a string.

## Findings

| source | as written | input that shows it | evidently intended | confidence | as-written member | corrected member |
|---|---|---|---|---|---|---|
| frontend/src/components/Chatbot.js:78 | The page tests `prediction`/`result` on the object `getLatestDiagnosis` returns. That object is the response envelope `{success, diagnosis}` (frontend/src/services/api.js:103, backend/controllers/diagnosisController.js:168-171), so the test is always false. The page never keeps a diagnosis and never sends a context. | Any patient with a stored diagnosis: the lookup answers `{success: true, diagnosis: {prediction: 1, …}}` and the page sets `latestDiagnosis` to null. | Test the nested record `diagnosis.diagnosis` and keep it. | not executed | ChatClient.LatestNeverAcceptedAsWritten | ChatClient.LoadCorrected |

=== FILE: chat_client.dfy ===
/**
  The chat page of frontend/src/components/Chatbot.js: loading the history
  into bubbles, accepting the latest diagnosis, the send guard, the context
  sent with each message, and the reply shown.  Fetches are parameters:
  the parsed response (or its absence) is passed in.
*/
module ChatClient {
  import opened Wrappers
  import Text
  import opened ChatModel
  import opened ChatHistory
  import opened DiagnosisModel
  import DiagnosisStore
  import Chatbot

  /** One rendered chat bubble; the "no patient" notice has no id. */
  datatype Bubble =
    | UserBubble(message: string, timestamp: nat, id: Option<string>)
    | BotBubble(reply: string, timestamp: nat, id: Option<string>)

  function BubbleText(b: Bubble): string {
    match b
    case UserBubble(m, _, _) => m
    case BotBubble(r, _, _) => r
  }

  function UserKey(i: nat): string { "user-" + Text.NatToString(i) }
  function BotKey(i: nat): string { "bot-" + Text.NatToString(i) }

  /** The bubble ids of a loaded history never collide. */
  lemma BubbleKeysDistinct(i: nat, j: nat)
    ensures UserKey(i) != BotKey(j)
    ensures i != j ==> UserKey(i) != UserKey(j) && BotKey(i) != BotKey(j)
  {
    assert UserKey(i)[0] != BotKey(j)[0];
    if UserKey(i) == UserKey(j) {
      assert UserKey(i)[5..] == Text.NatToString(i) && UserKey(j)[5..] == Text.NatToString(j);
      Text.NatToStringInjective(i, j);
    }
    if BotKey(i) == BotKey(j) {
      assert BotKey(i)[4..] == Text.NatToString(i) && BotKey(j)[4..] == Text.NatToString(j);
      Text.NatToStringInjective(i, j);
    }
  }

  /** Each history entry becomes a user bubble and a bot bubble, both stamped with the entry's `createdAt`. */
  function Flatten(h: seq<HistoryEntry>): (bs: seq<Bubble>)
    ensures |bs| == 2 * |h|
    ensures forall i :: 0 <= i < |h| ==>
              bs[2 * i] == UserBubble(h[i].message, h[i].createdAt, Some(UserKey(i)))
    ensures forall i :: 0 <= i < |h| ==>
              bs[2 * i + 1] == BotBubble(h[i].reply, h[i].createdAt, Some(BotKey(i)))
  {
    if h == [] then []
    else
      var n := |h| - 1;
      Flatten(h[..n])
      + [UserBubble(h[n].message, h[n].createdAt, Some(UserKey(n))),
         BotBubble(h[n].reply, h[n].createdAt, Some(BotKey(n)))]
  }

  /** What `getChatHistory` hands the page: a JSON array, some other JSON value, or nothing (the fetch threw). */
  datatype HistoryResponse = HistoryArray(entries: seq<HistoryEntry>) | NotAnArray | FetchFailed

  /** The body the backend sends for a history request: the array, or an error object on a 500. */
  function HistoryResponseOf(r: Result<seq<HistoryEntry>, HistoryError>): HistoryResponse {
    match r
    case Success(h) => HistoryArray(h)
    case Failure(_) => NotAnArray
  }

  /** A non-array, an empty array or a failed fetch leaves the page empty. */
  function LoadMessages(resp: HistoryResponse): (bs: seq<Bubble>)
    ensures bs == [] <==> !resp.HistoryArray? || resp.entries == []
    ensures resp.HistoryArray? ==> |bs| == 2 * |resp.entries|
  {
    if resp.HistoryArray? && |resp.entries| > 0 then Flatten(resp.entries) else []
  }

  /**
    Server pairing followed by client flattening shows a well-paired
    conversation message for message: the k-th bubble carries the k-th
    message's text, and user bubbles sit exactly where user messages do.
  */
  lemma FlattenPairUp(c: seq<Message>)
    requires WellPaired(c)
    ensures |Flatten(PairUp(c))| == |c|
    ensures forall k :: 0 <= k < |c| ==> BubbleText(Flatten(PairUp(c))[k]) == c[k].content
    ensures forall k :: 0 <= k < |c| ==> (Flatten(PairUp(c))[k].UserBubble? <==> c[k].role == User)
  {
    PairUpWellPaired(c);
    var bs := Flatten(PairUp(c));
    forall k | 0 <= k < |c|
      ensures BubbleText(bs[k]) == c[k].content
      ensures bs[k].UserBubble? <==> c[k].role == User
    {
      var i := k / 2;
      assert PairUp(c)[i] == EntryAt(c, 2 * i);
      if k == 2 * i {
        assert bs[k] == UserBubble(c[k].content, c[k].timestamp, Some(UserKey(i)));
      } else {
        assert k == 2 * i + 1;
        assert bs[k] == BotBubble(c[k].content, c[2 * i].timestamp, Some(BotKey(i)));
      }
    }
  }

  /** The history of a stored conversation reaches the page intact. */
  lemma PageShowsStoredConversation(store: ChatStore, patientId: string)
    requires patientId in store && WellPaired(store[patientId].conversation)
    ensures var c := store[patientId].conversation;
            var bs := LoadMessages(HistoryResponseOf(GetHistory(FindChat(store, patientId, false))));
            |bs| == |c| && forall k :: 0 <= k < |c| ==> BubbleText(bs[k]) == c[k].content
  {
    FlattenPairUp(store[patientId].conversation);
  }

  /** The fields of a diagnosis object the page reads. */
  datatype DiagnosisFields = DiagnosisFields(
    prediction: Option<int>, result: Option<int>, model: Option<string>, probability: Option<real>)

  /** A parsed JSON body: its own top-level diagnosis fields and its `diagnosis` member, if any. */
  datatype LatestBody = LatestBody(top: DiagnosisFields, nested: Option<DiagnosisFields>)

  const NoFields := DiagnosisFields(None, None, None, None)

  function FieldsOf(d: Diagnosis): DiagnosisFields {
    DiagnosisFields(Some(d.prediction), None, Some(d.model), Some(d.probability))
  }

  /**
    `getLatestDiagnosis`: a transport failure or any error status gives null;
    a 200 gives the parsed body, which the backend shapes as
    `{ success: true, diagnosis }`.
  */
  function FetchLatest(server: Result<Diagnosis, DiagnosisStore.LookupError>, transportFails: bool)
    : (r: Option<LatestBody>)
    ensures r.Some? <==> !transportFails && server.Success?
    ensures r.Some? ==> r.value.top == NoFields && r.value.nested == Some(FieldsOf(server.value))
  {
    if transportFails || server.Failure? then None
    else Some(LatestBody(NoFields, Some(FieldsOf(server.value))))
  }

  /** The acceptance test of the page: keep an object only when `prediction` or `result` is defined. */
  function AcceptFields(f: Option<DiagnosisFields>): (r: Option<DiagnosisFields>)
    ensures r.Some? <==> f.Some? && (f.value.prediction.Some? || f.value.result.Some?)
    ensures r.Some? ==> r == f
  {
    if f.Some? && (f.value.prediction.Some? || f.value.result.Some?) then f else None
  }

  /** As written: the test is applied to the response body itself. */
  function AcceptLatestAsWritten(body: Option<LatestBody>): Option<DiagnosisFields> {
    AcceptFields(if body.Some? then Some(body.value.top) else None)
  }

  /**
    The envelope carries the record under `diagnosis`, so the test as written
    never keeps anything: whatever the backend finds, the page holds no latest
    diagnosis and sends no context.
  */
  lemma LatestNeverAcceptedAsWritten(server: Result<Diagnosis, DiagnosisStore.LookupError>, transportFails: bool)
    ensures AcceptLatestAsWritten(FetchLatest(server, transportFails)) == None
  {
  }

  /** Corrected: the test is applied to the `diagnosis` member of the body. */
  function AcceptLatest(body: Option<LatestBody>): (r: Option<DiagnosisFields>)
    ensures r.Some? <==> body.Some? && body.value.nested.Some?
                         && (body.value.nested.value.prediction.Some? || body.value.nested.value.result.Some?)
    ensures r.Some? ==> r == body.value.nested
  {
    AcceptFields(if body.Some? then body.value.nested else None)
  }

  /** With the correction, a record the backend finds is kept exactly, and a failed lookup keeps nothing. */
  lemma LatestAcceptedCorrected(server: Result<Diagnosis, DiagnosisStore.LookupError>, transportFails: bool)
    ensures AcceptLatest(FetchLatest(server, transportFails)).Some? <==> !transportFails && server.Success?
    ensures !transportFails && server.Success? ==>
              AcceptLatest(FetchLatest(server, transportFails)) == Some(FieldsOf(server.value))
  {
  }

  /** The context object sent with a message: `prediction ?? result`, `model || "unknown"`, the probability as is. */
  function OutgoingContext(latest: Option<DiagnosisFields>): (r: Option<Chatbot.RiskContext>)
    ensures r.None? <==> latest.None?
    ensures r.Some? ==> r.value.model.Some? && r.value.model.value != ""
    ensures r.Some? ==> r.value.probability == latest.value.probability
    ensures r.Some? && latest.value.prediction.Some? ==>
              r.value.prediction == Some(Chatbot.Number(latest.value.prediction.value))
    ensures r.Some? && latest.value.prediction.None? && latest.value.result.Some? ==>
              r.value.prediction == Some(Chatbot.Number(latest.value.result.value))
  {
    match latest
    case None => None
    case Some(f) =>
      var p := if f.prediction.Some? then f.prediction else f.result;
      var m := if f.model.Some? && f.model.value != "" then f.model.value else "unknown";
      Some(Chatbot.RiskContext(if p.Some? then Some(Chatbot.Number(p.value)) else None, Some(m), f.probability))
  }

  /**
    End to end, with the correction: the risk reply the backend renders from
    the page's context uses the stored record's prediction and probability.
  */
  lemma ContextCarriesStoredDiagnosis(d: Diagnosis)
    ensures var ctx := OutgoingContext(AcceptLatest(FetchLatest(Success(d), false)));
            var snap := Chatbot.ResolveSnapshot(ctx, None);
            snap.Some? && snap.value.prediction == Chatbot.Number(d.prediction)
            && snap.value.probability == d.probability
            && (d.model != "" ==> snap.value.model == d.model)
  {
  }

  /** `if (!input.trim() || isTyping) return;` */
  function ShouldSend(input: string, typing: bool): (b: bool)
    ensures b <==> !typing && !Text.AllSpace(Text.JsSpace, input)
  {
    Text.Trim(Text.JsSpace, input) != "" && !typing
  }

  /** A message the page sends is never one the backend rejects as empty. */
  lemma SentMessageNotRejected(input: string, ctx: Option<Chatbot.RiskContext>, patientId: Option<string>,
                               env: Chatbot.TurnEnv, fmt: real -> string)
    requires ShouldSend(input, false)
    ensures Chatbot.Turn(Chatbot.ChatRequest(Some(Text.Trim(Text.JsSpace, input)), ctx, patientId), env, fmt).status != 400
  {
  }

  /** The response to a send: its `ok` flag and the `reply` field of its body, or a thrown fetch. */
  datatype ChatResponse = Response(ok: bool, reply: Option<string>) | NetworkFailed

  const NoResponseNotice: string := "⚠️ No response from bot."
  const FailureNotice: string := "⚠️ Something went wrong. Please try again."

  /** A falsy reply gives the "no response" notice; a non-OK status or a thrown fetch the failure notice. */
  function ShownReply(r: ChatResponse): (s: string)
    ensures s != ""
    ensures r.NetworkFailed? || !r.ok ==> s == FailureNotice
    ensures r.Response? && r.ok && r.reply.Some? && r.reply.value != "" ==> s == r.reply.value
    ensures r.Response? && r.ok && (r.reply.None? || r.reply.value == "") ==> s == NoResponseNotice
  {
    match r
    case NetworkFailed => FailureNotice
    case Response(ok, reply) =>
      if !ok then FailureNotice
      else if reply.Some? && reply.value != "" then reply.value
      else NoResponseNotice
  }

  function ResponseOf(t: Chatbot.TurnOutcome): ChatResponse {
    Response(200 <= t.status < 300, Some(t.reply))
  }

  /** The page shows the backend's reply after a completed turn, and its own failure notice otherwise. */
  lemma ShownReplyOfTurn(req: Chatbot.ChatRequest, env: Chatbot.TurnEnv, fmt: real -> string)
    ensures var t := Chatbot.Turn(req, env, fmt);
            ShownReply(ResponseOf(t)) == (if t.status == 200 then t.reply else FailureNotice)
  {
  }

  const NoPatientNotice: string := "⚠️ No patient ID found. Please complete a diagnosis first."

  /** The page state after loading. */
  datatype PageState = PageState(messages: seq<Bubble>, latest: Option<DiagnosisFields>)

  /**
    The loading effect as written: without a patient name only a notice is
    shown and nothing is fetched; otherwise the history and the latest
    diagnosis are loaded independently, the latter through the test on the
    response body itself.
  */
  function Load(patientName: Option<string>, history: HistoryResponse, latest: Option<LatestBody>, now: nat)
    : (s: PageState)
    ensures patientName.None? || patientName.value == "" ==>
              s == PageState([BotBubble(NoPatientNotice, now, None)], None)
    ensures patientName.Some? && patientName.value != "" ==>
              s.messages == LoadMessages(history)
              && (s.latest.Some? <==> latest.Some? && (latest.value.top.prediction.Some? || latest.value.top.result.Some?))
              && (s.latest.Some? ==> s.latest == Some(latest.value.top))
  {
    if patientName.None? || patientName.value == "" then PageState([BotBubble(NoPatientNotice, now, None)], None)
    else PageState(LoadMessages(history), AcceptLatestAsWritten(latest))
  }

  /**
    Whatever the backend stores, the page as written holds no latest diagnosis
    after loading, so every message goes out without a context.
  */
  lemma LoadKeepsNoDiagnosis(patientName: Option<string>, history: HistoryResponse,
                             server: Result<Diagnosis, DiagnosisStore.LookupError>, transportFails: bool, now: nat)
    ensures Load(patientName, history, FetchLatest(server, transportFails), now).latest == None
    ensures OutgoingContext(Load(patientName, history, FetchLatest(server, transportFails), now).latest) == None
  {
    LatestNeverAcceptedAsWritten(server, transportFails);
  }

  /** The loading effect with the corrected test: the record nested in the envelope is kept when it qualifies. */
  function LoadCorrected(patientName: Option<string>, history: HistoryResponse, latest: Option<LatestBody>, now: nat)
    : (s: PageState)
    ensures patientName.None? || patientName.value == "" ==>
              s == PageState([BotBubble(NoPatientNotice, now, None)], None)
    ensures patientName.Some? && patientName.value != "" ==>
              s.messages == LoadMessages(history)
              && (s.latest.Some? <==> latest.Some? && latest.value.nested.Some?
                                      && (latest.value.nested.value.prediction.Some? || latest.value.nested.value.result.Some?))
              && (s.latest.Some? ==> s.latest == latest.value.nested)
  {
    if patientName.None? || patientName.value == "" then PageState([BotBubble(NoPatientNotice, now, None)], None)
    else PageState(LoadMessages(history), AcceptLatest(latest))
  }

  /** With the correction, the page keeps exactly the record the backend found, and sends it as context. */
  lemma LoadCorrectedKeepsStoredDiagnosis(name: string, history: HistoryResponse, d: Diagnosis, now: nat)
    requires name != ""
    ensures LoadCorrected(Some(name), history, FetchLatest(Success(d), false), now).latest == Some(FieldsOf(d))
    ensures OutgoingContext(LoadCorrected(Some(name), history, FetchLatest(Success(d), false), now).latest).Some?
  {
    LatestAcceptedCorrected(Success(d), false);
  }

  /**
    `handleSendMessage`, after the typing animation has finished: an ignored
    send changes nothing; otherwise the trimmed message and the shown reply are
    appended as two bubbles.
  */
  function Send(s: PageState, input: string, typing: bool, response: ChatResponse, now: nat): (r: PageState)
    ensures !ShouldSend(input, typing) ==> r == s
    ensures ShouldSend(input, typing) ==> r.latest == s.latest && |r.messages| == |s.messages| + 2
    ensures ShouldSend(input, typing) ==> r.messages[..|s.messages|] == s.messages
    ensures ShouldSend(input, typing) ==>
              BubbleText(r.messages[|s.messages|]) == Text.Trim(Text.JsSpace, input)
              && BubbleText(r.messages[|s.messages| + 1]) == ShownReply(response)
  {
    if !ShouldSend(input, typing) then s
    else
      var stamp := Text.NatToString(now);
      s.(messages := s.messages
                     + [UserBubble(Text.Trim(Text.JsSpace, input), now, Some("user-" + stamp)),
                        BotBubble(ShownReply(response), now, Some("bot-" + stamp))])
  }
}

=== FILE: chat_history.dfy ===
/**
  The read and maintenance operations of backend/controllers/chatbotController.js:
  pairing the stored conversation into (message, reply) history entries, the
  recent-message window used as prompt context, clearing, and statistics.
*/
module ChatHistory {
  import opened Wrappers
  import opened ChatModel

  /** One entry of the history response. */
  datatype HistoryEntry = HistoryEntry(message: string, reply: string, createdAt: nat, updatedAt: nat)

  /** Position `i` holds a user message immediately followed by an assistant message. */
  predicate PairStart(c: seq<Message>, i: int) {
    0 <= i < |c| - 1 && c[i].role == User && c[i + 1].role == Assistant
  }

  function EntryAt(c: seq<Message>, i: int): HistoryEntry
    requires 0 <= i < |c| - 1
  {
    HistoryEntry(c[i].content, c[i + 1].content, c[i].timestamp, c[i + 1].timestamp)
  }

  function EntryOf(user: Message, assistant: Message): HistoryEntry {
    HistoryEntry(user.content, assistant.content, user.timestamp, assistant.timestamp)
  }

  /**
    The positional pairing of `getChatHistory`: walking the conversation in
    order, each user message whose successor is an assistant message yields one
    entry; every other message is skipped.
  */
  function PairUp(c: seq<Message>): (h: seq<HistoryEntry>)
    ensures 2 * |h| <= |c|
    decreases |c|
  {
    if |c| < 2 then []
    else if c[0].role == User && c[1].role == Assistant then
      assert PairUp(c[1..]) == PairUp(c[2..]) by {
        assert c[1..][1..] == c[2..];
      }
      [EntryAt(c, 0)] + PairUp(c[1..])
    else
      PairUp(c[1..])
  }

  /** Every history entry comes from a user/assistant adjacency of the conversation. */
  lemma {:induction false} PairUpSound(c: seq<Message>, k: int)
    requires 0 <= k < |PairUp(c)|
    ensures exists i :: PairStart(c, i) && PairUp(c)[k] == EntryAt(c, i)
    decreases |c|
  {
    if c[0].role == User && c[1].role == Assistant && k == 0 {
      assert PairStart(c, 0);
    } else {
      var k' := if c[0].role == User && c[1].role == Assistant then k - 1 else k;
      PairUpSound(c[1..], k');
      var j :| PairStart(c[1..], j) && PairUp(c[1..])[k'] == EntryAt(c[1..], j);
      assert PairStart(c, j + 1) && EntryAt(c, j + 1) == EntryAt(c[1..], j);
    }
  }

  /** Every user/assistant adjacency of the conversation shows up in the history. */
  lemma {:induction false} PairUpComplete(c: seq<Message>, i: int)
    requires PairStart(c, i)
    ensures EntryAt(c, i) in PairUp(c)
    decreases i
  {
    if i > 0 {
      PairUpComplete(c[1..], i - 1);
      assert EntryAt(c[1..], i - 1) == EntryAt(c, i);
    }
  }

  /** A conversation that does not end in a user message. */
  predicate NoTrailingUser(c: seq<Message>) {
    c == [] || c[|c| - 1].role != User
  }

  /**
    Pairing distributes over concatenation when the seam does not join a
    trailing user message to a leading assistant message.
  */
  lemma {:induction false} PairUpConcat(a: seq<Message>, b: seq<Message>)
    requires NoTrailingUser(a) || b == [] || b[0].role != Assistant
    ensures PairUp(a + b) == PairUp(a) + PairUp(b)
    decreases |a|
  {
    if a == [] {
      assert a + b == b;
    } else if |a| == 1 {
      assert (a + b)[1..] == b;
      if |b| == 0 {
        assert a + b == a;
      }
    } else {
      assert (a + b)[1..] == a[1..] + b;
      PairUpConcat(a[1..], b);
    }
  }

  /**
    Appending one user message followed by one assistant message adds exactly
    that pair, last, to the history, whatever the conversation held before.
  */
  lemma AppendPairHistory(c: seq<Message>, user: Message, assistant: Message)
    requires user.role == User && assistant.role == Assistant
    ensures PairUp(c + [user, assistant]) == PairUp(c) + [EntryOf(user, assistant)]
  {
    PairUpConcat(c, [user, assistant]);
    assert [user, assistant][1..][1..] == [];
  }

  /** The conversation is a sequence of user/assistant pairs, as every turn writes it. */
  ghost predicate WellPaired(c: seq<Message>) {
    |c| % 2 == 0 && forall k :: 0 <= k < |c| ==> c[k].role == (if k % 2 == 0 then User else Assistant)
  }

  /** Every stored conversation is a sequence of user/assistant pairs. */
  ghost predicate AllWellPaired(chats: ChatStore) {
    forall k :: k in chats ==> WellPaired(chats[k].conversation)
  }

  /** Appending a user/assistant pair keeps a conversation well paired. */
  lemma WellPairedAppend(c: seq<Message>, user: Message, assistant: Message)
    requires WellPaired(c) && user.role == User && assistant.role == Assistant
    ensures WellPaired(c + [user, assistant])
  {
  }

  /** On a well-paired conversation the history has one entry per pair, in order. */
  lemma {:induction false} PairUpWellPaired(c: seq<Message>)
    requires WellPaired(c)
    ensures |PairUp(c)| == |c| / 2
    ensures forall k :: 0 <= k < |c| / 2 ==> PairUp(c)[k] == EntryAt(c, 2 * k)
    decreases |c|
  {
    if c != [] {
      assert PairStart(c, 0);
      var rest := c[2..];
      assert PairUp(c) == [EntryAt(c, 0)] + PairUp(rest) by {
        assert c[1..][1..] == rest;
      }
      assert WellPaired(rest) by {
        forall k | 0 <= k < |rest| ensures rest[k].role == (if k % 2 == 0 then User else Assistant) {
          assert rest[k] == c[k + 2];
        }
      }
      PairUpWellPaired(rest);
      forall k | 1 <= k < |c| / 2 ensures PairUp(c)[k] == EntryAt(c, 2 * k) {
        assert PairUp(c)[k] == PairUp(rest)[k - 1];
        assert EntryAt(rest, 2 * (k - 1)) == EntryAt(c, 2 * k);
      }
    }
  }

  /** The two error responses of the chat read endpoints. */
  datatype HistoryError = ServerError

  /**
    `getChatHistory`: no document or an empty conversation gives `[]`, a failed
    read gives a server error, otherwise the paired history.
  */
  function GetHistory(doc: Lookup<ChatDoc>): (r: Result<seq<HistoryEntry>, HistoryError>)
    ensures r.Failure? <==> doc.Fault?
    ensures doc.Miss? ==> r == Success([])
    ensures doc.Hit? && doc.value.conversation == [] ==> r == Success([])
    ensures doc.Hit? ==> r.Success? && 2 * |r.value| <= |doc.value.conversation|
    ensures doc.Hit? ==> r == Success(PairUp(doc.value.conversation))
  {
    match doc
    case Fault => Failure(ServerError)
    case Miss => Success([])
    case Hit(d) => Success(PairUp(d.conversation))
  }

  /** The prompt-context view of one stored message: role and content only. */
  datatype ContextMessage = ContextMessage(role: Role, content: string)

  function Strip(m: Message): ContextMessage {
    ContextMessage(m.role, m.content)
  }

  /**
    `getRecentChatContext(patientId, limit)`: `conversation.slice(-limit)` reduced
    to role and content; no document, an empty conversation or a failed read
    give `[]`. As in JavaScript, `slice(-0)` keeps the whole conversation.
  */
  function RecentContext(doc: Lookup<ChatDoc>, limit: nat): (r: seq<ContextMessage>)
    ensures !doc.Hit? ==> r == []
    ensures doc.Hit? && limit > 0 ==> |r| == Min(limit, |doc.value.conversation|)
    ensures doc.Hit? && limit == 0 ==> |r| == |doc.value.conversation|
    ensures doc.Hit? ==> forall k :: 0 <= k < |r| ==>
              r[k] == Strip(doc.value.conversation[|doc.value.conversation| - |r| + k])
  {
    match doc
    case Hit(d) =>
      var c := d.conversation;
      var start := if limit == 0 || limit >= |c| then 0 else |c| - limit;
      seq(|c| - start, k requires 0 <= k < |c| - start => Strip(c[start + k]))
    case _ => []
  }

  /**
    `clearChatHistory`: the patient's conversation becomes empty (the document
    is created if absent) and no other patient's document changes.
  */
  function ClearHistory(store: ChatStore, patientId: string, now: nat): (s: ChatStore)
    ensures ConversationOf(s, patientId) == []
    ensures forall k :: k != patientId ==> ConversationOf(s, k) == ConversationOf(store, k)
    ensures forall k :: k in store && k != patientId ==> k in s && s[k] == store[k]
    ensures KeyedByPatient(store) ==> KeyedByPatient(s)
  {
    ResetConversation(store, patientId, now)
  }

  /** The HTTP status of a clear request and the store it leaves behind. */
  datatype ClearOutcome = ClearOutcome(status: nat, store: ChatStore)

  /**
    The clear endpoint as a whole: a failed `updateOne` is a 500 and the store
    is as it was; otherwise a 200 and the conversation has been cleared.
  */
  function ClearRoute(store: ChatStore, patientId: string, now: nat, writeFails: bool): (r: ClearOutcome)
    ensures r.status == 200 || r.status == 500
    ensures r.status == 500 <==> writeFails
    ensures r.status == 500 ==> r.store == store
    ensures r.status == 200 ==> ConversationOf(r.store, patientId) == []
    ensures r.status == 200 ==> forall k :: k != patientId ==> ConversationOf(r.store, k) == ConversationOf(store, k)
  {
    if writeFails then ClearOutcome(500, store) else ClearOutcome(200, ClearHistory(store, patientId, now))
  }

  /** After a clear request the patient's history is empty, unless the write failed and it is untouched. */
  lemma ClearRouteHistory(store: ChatStore, patientId: string, now: nat, writeFails: bool)
    ensures var r := ClearRoute(store, patientId, now, writeFails);
            GetHistory(FindChat(r.store, patientId, false))
            == if writeFails then GetHistory(FindChat(store, patientId, false)) else Success([])
  {
  }

  /** Clearing twice is the same as clearing once. */
  lemma ClearIdempotent(store: ChatStore, patientId: string, now: nat)
    ensures ClearHistory(ClearHistory(store, patientId, now), patientId, now)
         == ClearHistory(store, patientId, now)
  {
  }

  /** After a clear the history of that patient is empty. */
  lemma ClearThenHistoryEmpty(store: ChatStore, patientId: string, now: nat)
    ensures GetHistory(FindChat(ClearHistory(store, patientId, now), patientId, false)) == Success([])
  {
  }

  /** Number of messages with the given role. */
  function CountRole(c: seq<Message>, role: Role): (n: nat)
    ensures n <= |c|
  {
    if c == [] then 0 else (if c[0].role == role then 1 else 0) + CountRole(c[1..], role)
  }

  /** Every message is either a user or an assistant message. */
  lemma {:induction false} CountRolesPartition(c: seq<Message>)
    ensures CountRole(c, User) + CountRole(c, Assistant) == |c|
  {
    if c != [] {
      CountRolesPartition(c[1..]);
    }
  }

  datatype Stats = Stats(total: nat, userMessages: nat, assistantMessages: nat,
                         firstMessage: nat, lastMessage: nat, lastActive: nat)

  datatype StatsError = NotFound | StatsFailed

  /**
    `getConversationStats`: 404 when there is no document or its conversation is
    empty; otherwise the message counts, the first and last message times and
    the document's `lastActive`.
  */
  function ConversationStats(doc: Lookup<ChatDoc>): (r: Result<Stats, StatsError>)
    ensures r == Failure(StatsFailed) <==> doc.Fault?
    ensures r == Failure(NotFound) <==> doc.Miss? || (doc.Hit? && doc.value.conversation == [])
    ensures r.Success? ==> r.value.total == r.value.userMessages + r.value.assistantMessages
    ensures r.Success? ==> r.value.total == |doc.value.conversation| > 0
    ensures r.Success? ==> r.value.userMessages == CountRole(doc.value.conversation, User)
    ensures r.Success? ==> r.value.firstMessage == doc.value.conversation[0].timestamp
    ensures r.Success? ==> r.value.lastMessage == doc.value.conversation[|doc.value.conversation| - 1].timestamp
    ensures r.Success? ==> r.value.lastActive == doc.value.lastActive
  {
    match doc
    case Fault => Failure(StatsFailed)
    case Miss => Failure(NotFound)
    case Hit(d) =>
      var c := d.conversation;
      if c == [] then Failure(NotFound)
      else
        CountRolesPartition(c);
        Success(Stats(|c|, CountRole(c, User), CountRole(c, Assistant),
                      c[0].timestamp, c[|c| - 1].timestamp, d.lastActive))
  }
}

=== FILE: chat_model.dfy ===
/**
  The chat document of backend/models/Chat.js: a per-patient, append-only log of
  user/assistant messages, and the in-memory store of those documents keyed by
  patient id (every write in the system is an upsert keyed by `patientId`).
*/
module ChatModel {
  import opened Wrappers

  datatype Role = User | Assistant

  function RoleName(r: Role): string {
    match r
    case User => "user"
    case Assistant => "assistant"
  }

  /** The `enum: ['user', 'assistant']` check on a stored role string. */
  function ParseRole(s: string): (r: Option<Role>)
    ensures r.Some? <==> (s == "user" || s == "assistant")
    ensures r.Some? ==> RoleName(r.value) == s
  {
    if s == "user" then Some(User)
    else if s == "assistant" then Some(Assistant)
    else None
  }

  /** Every role survives a round trip through its stored name. */
  lemma ParseRoleName(r: Role)
    ensures ParseRole(RoleName(r)) == Some(r)
  {
  }

  datatype Message = Message(role: Role, content: string, timestamp: nat)

  /** `content` is a required String, and Mongoose rejects the empty string for it. */
  predicate ValidMessage(m: Message) {
    m.content != ""
  }

  /** Which schema rules a candidate message breaks. */
  datatype SchemaError = SchemaError(badRole: bool, missingContent: bool)

  /**
    Casting and validating one conversation entry: the role must be one of the
    two enum values, the content must be present and non-empty, and a missing
    timestamp defaults to the creation time `now`.
  */
  function ValidateMessage(role: string, content: Option<string>, timestamp: Option<nat>, now: nat)
    : (r: Result<Message, SchemaError>)
    ensures r.Success? <==> ParseRole(role).Some? && content.Some? && content.value != ""
    ensures r.Success? ==> ValidMessage(r.value) && RoleName(r.value.role) == role
    ensures r.Success? ==> r.value.content == content.value
    ensures r.Success? && timestamp.Some? ==> r.value.timestamp == timestamp.value
    ensures r.Success? && timestamp.None? ==> r.value.timestamp == now
    ensures r.Failure? ==> r.error.badRole == ParseRole(role).None?
    ensures r.Failure? ==> r.error.missingContent == (content.None? || content.value == "")
  {
    var parsed := ParseRole(role);
    var text := content.GetOr("");
    if parsed.Some? && text != "" then
      Success(Message(parsed.value, text, timestamp.GetOr(now)))
    else
      Failure(SchemaError(parsed.None?, text == ""))
  }

  datatype ChatDoc = ChatDoc(patientId: string, conversation: seq<Message>, lastActive: nat)

  /** A fresh document: `patientId` defaults to "general", the conversation to empty, `lastActive` to now. */
  function NewChatDoc(patientId: Option<string>, now: nat): (d: ChatDoc)
    ensures d.conversation == [] && d.lastActive == now
    ensures patientId.None? ==> d.patientId == "general"
    ensures patientId.Some? ==> d.patientId == patientId.value
  {
    ChatDoc(patientId.GetOr("general"), [], now)
  }

  type ChatStore = map<string, ChatDoc>

  /** Every document sits under its own patient id. */
  ghost predicate KeyedByPatient(store: ChatStore) {
    forall k :: k in store ==> store[k].patientId == k
  }

  /** Every stored message satisfies the schema. */
  ghost predicate AllValid(chats: ChatStore) {
    forall k, i :: k in chats && 0 <= i < |chats[k].conversation| ==> ValidMessage(chats[k].conversation[i])
  }

  /** The conversation stored for `patientId`, empty when there is no document. */
  function ConversationOf(store: ChatStore, patientId: string): seq<Message> {
    if patientId in store then store[patientId].conversation else []
  }

  /**
    `updateOne({patientId}, {$push: {conversation: [user, assistant]}, $set: {lastActive}}, {upsert: true})`:
    the pair lands at the end of the patient's conversation, creating the
    document if it is absent; no other document changes.
  */
  function PushPair(store: ChatStore, patientId: string, user: Message, assistant: Message, now: nat)
    : (s: ChatStore)
    ensures patientId in s
    ensures s[patientId].conversation == ConversationOf(store, patientId) + [user, assistant]
    ensures s[patientId].patientId == patientId && s[patientId].lastActive == now
    ensures s.Keys == store.Keys + {patientId}
    ensures forall k :: k in store && k != patientId ==> s[k] == store[k]
    ensures KeyedByPatient(store) ==> KeyedByPatient(s)
  {
    store[patientId := ChatDoc(patientId, ConversationOf(store, patientId) + [user, assistant], now)]
  }

  /**
    `updateOne({patientId}, {$set: {conversation: [], lastActive}}, {upsert: true})`:
    the patient's conversation becomes empty, creating the document if absent.
  */
  function ResetConversation(store: ChatStore, patientId: string, now: nat): (s: ChatStore)
    ensures patientId in s && s[patientId].conversation == []
    ensures s[patientId].patientId == patientId && s[patientId].lastActive == now
    ensures s.Keys == store.Keys + {patientId}
    ensures forall k :: k in store && k != patientId ==> s[k] == store[k]
    ensures KeyedByPatient(store) ==> KeyedByPatient(s)
  {
    store[patientId := ChatDoc(patientId, [], now)]
  }

  /** `Chat.findOne({patientId})`, where the read itself may fail. */
  function FindChat(store: ChatStore, patientId: string, readFails: bool): (r: Lookup<ChatDoc>)
    ensures r.Fault? <==> readFails
    ensures r.Hit? ==> patientId in store && r.value == store[patientId]
    ensures r.Miss? ==> patientId !in store
  {
    if readFails then Fault
    else if patientId in store then Hit(store[patientId])
    else Miss
  }
}

=== FILE: chatbot.dfy ===
/**
  One chat turn of `chatbotReply` (backend/controllers/chatbotController.js):
  reject an empty message, classify the intent by keyword, answer risk questions
  from a template fed by the caller's context or the latest stored diagnosis,
  answer everything else through the external language service with a fallback,
  and append exactly one user/assistant pair to the patient's conversation.
  The external service, the stores' failures, the clock and the percentage
  renderer are parameters.
*/
module Chatbot {
  import opened Wrappers
  import Text
  import opened ChatModel
  import opened ChatHistory
  import opened DiagnosisModel
  import DiagnosisStore

  /** The result of `parseInt` on a prediction value: an integer, or NaN. */
  datatype Parsed = Number(n: int) | NotANumber

  /**
    The caller-supplied `context` object. `prediction` is `None` when the
    property is undefined; a present value, `null` included, is held as its
    `parseInt` result, which for `null` is NaN.
  */
  datatype RiskContext = RiskContext(prediction: Option<Parsed>, model: Option<string>, probability: Option<real>)

  /** The request body of `POST /respond`. */
  datatype ChatRequest = ChatRequest(message: Option<string>, context: Option<RiskContext>, patientId: Option<string>)

  /** The diagnosis facts a risk reply is rendered from. */
  datatype Snapshot = Snapshot(prediction: Parsed, model: string, probability: real)

  /** What came back from the external language service. */
  datatype AiOutcome = HttpReply(status: int, text: Option<string>) | TransportFailed

  /** The leading emoji that tells the fixed replies apart. */
  const WarnMark: string := "⚠️"
  const CheckMark: string := "✅"
  const PageMark: string := "📄"

  const EmptyMessageReply: string := "Please ask something!"
  const NoDiagnosisReply: string := PageMark + " No diagnosis found yet. Please complete a prediction first."
  const ServerErrorReply: string := WarnMark + " Error generating response. Please try again."
  const UnavailableReply: string :=
    WarnMark + " AI service is currently unavailable. Please try asking about your heart disease risk or check back later."
  const NoResponseReply: string := WarnMark + " AI service did not return a response. Please try again."
  const Persona: string :=
    "You are a helpful health assistant specializing in heart disease. Provide accurate, supportive health information. Keep responses concise and helpful."
  const DefaultProbability: real := 0.85
  const UnknownModel: string := "Unknown Model"
  const ContextWindow: nat := 4

  const RecommendationItems: seq<string> := [
    "Visit a cardiologist",
    "Follow a heart-healthy diet",
    "Exercise regularly",
    "Avoid smoking/alcohol",
    "Track blood pressure & cholesterol"
  ]

  /** One "\n• item" line per recommendation. */
  function Bullets(items: seq<string>): string {
    if items == [] then "" else "\n• " + items[0] + Bullets(items[1..])
  }

  /** Every item of a bullet list occurs in its rendering. */
  lemma {:induction false} BulletsContainItems(items: seq<string>, k: int)
    requires 0 <= k < |items|
    ensures Text.Contains(Bullets(items), items[k])
  {
    if k == 0 {
      Text.ContainsMiddle("\n• ", items[0], Bullets(items[1..]));
    } else {
      BulletsContainItems(items[1..], k - 1);
      var j :| Text.OccursAt(Bullets(items[1..]), items[k], j);
      OccursAfterPrefix("\n• " + items[0], Bullets(items[1..]), items[k], j);
      assert Bullets(items) == ("\n• " + items[0]) + Bullets(items[1..]);
    }
  }

  const AtRiskHead: string := WarnMark + " You may be at risk of coronary heart disease.\n" + "📊 Model: "
  const NotAtRiskHead: string := CheckMark + " You are not at risk of CHD according to our latest prediction.\n" + "📊 Model: "
  const ConfidenceLabel: string := "\nConfidence: "
  const RecommendationBlock: string := "%\n\n" + "🩺 Recommendations:" + Bullets(RecommendationItems)
  const LifestyleNote: string := "%\n\n" + "💡 Still, maintain a healthy lifestyle!"

  function AtRiskReply(model: string, percent: string): string {
    AtRiskHead + model + ConfidenceLabel + percent + RecommendationBlock
  }

  function NotAtRiskReply(model: string, percent: string): string {
    NotAtRiskHead + model + ConfidenceLabel + percent + LifestyleNote
  }

  /** `sub` occurs in `s` at `i`, so also in `pre + s` at `|pre| + i`. */
  lemma OccursAfterPrefix(pre: string, s: string, sub: string, i: int)
    requires Text.OccursAt(s, sub, i)
    ensures Text.OccursAt(pre + s, sub, |pre| + i)
  {
    assert (pre + s)[|pre| + i..|pre| + i + |sub|] == s[i..i + |sub|];
  }

  /** The pieces of a filled template `head + model + caption + percent + tail` occur in it. */
  lemma FilledTemplateContents(head: string, model: string, caption: string, percent: string, tail: string)
    ensures Text.Contains(head + model + caption + percent + tail, model)
    ensures Text.Contains(head + model + caption + percent + tail, percent)
    ensures forall sub, j :: Text.OccursAt(tail, sub, j) ==> Text.Contains(head + model + caption + percent + tail, sub)
  {
    var r := head + model + caption + percent + tail;
    Text.ContainsMiddle(head, model, caption + percent + tail);
    assert r == head + model + (caption + percent + tail);
    Text.ContainsMiddle(head + model + caption, percent, tail);
    forall sub, j | Text.OccursAt(tail, sub, j)
      ensures Text.Contains(r, sub)
    {
      OccursAfterPrefix(head + model + caption + percent, tail, sub, j);
    }
  }

  /** The at-risk reply names the model and the percentage and lists all five recommendations. */
  lemma AtRiskReplyContents(model: string, percent: string)
    ensures Text.Contains(AtRiskReply(model, percent), model)
    ensures Text.Contains(AtRiskReply(model, percent), percent)
    ensures forall k :: 0 <= k < |RecommendationItems| ==>
              Text.Contains(AtRiskReply(model, percent), RecommendationItems[k])
  {
    FilledTemplateContents(AtRiskHead, model, ConfidenceLabel, percent, RecommendationBlock);
    forall k | 0 <= k < |RecommendationItems|
      ensures Text.Contains(RecommendationBlock, RecommendationItems[k])
    {
      BulletsContainItems(RecommendationItems, k);
      var j :| Text.OccursAt(Bullets(RecommendationItems), RecommendationItems[k], j);
      OccursAfterPrefix("%\n\n" + "🩺 Recommendations:", Bullets(RecommendationItems), RecommendationItems[k], j);
    }
  }

  /** The three risk replies are told apart by their first character. */
  lemma RiskRepliesDistinct(m1: string, p1: string, m2: string, p2: string)
    ensures AtRiskReply(m1, p1) != NotAtRiskReply(m2, p2)
    ensures AtRiskReply(m1, p1) != NoDiagnosisReply
    ensures NotAtRiskReply(m2, p2) != NoDiagnosisReply
  {
    assert AtRiskReply(m1, p1)[0] == WarnMark[0];
    assert NotAtRiskReply(m2, p2)[0] == CheckMark[0];
    assert NoDiagnosisReply[0] == PageMark[0];
  }

  /** The keyword dispatch, applied to the lower-cased message. */
  function IsRiskQuery(lower: string): (b: bool)
    ensures b <==> (exists i :: Text.OccursAt(lower, "risk", i)) || (exists i :: Text.OccursAt(lower, "predict", i))
  {
    Text.Contains(lower, "risk") || Text.Contains(lower, "predict")
  }

  /** `context && context.prediction !== undefined`. */
  predicate HasPrediction(ctx: Option<RiskContext>) {
    ctx.Some? && ctx.value.prediction.Some?
  }

  /**
    The diagnosis a risk reply is based on: a context carrying a prediction wins
    over the stored record; a missing probability becomes 0.85 and a missing
    or empty model name becomes "Unknown Model".
  */
  function ResolveSnapshot(ctx: Option<RiskContext>, stored: Option<Diagnosis>): (r: Option<Snapshot>)
    ensures HasPrediction(ctx) ==> r.Some? && r.value.prediction == ctx.value.prediction.value
    ensures HasPrediction(ctx) ==>
              r.value.probability == (if ctx.value.probability.Some? then ctx.value.probability.value else DefaultProbability)
    ensures HasPrediction(ctx) ==>
              r.value.model == (if ctx.value.model.Some? && ctx.value.model.value != "" then ctx.value.model.value else UnknownModel)
    ensures !HasPrediction(ctx) ==> (r.Some? <==> stored.Some?)
    ensures !HasPrediction(ctx) && stored.Some? ==>
              r.value.prediction == Number(stored.value.prediction) && r.value.probability == stored.value.probability
    ensures !HasPrediction(ctx) && stored.Some? && stored.value.model != "" ==> r.value.model == stored.value.model
  {
    if HasPrediction(ctx) then
      var c := ctx.value;
      Some(Snapshot(c.prediction.value,
                    if c.model.Some? && c.model.value != "" then c.model.value else UnknownModel,
                    c.probability.GetOr(DefaultProbability)))
    else if stored.Some? then
      var d := stored.value;
      Some(Snapshot(Number(d.prediction), if d.model != "" then d.model else UnknownModel, d.probability))
    else None
  }

  /**
    A context whose `prediction` is present but null still takes the context
    branch: the stored record is ignored and the reply is the not-at-risk one.
  */
  lemma NullContextPredictionIsNotAtRisk(model: Option<string>, probability: Option<real>,
                                         stored: Option<Diagnosis>, fmt: real -> string)
    ensures var snap := ResolveSnapshot(Some(RiskContext(Some(NotANumber), model, probability)), stored);
            snap.Some? && snap.value.prediction == NotANumber
            && RiskReply(snap, fmt) == NotAtRiskReply(snap.value.model, fmt(snap.value.probability * 100.0))
  {
  }

  /** Template choice: no diagnosis, prediction 1, anything else. */
  function RiskReply(snap: Option<Snapshot>, fmt: real -> string): (r: string)
    ensures r != ""
    ensures snap.None? <==> r == NoDiagnosisReply
    ensures snap.Some? && snap.value.prediction == Number(1) ==>
              r == AtRiskReply(snap.value.model, fmt(snap.value.probability * 100.0))
    ensures snap.Some? && snap.value.prediction != Number(1) ==>
              r == NotAtRiskReply(snap.value.model, fmt(snap.value.probability * 100.0))
  {
    match snap
    case None => NoDiagnosisReply
    case Some(s) =>
      var percent := fmt(s.probability * 100.0);
      RiskRepliesDistinct(s.model, percent, s.model, percent);
      if s.prediction == Number(1) then AtRiskReply(s.model, percent) else NotAtRiskReply(s.model, percent)
  }

  const PatientIs: string := " The patient is "

  /** The system instruction: the persona, plus a risk-status sentence only when the context carries a prediction. */
  function SystemMessage(ctx: Option<RiskContext>): (r: string)
    ensures |r| >= |Persona| && r[..|Persona|] == Persona
    ensures r == Persona <==> !HasPrediction(ctx)
    ensures HasPrediction(ctx) && ctx.value.prediction.value == Number(1) ==>
              Text.OccursAt(r, "currently at risk", |Persona + PatientIs|)
    ensures HasPrediction(ctx) && ctx.value.prediction.value != Number(1) ==>
              Text.OccursAt(r, "currently not at risk", |Persona + PatientIs|)
  {
    if HasPrediction(ctx) then
      var status := if ctx.value.prediction.value == Number(1) then "currently at risk" else "currently not at risk";
      var r := Persona + PatientIs + status + " for coronary heart disease.";
      assert r[|Persona + PatientIs|..|Persona + PatientIs| + |status|] == status;
      r
    else Persona
  }

  function RoleLabel(r: Role): string {
    match r
    case User => "User"
    case Assistant => "Assistant"
  }

  /** The prompt parts: the system line, the recent messages labelled by role, then the new message as typed. */
  function PromptParts(system: string, recent: seq<ContextMessage>, message: string): (parts: seq<string>)
    ensures |parts| == |recent| + 2
    ensures parts[0] == "System: " + system
    ensures parts[|parts| - 1] == "User: " + message
    ensures forall k :: 0 <= k < |recent| ==> parts[k + 1] == RoleLabel(recent[k].role) + ": " + recent[k].content
  {
    ["System: " + system]
    + seq(|recent|, k requires 0 <= k < |recent| => RoleLabel(recent[k].role) + ": " + recent[k].content)
    + ["User: " + message]
  }

  /**
    The reply taken from the external service: any status but 200 or a transport
    failure gives the "unavailable" notice, a 200 without candidate text the
    "did not return" notice; no error reaches the client.
  */
  function AiReply(o: AiOutcome): (r: string)
    ensures r != ""
    ensures o.TransportFailed? || o.status != 200 ==> r == UnavailableReply
    ensures o.HttpReply? && o.status == 200 && (o.text.None? || o.text.value == "") ==> r == NoResponseReply
    ensures o.HttpReply? && o.status == 200 && o.text.Some? && o.text.value != "" ==> r == o.text.value
  {
    match o
    case TransportFailed => UnavailableReply
    case HttpReply(status, text) =>
      if status != 200 then UnavailableReply
      else if text.Some? && text.value != "" then text.value
      else NoResponseReply
  }

  /** A prompt opens with the system line, closes with the new message, and carries at most four earlier messages. */
  predicate PromptShape(prompt: seq<string>, ctx: Option<RiskContext>, message: string) {
    2 <= |prompt| <= ContextWindow + 2
    && prompt[0] == "System: " + SystemMessage(ctx)
    && prompt[|prompt| - 1] == "User: " + message
  }

  /** The collaborators and their failures, as seen by one turn. */
  datatype TurnEnv = TurnEnv(
    chats: ChatStore,
    diagnoses: DiagnosisStore.DiagnosisStore,
    diagnosisReadFails: bool,
    chatReadFails: bool,
    chatWriteFails: bool,
    ai: AiOutcome,
    now: nat)

  /** The HTTP status, the reply, the store afterwards, and the prompt sent out (if any). */
  datatype TurnOutcome = TurnOutcome(status: nat, reply: string, chats: ChatStore, prompt: Option<seq<string>>)

  /** `req.body.patientId || "unknown"`. */
  function PatientKey(p: Option<string>): (k: string)
    ensures k != ""
  {
    if p.Some? && p.value != "" then p.value else "unknown"
  }

  function StoredLatest(env: TurnEnv, patientId: string): Option<Diagnosis> {
    DiagnosisStore.Latest(env.diagnoses, (d: Diagnosis) => d.patientId == patientId)
  }

  /** The reply before persistence, or None when the diagnosis read failed. */
  function ComputeReply(lower: string, message: string, ctx: Option<RiskContext>, patientId: string,
                        env: TurnEnv, fmt: real -> string): (r: (Option<string>, Option<seq<string>>))
    ensures r.0.Some? ==> r.0.value != ""
    ensures r.1.Some? <==> !IsRiskQuery(lower)
    ensures r.0.None? <==> IsRiskQuery(lower) && !HasPrediction(ctx) && env.diagnosisReadFails
    ensures !IsRiskQuery(lower) ==> r.0 == Some(AiReply(env.ai))
    ensures IsRiskQuery(lower) && r.0.Some? ==>
              r.0.value == RiskReply(ResolveSnapshot(ctx, if HasPrediction(ctx) then None else StoredLatest(env, patientId)), fmt)
  {
    if IsRiskQuery(lower) then
      if !HasPrediction(ctx) && env.diagnosisReadFails then (None, None)
      else
        var stored := if HasPrediction(ctx) then None else StoredLatest(env, patientId);
        (Some(RiskReply(ResolveSnapshot(ctx, stored), fmt)), None)
    else
      var recent := RecentContext(FindChat(env.chats, patientId, env.chatReadFails), ContextWindow);
      (Some(AiReply(env.ai)), Some(PromptParts(SystemMessage(ctx), recent, message)))
  }

  /**
    `chatbotReply`: 400 for an empty message with nothing stored; otherwise the
    reply is computed and, unless a store operation fails (500, nothing
    stored), exactly one user message (as typed) and one assistant message
    (the reply) are appended to the patient's conversation.
  */
  function Turn(req: ChatRequest, env: TurnEnv, fmt: real -> string): (r: TurnOutcome)
    ensures r.status == 400 || r.status == 200 || r.status == 500
    ensures r.status == 400 <==> req.message.None? || req.message.value == ""
    ensures r.status == 400 ==> r.reply == EmptyMessageReply && r.prompt.None?
    ensures r.status != 200 ==> r.chats == env.chats
    ensures r.status == 500 ==> r.reply == ServerErrorReply
    ensures r.status == 500 <==>
              r.status != 400 && (env.chatWriteFails ||
                (IsRiskQuery(Text.ToLower(req.message.value)) && !HasPrediction(req.context) && env.diagnosisReadFails))
    ensures r.status == 200 && !IsRiskQuery(Text.ToLower(req.message.value)) ==> r.reply == AiReply(env.ai)
    ensures r.status == 200 && IsRiskQuery(Text.ToLower(req.message.value)) ==>
              r.reply == RiskReply(ResolveSnapshot(req.context,
                           if HasPrediction(req.context) then None else StoredLatest(env, PatientKey(req.patientId))), fmt)
    ensures r.status == 200 ==> r.reply != "" && r.chats == PushPair(env.chats, PatientKey(req.patientId),
              Message(User, req.message.value, env.now), Message(Assistant, r.reply, env.now), env.now)
    ensures r.prompt.Some? <==> r.status != 400 && !IsRiskQuery(Text.ToLower(req.message.value))
    ensures r.prompt.Some? ==> PromptShape(r.prompt.value, req.context, req.message.value)
  {
    var lower := if req.message.Some? then Text.ToLower(req.message.value) else "";
    if lower == "" then TurnOutcome(400, EmptyMessageReply, env.chats, None)
    else
      var message := req.message.value;
      var pid := PatientKey(req.patientId);
      var (reply, prompt) := ComputeReply(lower, message, req.context, pid, env, fmt);
      if reply.None? || env.chatWriteFails then TurnOutcome(500, ServerErrorReply, env.chats, prompt)
      else
        var chats := PushPair(env.chats, pid, Message(User, message, env.now),
                              Message(Assistant, reply.value, env.now), env.now);
        TurnOutcome(200, reply.value, chats, prompt)
  }

  /** A completed turn adds exactly the new (message, reply) pair, last, to the patient's history. */
  lemma TurnAppendsOnePair(req: ChatRequest, env: TurnEnv, fmt: real -> string)
    requires Turn(req, env, fmt).status == 200
    ensures var r := Turn(req, env, fmt);
            var pid := PatientKey(req.patientId);
            PairUp(ConversationOf(r.chats, pid))
            == PairUp(ConversationOf(env.chats, pid))
               + [HistoryEntry(req.message.value, r.reply, env.now, env.now)]
  {
    var r := Turn(req, env, fmt);
    var pid := PatientKey(req.patientId);
    AppendPairHistory(ConversationOf(env.chats, pid), Message(User, req.message.value, env.now),
                      Message(Assistant, r.reply, env.now));
  }

  /** A turn keeps every conversation valid and well paired. */
  lemma TurnPreservesStoreInvariants(req: ChatRequest, env: TurnEnv, fmt: real -> string)
    requires AllValid(env.chats) && AllWellPaired(env.chats)
    ensures AllValid(Turn(req, env, fmt).chats) && AllWellPaired(Turn(req, env, fmt).chats)
  {
    var r := Turn(req, env, fmt);
    if r.status == 200 {
      var pid := PatientKey(req.patientId);
      var u := Message(User, req.message.value, env.now);
      var a := Message(Assistant, r.reply, env.now);
      WellPairedAppend(ConversationOf(env.chats, pid), u, a);
      forall k, i | k in r.chats && 0 <= i < |r.chats[k].conversation|
        ensures ValidMessage(r.chats[k].conversation[i])
      {
        if k == pid && i >= |ConversationOf(env.chats, pid)| {
          assert r.chats[k].conversation[i] in [u, a];
        }
      }
    }
  }

  /** Clearing keeps the store invariants too. */
  lemma ClearPreservesStoreInvariants(chats: ChatStore, patientId: string, now: nat)
    requires AllValid(chats) && AllWellPaired(chats)
    ensures AllValid(ClearHistory(chats, patientId, now)) && AllWellPaired(ClearHistory(chats, patientId, now))
  {
  }

  /**
    For a risk question with a context carrying a prediction, the reply comes
    from the context alone: the stored diagnoses and their read failures are
    irrelevant.
  */
  lemma ContextTakesPrecedence(req: ChatRequest, env: TurnEnv, diagnoses: DiagnosisStore.DiagnosisStore,
                               readFails: bool, fmt: real -> string)
    requires req.message.Some? && IsRiskQuery(Text.ToLower(req.message.value))
    requires HasPrediction(req.context) && !env.chatWriteFails
    ensures Turn(req, env, fmt) == Turn(req, env.(diagnoses := diagnoses, diagnosisReadFails := readFails), fmt)
    ensures Turn(req, env, fmt).status == 200
    ensures Turn(req, env, fmt).reply == RiskReply(ResolveSnapshot(req.context, None), fmt)
  {
  }

  /** A risk question with no context and no stored diagnosis for the patient gets the "no diagnosis" reply. */
  lemma NoDiagnosisYet(req: ChatRequest, env: TurnEnv, fmt: real -> string)
    requires req.message.Some? && IsRiskQuery(Text.ToLower(req.message.value))
    requires !HasPrediction(req.context) && !env.diagnosisReadFails && !env.chatWriteFails
    requires forall k :: 0 <= k < |env.diagnoses| ==> env.diagnoses[k].patientId != PatientKey(req.patientId)
    ensures Turn(req, env, fmt).status == 200 && Turn(req, env, fmt).reply == NoDiagnosisReply
  {
  }

  /**
    "Am I at risk?" for a patient whose stored diagnosis is prediction 1 from
    voting_ensemble with probability 0.91 gets the at-risk reply rendered with
    that model and 91 percent.
  */
  lemma AtRiskScenario(d: Diagnosis, env: TurnEnv, fmt: real -> string)
    requires d.patientId == "john_doe" && d.prediction == 1 && d.model == "voting_ensemble" && d.probability == 0.91
    requires env.diagnoses == [d] && !env.diagnosisReadFails && !env.chatWriteFails
    ensures var r := Turn(ChatRequest(Some("Am I at risk?"), None, Some("john_doe")), env, fmt);
            r.status == 200 && r.reply == AtRiskReply("voting_ensemble", fmt(91.0))
  {
    var lower := Text.ToLower("Am I at risk?");
    assert lower == "am i at risk?";
    assert Text.OccursAt(lower, "risk", 8);
    assert StoredLatest(env, "john_doe") == Some(d);
    StoredDiagnosisAnswersRisk("Am I at risk?", "john_doe", d, env, fmt);
    assert ResolveSnapshot(None, Some(d)) == Some(Snapshot(Number(1), "voting_ensemble", 0.91));
  }

  /**
    A risk question with no context is answered from the patient's latest
    stored diagnosis, whatever its prediction: the at-risk template for 1 and
    the not-at-risk template otherwise.
  */
  lemma StoredDiagnosisAnswersRisk(msg: string, pid: string, d: Diagnosis, env: TurnEnv, fmt: real -> string)
    requires msg != [] && IsRiskQuery(Text.ToLower(msg))
    requires pid != "" && StoredLatest(env, pid) == Some(d)
    requires !env.diagnosisReadFails && !env.chatWriteFails
    ensures var r := Turn(ChatRequest(Some(msg), None, Some(pid)), env, fmt);
            r.status == 200 && r.reply == RiskReply(ResolveSnapshot(None, Some(d)), fmt)
  {
  }

  /** "What should I eat?" mentions neither keyword. */
  lemma EatQuestionIsOpenEnded()
    ensures !IsRiskQuery(Text.ToLower("What should I eat?"))
  {
    var lower := Text.ToLower("What should I eat?");
    forall k | 0 <= k < |lower|
      ensures lower[k] != 'r' && lower[k] != 'p'
    {
      assert lower[k] == Text.LowerChar("What should I eat?"[k]);
    }
    Text.NotContainsMissingChar(lower, "risk");
    Text.NotContainsMissingChar(lower, "predict");
  }

  /**
    "What should I eat?" while the language service answers HTTP 500 gets the
    fixed "unavailable" reply, and the turn is still stored as one pair.
  */
  lemma UnavailableScenario(env: TurnEnv, fmt: real -> string)
    requires env.ai == HttpReply(500, None) && !env.chatWriteFails
    ensures var r := Turn(ChatRequest(Some("What should I eat?"), None, Some("john_doe")), env, fmt);
            r.status == 200 && r.reply == UnavailableReply
            && ConversationOf(r.chats, "john_doe") == ConversationOf(env.chats, "john_doe")
               + [Message(User, "What should I eat?", env.now), Message(Assistant, UnavailableReply, env.now)]
  {
    EatQuestionIsOpenEnded();
  }
}

=== FILE: diagnosis_form.dfy ===
/**
  The submission logic of frontend/src/components/DiagnosisForm.js: the
  required-field check, the patient-id normalisation, the gender code and the
  request body sent to the backend.  The form holds every field as text.
*/
module DiagnosisForm {
  import opened Wrappers
  import Text
  import DiagnosisModel
  import DiagnosisStore
  import Prediction

  /** `mapGender`: "Male" is 2, "Female" is 1, anything else 0. */
  function GenderCode(sex: string): (g: int)
    ensures g == 2 <==> sex == "Male"
    ensures g == 1 <==> sex == "Female"
    ensures g == 0 <==> sex != "Male" && sex != "Female"
  {
    if sex == "Male" then 2 else if sex == "Female" then 1 else 0
  }

  datatype FormField = PatientName | Age | Sex | Height | Weight | ApHi | ApLo
                     | Cholesterol | Gluc | Smoke | Alco | Active

  /** The fields checked before submitting, in the order they are checked. */
  const RequiredFields: seq<FormField> := [PatientName, Age, Sex, Height, Weight, ApHi, ApLo,
                                           Cholesterol, Gluc, Smoke, Alco, Active]

  datatype Form = Form(patientName: string, age: string, sex: string, height: string, weight: string,
                       apHi: string, apLo: string, cholesterol: string, gluc: string,
                       smoke: string, alco: string, active: string)

  function Value(form: Form, f: FormField): string {
    match f
    case PatientName => form.patientName
    case Age => form.age
    case Sex => form.sex
    case Height => form.height
    case Weight => form.weight
    case ApHi => form.apHi
    case ApLo => form.apLo
    case Cholesterol => form.cholesterol
    case Gluc => form.gluc
    case Smoke => form.smoke
    case Alco => form.alco
    case Active => form.active
  }

  /** The position of the first field of `fields` left empty, if any. */
  function FirstEmpty(form: Form, fields: seq<FormField>): (r: Option<nat>)
    ensures r.Some? ==> r.value < |fields| && Value(form, fields[r.value]) == ""
    ensures r.Some? ==> forall j :: 0 <= j < r.value ==> Value(form, fields[j]) != ""
    ensures r.None? <==> forall j :: 0 <= j < |fields| ==> Value(form, fields[j]) != ""
  {
    if fields == [] then None
    else if Value(form, fields[0]) == "" then Some(0)
    else
      var rest := FirstEmpty(form, fields[1..]);
      assert forall j :: 1 <= j < |fields| ==> fields[j] == fields[1..][j - 1];
      if rest.Some? then Some(rest.value + 1) else None
  }

  /**
    `patientName.trim().toLowerCase().replace(/\s+/g, "_")`: the result has no
    whitespace and no upper-case letter.
  */
  function FormPatientId(name: string): (id: string)
    ensures Text.NoSpace(Text.JsSpace, id)
    ensures Text.IsLower(id)
    ensures id == [] <==> Text.AllSpace(Text.JsSpace, name)
  {
    Text.ReplaceSpaceRuns(Text.ToLower(Text.Trim(Text.JsSpace, name)))
  }

  /** Normalising an already normalised id changes nothing. */
  lemma FormPatientIdIdempotent(name: string)
    ensures FormPatientId(FormPatientId(name)) == FormPatientId(name)
  {
    var id := FormPatientId(name);
    Text.TrimOfTrimmed(Text.JsSpace, id);
    Text.ToLowerOfLower(id);
  }

  /**
    The backend derives the same id from a name without surrounding whitespace;
    it does not trim, so a padded name gives an id with a leading or trailing
    "_" there.
  */
  lemma FormAgreesWithBackend(name: string)
    requires Text.Trimmed(Text.JsSpace, name)
    ensures FormPatientId(name) == DiagnosisStore.BackendPatientId(name)
  {
    Text.TrimOfTrimmed(Text.JsSpace, name);
  }

  /** A lower-case name typed after a leading space: the form drops the space, the backend keeps it as "_". */
  lemma PaddedNameDisagrees(name: string)
    requires name != [] && Text.NoSpace(Text.JsSpace, name) && Text.IsLower(name)
    ensures FormPatientId([' '] + name) == name
    ensures DiagnosisStore.BackendPatientId([' '] + name) == "_" + name
  {
    var padded := [' '] + name;
    assert padded[1..] == name;
    assert Text.LeadingSpaces(Text.JsSpace, name) == 0;
    assert Text.LeadingSpaces(Text.JsSpace, padded) == 1;
    Text.TrimOfTrimmed(Text.JsSpace, name);
    assert Text.Trim(Text.JsSpace, padded) == name by {
      assert Text.PaddedAt(Text.JsSpace, padded, Text.Trim(Text.JsSpace, padded), 1);
      assert !Text.AllSpace(Text.JsSpace, padded[1 + |name| - 1..]);
    }
    Text.ToLowerOfLower(name);
    Text.ToLowerOfLower(padded);
    assert Text.ReplaceSpaceRuns(padded) == "_" + Text.ReplaceSpaceRuns(name);
  }

  /** The vitals as sent: each `parseInt` of its field, `None` standing for NaN. */
  datatype Vitals = Vitals(age: Option<int>, gender: int, height: Option<int>, weight: Option<int>,
                           apHi: Option<int>, apLo: Option<int>, cholesterol: Option<int>,
                           gluc: Option<int>, smoke: Option<int>, alco: Option<int>, active: Option<int>)

  datatype Submission = Submission(patientData: Vitals, patientId: string, selectedModel: string)

  function VitalsOf(form: Form): Vitals {
    Vitals(Text.ParseInt(form.age), GenderCode(form.sex), Text.ParseInt(form.height),
           Text.ParseInt(form.weight), Text.ParseInt(form.apHi), Text.ParseInt(form.apLo),
           Text.ParseInt(form.cholesterol), Text.ParseInt(form.gluc), Text.ParseInt(form.smoke),
           Text.ParseInt(form.alco), Text.ParseInt(form.active))
  }

  /**
    `handleSubmit`: the first empty required field, in list order, stops the
    submission with nothing sent; otherwise the body carries the parsed
    vitals, the normalised id and always the voting ensemble.
  */
  function Submit(form: Form): (r: Result<Submission, FormField>)
    ensures r.Failure? <==> exists j :: 0 <= j < |RequiredFields| && Value(form, RequiredFields[j]) == ""
    ensures r.Failure? ==> Value(form, r.error) == ""
    ensures r.Failure? ==> forall j :: 0 <= j < |RequiredFields| && RequiredFields[j] == r.error ==>
                             forall i :: 0 <= i < j ==> Value(form, RequiredFields[i]) != ""
    ensures r.Success? ==> r.value.selectedModel == "voting_ensemble"
                           && r.value.patientId == FormPatientId(form.patientName)
                           && r.value.patientData == VitalsOf(form)
  {
    RequiredFieldsDistinct();
    match FirstEmptyField(form, RequiredFields)
    case Some(f) => Failure(f)
    case None => Success(Submission(VitalsOf(form), FormPatientId(form.patientName), "voting_ensemble"))
  }

  /** No field is listed twice. */
  predicate DistinctFields(fields: seq<FormField>) {
    forall i, j :: 0 <= i < j < |fields| ==> fields[i] != fields[j]
  }

  /** The position of a field on the form. */
  function Ordinal(f: FormField): nat {
    match f
    case PatientName => 0
    case Age => 1
    case Sex => 2
    case Height => 3
    case Weight => 4
    case ApHi => 5
    case ApLo => 6
    case Cholesterol => 7
    case Gluc => 8
    case Smoke => 9
    case Alco => 10
    case Active => 11
  }

  /** The required fields are the twelve form fields in form order, each once. */
  lemma RequiredFieldsDistinct()
    ensures DistinctFields(RequiredFields)
  {
    var fs := RequiredFields;
    assert Ordinal(fs[0]) == 0 && Ordinal(fs[1]) == 1 && Ordinal(fs[2]) == 2 && Ordinal(fs[3]) == 3;
    assert Ordinal(fs[4]) == 4 && Ordinal(fs[5]) == 5 && Ordinal(fs[6]) == 6 && Ordinal(fs[7]) == 7;
    assert Ordinal(fs[8]) == 8 && Ordinal(fs[9]) == 9 && Ordinal(fs[10]) == 10 && Ordinal(fs[11]) == 11;
    assert forall i :: 0 <= i < |fs| ==> Ordinal(fs[i]) == i;
  }

  /** The first field of a list of distinct fields that is left empty, if any. */
  function FirstEmptyField(form: Form, fields: seq<FormField>): (r: Option<FormField>)
    requires DistinctFields(fields)
    ensures r.Some? <==> exists j :: 0 <= j < |fields| && Value(form, fields[j]) == ""
    ensures r.Some? ==> Value(form, r.value) == ""
    ensures r.Some? ==> forall j :: 0 <= j < |fields| && fields[j] == r.value ==>
                          forall i :: 0 <= i < j ==> Value(form, fields[i]) != ""
  {
    match FirstEmpty(form, fields)
    case Some(i) =>
      assert forall j :: 0 <= j < |fields| && fields[j] == fields[i] ==> j == i;
      Some(fields[i])
    case None => None
  }

  /** The body as the backend reads it: vitals that all parsed, and no `patientName` field. */
  function BackendRequest(s: Submission): (req: Prediction.PredictRequest)
    ensures req.patientName.None? && req.selectedModel == Prediction.Chosen(s.selectedModel)
    ensures req.patientId == Some(s.patientId)
  {
    var v := s.patientData;
    var data :=
      if v.age.Some? && v.height.Some? && v.weight.Some? && v.apHi.Some? && v.apLo.Some?
         && v.cholesterol.Some? && v.gluc.Some? && v.smoke.Some? && v.alco.Some? && v.active.Some?
      then Some(DiagnosisModel.PatientData(v.age.value, v.gender, v.height.value, v.weight.value,
                                           v.apHi.value, v.apLo.value, v.cholesterol.value, v.gluc.value,
                                           v.smoke.value, v.alco.value, v.active.value))
      else None;
    Prediction.PredictRequest(data, Prediction.Chosen(s.selectedModel), Some(s.patientId), None)
  }

  /**
    The form never sends a name, so the backend stores the normalised id as
    both patient id and patient name; a name of only whitespace passes the
    required check but normalises to "", and the backend generates an id.
  */
  lemma StoredNameIsNormalisedId(form: Form, now: nat)
    requires Submit(form).Success?
    ensures !Text.AllSpace(Text.JsSpace, form.patientName) ==>
              Prediction.PatientIdOf(BackendRequest(Submit(form).value), now) == FormPatientId(form.patientName)
              && Prediction.PatientNameOf(BackendRequest(Submit(form).value), now) == FormPatientId(form.patientName)
    ensures Text.AllSpace(Text.JsSpace, form.patientName) ==>
              Prediction.PatientIdOf(BackendRequest(Submit(form).value), now) == "patient_" + Text.NatToString(now)
  {
  }
}

=== FILE: diagnosis_model.dfy ===
/**
  The diagnosis record of backend/models/Diagnosis.js: the seven model names, the
  schema's required fields, enums and ranges, and the casting Mongoose applies
  before a record is stored (trimming, the timestamp default).
*/
module DiagnosisModel {
  import opened Wrappers
  import Text

  /** The seven trained models; their keys are also the keys of the ML service's MODEL_PATHS. */
  datatype ModelName = LogisticRegression | RandomForest | XGBoost | LightGBM | CatBoost
                     | VotingEnsemble | StackingModel

  function ModelKey(m: ModelName): string {
    match m
    case LogisticRegression => "logistic_regression"
    case RandomForest => "random_forest"
    case XGBoost => "xgboost"
    case LightGBM => "lightgbm"
    case CatBoost => "catboost"
    case VotingEnsemble => "voting_ensemble"
    case StackingModel => "stacking_model"
  }

  /** The `model` enum check: recognises exactly the seven keys. */
  function ParseModelName(s: string): (r: Option<ModelName>)
    ensures r.Some? ==> ModelKey(r.value) == s
    ensures r.None? ==> forall m: ModelName :: ModelKey(m) != s
  {
    if s == "logistic_regression" then Some(LogisticRegression)
    else if s == "random_forest" then Some(RandomForest)
    else if s == "xgboost" then Some(XGBoost)
    else if s == "lightgbm" then Some(LightGBM)
    else if s == "catboost" then Some(CatBoost)
    else if s == "voting_ensemble" then Some(VotingEnsemble)
    else if s == "stacking_model" then Some(StackingModel)
    else None
  }

  /** Every model name is recognised under its own key, so no two models share a key. */
  lemma ModelKeyRoundTrip(m: ModelName)
    ensures ParseModelName(ModelKey(m)) == Some(m)
  {
  }

  /** The vitals a prediction is made from, as the form sends them. */
  datatype PatientData = PatientData(age: int, gender: int, height: int, weight: int,
                                     apHi: int, apLo: int, cholesterol: int, gluc: int,
                                     smoke: int, alco: int, active: int)

  datatype RiskProbabilities = RiskProbabilities(lowRisk: Option<real>, highRisk: Option<real>)

  /** A stored diagnosis record; `id` is the document's `_id`. */
  datatype Diagnosis = Diagnosis(
    id: string,
    patientName: Option<string>,
    patientId: string,
    inputData: PatientData,
    prediction: int,
    probability: real,
    probabilities: Option<RiskProbabilities>,
    confidence: Option<real>,
    model: string,
    modelDisplayName: Option<string>,
    riskLevel: Option<string>,
    timestamp: nat)

  predicate InUnit(x: real) {
    0.0 <= x <= 1.0
  }

  predicate OptInUnit(x: Option<real>) {
    x.Some? ==> InUnit(x.value)
  }

  predicate ProbabilitiesInUnit(p: RiskProbabilities) {
    OptInUnit(p.lowRisk) && OptInUnit(p.highRisk)
  }

  /** What the schema guarantees of every stored record. */
  predicate WellFormed(d: Diagnosis) {
    && d.patientId != "" && Text.Trimmed(Text.JsSpace, d.patientId)
    && (d.patientName.Some? ==> Text.Trimmed(Text.JsSpace, d.patientName.value))
    && (d.prediction == 0 || d.prediction == 1)
    && InUnit(d.probability)
    && OptInUnit(d.confidence)
    && (d.probabilities.Some? ==> ProbabilitiesInUnit(d.probabilities.value))
    && ParseModelName(d.model).Some?
  }

  /** The fields handed to `new Diagnosis(...)`; absent ones are `None`. */
  datatype Draft = Draft(
    patientName: Option<string>,
    patientId: Option<string>,
    inputData: Option<PatientData>,
    prediction: Option<int>,
    probability: Option<real>,
    probabilities: Option<RiskProbabilities>,
    confidence: Option<real>,
    model: Option<string>,
    modelDisplayName: Option<string>,
    riskLevel: Option<string>,
    timestamp: Option<nat>)

  datatype Field = PatientIdField | InputDataField | PredictionField | ProbabilityField
                 | ProbabilitiesField | ConfidenceField | ModelField

  /** The schema's rules, read field by field off the draft. */
  ghost predicate Acceptable(d: Draft) {
    && d.patientId.Some? && !Text.AllSpace(Text.JsSpace, d.patientId.value)
    && d.inputData.Some?
    && d.prediction.Some? && (d.prediction.value == 0 || d.prediction.value == 1)
    && d.probability.Some? && InUnit(d.probability.value)
    && (d.probabilities.Some? ==> ProbabilitiesInUnit(d.probabilities.value))
    && OptInUnit(d.confidence)
    && d.model.Some? && d.model.value in {"logistic_regression", "random_forest", "xgboost",
                                          "lightgbm", "catboost", "voting_ensemble", "stacking_model"}
  }

  function FieldErrors(d: Draft): set<Field> {
    (if d.patientId.None? || Text.Trim(Text.JsSpace, d.patientId.value) == [] then {PatientIdField} else {})
    + (if d.inputData.None? then {InputDataField} else {})
    + (if d.prediction.None? || !(d.prediction.value == 0 || d.prediction.value == 1) then {PredictionField} else {})
    + (if d.probability.None? || !InUnit(d.probability.value) then {ProbabilityField} else {})
    + (if d.probabilities.Some? && !ProbabilitiesInUnit(d.probabilities.value) then {ProbabilitiesField} else {})
    + (if !OptInUnit(d.confidence) then {ConfidenceField} else {})
    + (if d.model.None? || ParseModelName(d.model.value).None? then {ModelField} else {})
  }

  /**
    Casting then validating a draft, as `diagnosis.save()` does: string fields
    are trimmed, the timestamp defaults to `now`, and the record is stored only
    when every rule holds; otherwise the failing fields are reported.
  */
  function Validate(d: Draft, id: string, now: nat): (r: Result<Diagnosis, set<Field>>)
    ensures r.Success? <==> Acceptable(d)
    ensures r.Success? ==> WellFormed(r.value)
    ensures r.Success? ==> r.value.id == id && r.value.patientId == Text.Trim(Text.JsSpace, d.patientId.value)
    ensures r.Success? ==> r.value.prediction == d.prediction.value && r.value.probability == d.probability.value
    ensures r.Success? ==> Some(r.value.model) == d.model
    ensures r.Success? ==> r.value.timestamp == (if d.timestamp.Some? then d.timestamp.value else now)
    ensures r.Failure? ==> r.error != {}
  {
    var errors := FieldErrors(d);
    if errors == {} then
      var pid := Text.Trim(Text.JsSpace, d.patientId.value);
      var name := if d.patientName.Some? then Some(Text.Trim(Text.JsSpace, d.patientName.value)) else None;
      Success(Diagnosis(id, name, pid, d.inputData.value, d.prediction.value, d.probability.value,
                        d.probabilities, d.confidence, d.model.value, d.modelDisplayName,
                        d.riskLevel, d.timestamp.GetOr(now)))
    else
      Failure(errors)
  }
}

=== FILE: diagnosis_store.dfy ===
/**
  The record-level handlers over the diagnosis collection: the latest record for
  a patient (by id, or by name), paginated history, the list behind the history
  page, and the delete route that also removes the patient's chats. The
  collection is a sequence in insertion order.
*/
module DiagnosisStore {
  import opened Wrappers
  import Text
  import Sorting
  import opened DiagnosisModel
  import ChatModel

  type DiagnosisStore = seq<Diagnosis>

  ghost predicate UniqueIds(store: DiagnosisStore) {
    forall i, j :: 0 <= i < j < |store| ==> store[i].id != store[j].id
  }

  /**
    `findOne(filter).sort({timestamp: -1})`: a matching record whose timestamp
    no other matching record exceeds (the first such in insertion order), or
    nothing when no record matches.
  */
  function Latest(store: DiagnosisStore, matches: Diagnosis -> bool): (r: Option<Diagnosis>)
    ensures r.None? <==> forall k :: 0 <= k < |store| ==> !matches(store[k])
    ensures r.Some? ==> r.value in store && matches(r.value)
    ensures r.Some? ==> forall k :: 0 <= k < |store| && matches(store[k]) ==> store[k].timestamp <= r.value.timestamp
  {
    if store == [] then None
    else
      var rest := Latest(store[1..], matches);
      assert forall k :: 1 <= k < |store| ==> store[k] == store[1..][k - 1];
      if !matches(store[0]) then rest
      else if rest.Some? && rest.value.timestamp > store[0].timestamp then rest
      else Some(store[0])
  }

  /** The backend's name-to-id rule: lower-case, then each whitespace run becomes "_" (no trim). */
  function BackendPatientId(name: string): (id: string)
    ensures Text.NoSpace(Text.JsSpace, id)
  {
    Text.ReplaceSpaceRuns(Text.ToLower(name))
  }

  predicate MatchesName(name: string, d: Diagnosis) {
    d.patientName == Some(name) || d.patientId == BackendPatientId(name)
  }

  datatype LookupError = BadRequest400 | NotFound404 | ServerError500

  /**
    `getLatestDiagnosisByPatientName`: an empty name is a 400; otherwise the most
    recent record whose `patientName` is the name or whose `patientId` is the
    backend-normalised name, or 404 when there is none.
  */
  function LatestByPatientName(store: DiagnosisStore, name: string, readFails: bool)
    : (r: Result<Diagnosis, LookupError>)
    ensures name == "" ==> r == Failure(BadRequest400)
    ensures name != "" && readFails ==> r == Failure(ServerError500)
    ensures r == Failure(NotFound404) <==>
              name != "" && !readFails && forall k :: 0 <= k < |store| ==> !MatchesName(name, store[k])
    ensures r.Success? ==> r.value in store && MatchesName(name, r.value)
    ensures r.Success? ==> forall k :: 0 <= k < |store| && MatchesName(name, store[k]) ==>
              store[k].timestamp <= r.value.timestamp
  {
    if name == "" then Failure(BadRequest400)
    else if readFails then Failure(ServerError500)
    else
      match Latest(store, d => MatchesName(name, d))
      case Some(d) => Success(d)
      case None => Failure(NotFound404)
  }

  /** `getLatestDiagnosisByPatientId`: the most recent record with exactly that `patientId`. */
  function LatestByPatientId(store: DiagnosisStore, patientId: string, readFails: bool)
    : (r: Result<Diagnosis, LookupError>)
    ensures patientId == "" ==> r == Failure(BadRequest400)
    ensures patientId != "" && readFails ==> r == Failure(ServerError500)
    ensures r == Failure(NotFound404) <==>
              patientId != "" && !readFails && forall k :: 0 <= k < |store| ==> store[k].patientId != patientId
    ensures r.Success? ==> r.value in store && r.value.patientId == patientId
    ensures r.Success? ==> forall k :: 0 <= k < |store| && store[k].patientId == patientId ==>
              store[k].timestamp <= r.value.timestamp
  {
    if patientId == "" then Failure(BadRequest400)
    else if readFails then Failure(ServerError500)
    else
      match Latest(store, (d: Diagnosis) => d.patientId == patientId)
      case Some(d) => Success(d)
      case None => Failure(NotFound404)
  }

  /** Sort key for "newest first". */
  function NewestFirst(d: Diagnosis): real {
    -(d.timestamp as real)
  }

  /** Where the window of `.skip(skip)` starts in a listing of `n` records. */
  function WindowStart(n: nat, skip: nat): (from: nat)
    ensures from <= n
  {
    if skip >= n then n else skip
  }

  /** Where the window of `.limit(limit)` after `.skip(skip)` ends; a limit of 0 means no limit. */
  function WindowEnd(n: nat, skip: nat, limit: nat): (to: nat)
    ensures WindowStart(n, skip) <= to <= n
  {
    var from := WindowStart(n, skip);
    if limit == 0 || from + limit >= n then n else from + limit
  }

  /**
    `.sort({timestamp: -1}).limit(limit).skip(skip)`: the newest-first order, then
    the window of `limit` records starting at `skip`; a limit of 0 means no limit.
  */
  function Page(records: seq<Diagnosis>, skip: nat, limit: nat): (r: seq<Diagnosis>)
    ensures limit > 0 ==> |r| <= limit
    ensures skip >= |records| ==> r == []
    ensures skip < |records| && limit == 0 ==> |r| == |records| - skip
    ensures skip < |records| && limit > 0 ==> |r| == Min(limit, |records| - skip)
    ensures Sorting.SortedBy(r, NewestFirst)
    ensures forall k :: 0 <= k < |r| ==> r[k] in records
    ensures multiset(r) <= multiset(records)
  {
    var sorted := Sorting.SortBy(records, NewestFirst);
    SortedWindow(records, sorted, WindowStart(|sorted|, skip), WindowEnd(|sorted|, skip, limit));
    sorted[WindowStart(|sorted|, skip)..WindowEnd(|sorted|, skip, limit)]
  }

  /** A window of a sorted permutation of `records` is sorted and holds only records. */
  lemma SortedWindow(records: seq<Diagnosis>, sorted: seq<Diagnosis>, from: nat, to: nat)
    requires Sorting.SortedBy(sorted, NewestFirst) && multiset(sorted) == multiset(records)
    requires from <= to <= |sorted|
    ensures Sorting.SortedBy(sorted[from..to], NewestFirst)
    ensures forall k :: 0 <= k < to - from ==> sorted[from..to][k] in records
    ensures multiset(sorted[from..to]) <= multiset(records)
  {
    var r := sorted[from..to];
    forall i, j | 0 <= i < j < |r| ensures NewestFirst(r[i]) <= NewestFirst(r[j]) {
      assert r[i] == sorted[from + i] && r[j] == sorted[from + j];
    }
    forall k | 0 <= k < |r| ensures r[k] in records {
      assert r[k] == sorted[from + k];
      assert r[k] in multiset(sorted);
    }
    assert sorted == sorted[..from] + r + sorted[to..];
    assert multiset(sorted) == multiset(sorted[..from]) + multiset(r) + multiset(sorted[to..]);
  }

  /** A page is a slice of the one newest-first listing. */
  lemma PageSlice(records: seq<Diagnosis>, skip: nat, limit: nat)
    ensures var sorted := Sorting.SortBy(records, NewestFirst);
            Page(records, skip, limit) == sorted[WindowStart(|sorted|, skip)..WindowEnd(|sorted|, skip, limit)]
  {
  }

  /** The unlimited page from 0 lists every record, newest first. */
  lemma FirstPageUnlimited(records: seq<Diagnosis>)
    ensures multiset(Page(records, 0, 0)) == multiset(records)
    ensures |Page(records, 0, 0)| == |records|
  {
    var sorted := Sorting.SortBy(records, NewestFirst);
    PageSlice(records, 0, 0);
    assert sorted[0..|sorted|] == sorted;
  }

  lemma SliceTile<T>(s: seq<T>, a: nat, b: nat, c: nat)
    requires a <= b <= c <= |s|
    ensures s[a..b] + s[b..c] == s[a..c]
  {
  }

  /** The first `skip` records followed by everything from `skip` make up the whole newest-first listing. */
  lemma SkippedThenRest(records: seq<Diagnosis>, skip: nat)
    requires skip > 0
    ensures Page(records, 0, skip) + Page(records, skip, 0) == Page(records, 0, 0)
  {
    var sorted := Sorting.SortBy(records, NewestFirst);
    var n := |sorted|;
    var from := WindowStart(n, skip);
    PageSlice(records, 0, 0);
    PageSlice(records, skip, 0);
    PageSlice(records, 0, skip);
    assert WindowEnd(n, 0, skip) == from;
    SliceTile(sorted, 0, from, n);
  }

  /**
    A page followed by everything from its end makes up everything from `skip`.
    With `SkippedThenRest`, a page holds exactly the records ranked `skip` to
    `skip + limit - 1` by recency.
  */
  lemma PageThenRest(records: seq<Diagnosis>, skip: nat, limit: nat)
    requires limit > 0
    ensures Page(records, skip, limit) + Page(records, skip + limit, 0) == Page(records, skip, 0)
  {
    var sorted := Sorting.SortBy(records, NewestFirst);
    var n := |sorted|;
    var from := WindowStart(n, skip);
    var to := WindowEnd(n, skip, limit);
    PageSlice(records, skip, 0);
    PageSlice(records, skip, limit);
    PageSlice(records, skip + limit, 0);
    assert WindowStart(n, skip + limit) == to;
    SliceTile(sorted, from, to, n);
  }

  /** `Math.ceil(total / limit)`; a limit of 0 gives Infinity or NaN, serialised as null. */
  function PageCount(total: nat, limit: nat): (pages: Option<nat>)
    ensures limit == 0 <==> pages.None?
    ensures pages.Some? ==> (pages.value == 0 <==> total == 0)
    ensures pages.Some? ==> total <= pages.value * limit
    ensures pages.Some? && pages.value > 0 ==> (pages.value - 1) * limit < total
  {
    if limit == 0 then None else Some((total + limit - 1) / limit)
  }

  /** The query string of the list routes; a missing `limit` or `page` takes its default. */
  datatype HistoryQuery = HistoryQuery(patientId: Option<string>, limit: Option<nat>, page: Option<int>)

  const DefaultLimit: nat := 50
  const DefaultPage: int := 1

  /** `limit = 50`: the default applies only when the parameter is missing. */
  function LimitOf(limit: Option<nat>): (n: nat)
    ensures limit.None? ==> n == DefaultLimit
    ensures limit.Some? ==> n == limit.value
  {
    limit.GetOr(DefaultLimit)
  }

  /** `page = 1`: likewise. */
  function PageOf(page: Option<int>): (p: int)
    ensures page.None? ==> p == DefaultPage
    ensures page.Some? ==> p == page.value
  {
    page.GetOr(DefaultPage)
  }

  /** `(page - 1) * limit`, the number of records skipped. */
  function SkipOf(limit: Option<nat>, page: Option<int>): int {
    (PageOf(page) - 1) * LimitOf(limit)
  }

  datatype Pagination = Pagination(current: int, limit: nat, total: nat, pages: Option<nat>)

  datatype HistoryPage = HistoryPage(diagnoses: seq<Diagnosis>, pagination: Pagination)

  function ForPatient(store: DiagnosisStore, patientId: Option<string>): seq<Diagnosis> {
    if patientId.Some? && patientId.value != "" then Sorting.Filter(store, (d: Diagnosis) => d.patientId == patientId.value)
    else store
  }

  /**
    `getDiagnosisHistory`: filter by the query's `patientId` when it is given and
    non-empty, skip `(page - 1) * limit` records newest first, return one page
    and the pagination summary. A negative skip (a page below 1 with a
    non-zero limit) is rejected by the database, as is any failed read.
  */
  function DiagnosisHistory(store: DiagnosisStore, q: HistoryQuery, readFails: bool)
    : (r: Result<HistoryPage, LookupError>)
    ensures r.Failure? <==> readFails || SkipOf(q.limit, q.page) < 0
    ensures r.Failure? ==> r.error == ServerError500
    ensures r.Success? ==> r.value.pagination.total == |ForPatient(store, q.patientId)|
    ensures r.Success? ==> r.value.pagination.current == PageOf(q.page) && r.value.pagination.limit == LimitOf(q.limit)
    ensures r.Success? ==> r.value.pagination.pages == PageCount(r.value.pagination.total, LimitOf(q.limit))
    ensures r.Success? ==> forall k :: 0 <= k < |r.value.diagnoses| ==>
              r.value.diagnoses[k] in store
              && (q.patientId.Some? && q.patientId.value != "" ==> r.value.diagnoses[k].patientId == q.patientId.value)
    ensures r.Success? ==> r.value.diagnoses == Page(ForPatient(store, q.patientId), SkipOf(q.limit, q.page), LimitOf(q.limit))
  {
    var limit := LimitOf(q.limit);
    var skip := SkipOf(q.limit, q.page);
    if readFails || skip < 0 then Failure(ServerError500)
    else
      var matching := ForPatient(store, q.patientId);
      var page := Page(matching, skip, limit);
      assert forall k :: 0 <= k < |page| ==> page[k] in store by {
        forall k | 0 <= k < |page| ensures page[k] in store {
          assert page[k] in matching;
        }
      }
      Success(HistoryPage(page, Pagination(PageOf(q.page), limit, |matching|, PageCount(|matching|, limit))))
  }

  /**
    `GET /history/:patientName` is bound to the same handler as `GET /history`,
    which reads only the query string: whatever the path names, a query
    without a `patientId` pages through every patient's records.
  */
  function HistoryRoute(store: DiagnosisStore, pathName: Option<string>, q: HistoryQuery, readFails: bool)
    : (r: Result<HistoryPage, LookupError>)
    ensures r.Failure? <==> readFails || SkipOf(q.limit, q.page) < 0
    ensures r.Success? && q.patientId.None? ==>
              r.value.pagination.total == |store|
              && r.value.diagnoses == Page(store, SkipOf(q.limit, q.page), LimitOf(q.limit))
  {
    DiagnosisHistory(store, q, readFails)
  }

  /** The path segment of the history route never changes the answer. */
  lemma HistoryRouteIgnoresName(store: DiagnosisStore, a: Option<string>, b: Option<string>, q: HistoryQuery)
    ensures HistoryRoute(store, a, q, false) == HistoryRoute(store, b, q, false)
  {
  }

  /**
    The patient-history page asks for `/history/<name>` with no query string:
    it gets the 50 newest records of all patients, as page 1, whatever the name.
  */
  lemma QuerylessHistoryCall(store: DiagnosisStore, name: string)
    ensures HistoryRoute(store, Some(name), HistoryQuery(None, None, None), false)
            == Success(HistoryPage(Page(store, 0, 50), Pagination(1, 50, |store|, PageCount(|store|, 50))))
  {
  }

  /**
    `getAllDiagnosis` (GET /): one newest-first page of every record, as a bare
    list; a negative skip or a failed read is a 500.
  */
  function AllDiagnoses(store: DiagnosisStore, limit: Option<nat>, page: Option<int>, readFails: bool)
    : (r: Result<seq<Diagnosis>, LookupError>)
    ensures r.Failure? <==> readFails || SkipOf(limit, page) < 0
    ensures r.Failure? ==> r.error == ServerError500
    ensures r.Success? ==> |r.value| <= |store|
  {
    var skip := SkipOf(limit, page);
    if readFails || skip < 0 then Failure(ServerError500) else Success(Page(store, skip, LimitOf(limit)))
  }

  /** The bare list is the `diagnoses` of the history answer to the same query without a patient filter. */
  lemma AllDiagnosesIsUnfilteredHistory(store: DiagnosisStore, limit: Option<nat>, page: Option<int>, readFails: bool)
    ensures var r := AllDiagnoses(store, limit, page, readFails);
            var h := DiagnosisHistory(store, HistoryQuery(None, limit, page), readFails);
            r.Success? <==> h.Success?
    ensures var r := AllDiagnoses(store, limit, page, readFails);
            var h := DiagnosisHistory(store, HistoryQuery(None, limit, page), readFails);
            r.Success? ==> r.value == h.value.diagnoses
  {
  }

  function IndexOfId(store: DiagnosisStore, id: string): (i: int)
    ensures -1 <= i < |store|
    ensures i >= 0 ==> store[i].id == id
    ensures i == -1 <==> forall k :: 0 <= k < |store| ==> store[k].id != id
  {
    if store == [] then -1
    else if store[0].id == id then 0
    else
      var j := IndexOfId(store[1..], id);
      assert forall k :: 1 <= k < |store| ==> store[k] == store[1..][k - 1];
      if j == -1 then -1 else j + 1
  }

  /** The store without its record at position `i`; with unique ids, no record keeps that id. */
  function RemoveAt(store: DiagnosisStore, i: nat): (rest: DiagnosisStore)
    requires i < |store|
    ensures |rest| == |store| - 1
    ensures forall k :: 0 <= k < |rest| ==> rest[k] == store[if k < i then k else k + 1]
    ensures forall k :: 0 <= k < |store| && k != i ==> store[k] in rest
    ensures forall k :: 0 <= k < |rest| ==> rest[k] in store
    ensures UniqueIds(store) ==> UniqueIds(rest) && forall k :: 0 <= k < |rest| ==> rest[k].id != store[i].id
  {
    var rest := store[..i] + store[i + 1..];
    forall k | 0 <= k < |store| && k != i ensures store[k] in rest {
      if k < i { assert store[k] == rest[k]; } else { assert store[k] == rest[k - 1]; }
    }
    rest
  }

  /** Removes every chat document whose `patientId` field equals `name`. */
  function RemoveChatsOf(chats: ChatModel.ChatStore, name: string): (r: ChatModel.ChatStore)
    ensures forall k :: k in r <==> k in chats && chats[k].patientId != name
    ensures forall k :: k in r ==> r[k] == chats[k]
  {
    map k | k in chats && chats[k].patientId != name :: chats[k]
  }

  datatype DeleteStatus = Deleted | DeleteNotFound | DeleteFailed

  datatype DeleteOutcome = DeleteOutcome(status: DeleteStatus, diagnoses: DiagnosisStore,
                                         chats: ChatModel.ChatStore)

  /**
    `DELETE /delete/:id`: an unknown id is a 404 and nothing changes; otherwise
    exactly that record is removed and then every chat document whose
    `patientId` equals the removed record's `patientName` is removed. A failure
    of the second step leaves the record deleted and the chats as they were.
  */
  function DeleteDiagnosis(store: DiagnosisStore, chats: ChatModel.ChatStore, id: string,
                           findFails: bool, chatDeleteFails: bool): (r: DeleteOutcome)
    requires UniqueIds(store)
    ensures findFails ==> r == DeleteOutcome(DeleteFailed, store, chats)
    ensures r.status == DeleteNotFound <==> !findFails && forall k :: 0 <= k < |store| ==> store[k].id != id
    ensures r.status == DeleteNotFound ==> r.diagnoses == store && r.chats == chats
    ensures r.status == Deleted ==> |r.diagnoses| == |store| - 1
    ensures !findFails ==> forall k :: 0 <= k < |r.diagnoses| ==> r.diagnoses[k].id != id
    ensures forall k :: 0 <= k < |store| && store[k].id != id ==> store[k] in r.diagnoses
    ensures forall k :: 0 <= k < |r.diagnoses| ==> r.diagnoses[k] in store
    ensures UniqueIds(r.diagnoses)
  {
    var i := IndexOfId(store, id);
    if findFails then DeleteOutcome(DeleteFailed, store, chats)
    else if i == -1 then DeleteOutcome(DeleteNotFound, store, chats)
    else
      var removed := store[i];
      var rest := RemoveAt(store, i);
      var chats' := if removed.patientName.Some? && !chatDeleteFails
                    then RemoveChatsOf(chats, removed.patientName.value) else chats;
      DeleteOutcome(if chatDeleteFails then DeleteFailed else Deleted, rest, chats')
  }

  /**
    After a successful delete of a record that names its patient, exactly the
    chats filed under that name are gone and every other chat is untouched.
  */
  lemma DeleteCascadesToChats(store: DiagnosisStore, chats: ChatModel.ChatStore, id: string, i: int)
    requires UniqueIds(store)
    requires 0 <= i < |store| && store[i].id == id && store[i].patientName.Some?
    ensures var r := DeleteDiagnosis(store, chats, id, false, false);
            r.status == Deleted
            && (forall k :: k in r.chats <==> k in chats && chats[k].patientId != store[i].patientName.value)
            && (forall k :: k in r.chats ==> r.chats[k] == chats[k])
  {
    assert IndexOfId(store, id) == i;
  }
}

=== FILE: feature_rows.dfy ===
/**
  The per-row rules of `engineer_features` (ml-api/models/data_processor.py),
  the encoding the models were trained on, and how it compares with the
  backend's `calculate*` helpers that build the features sent at prediction
  time.  The shared formulas (BMI, pulse pressure) are the backend's.
*/
module FeatureRows {
  import opened Wrappers
  import Features

  /** The raw columns of one training row (age in days). */
  datatype RawRow = RawRow(age: int, height: int, weight: int, apHi: int, apLo: int,
                           cholesterol: int, gluc: int, smoke: int, alco: int, active: int)

  function AgeYears(ageDays: int): (y: real)
    ensures y * 365.25 == ageDays as real
  {
    ageDays as real / 365.25
  }

  /**
    `pd.cut` with right-closed bins (0,40], (40,50], (50,60], (60,70], (70,100]
    labelled 1..5; a value outside (0,100] has no bin, and the following
    `astype(int)` fails.
  */
  function AgeGroup(years: real): (g: Option<int>)
    ensures g.Some? <==> 0.0 < years <= 100.0
    ensures g.Some? ==> 1 <= g.value <= 5
    ensures g.Some? ==> (g.value == 1 <==> years <= 40.0)
    ensures g.Some? ==> (g.value <= 2 <==> years <= 50.0)
    ensures g.Some? ==> (g.value <= 3 <==> years <= 60.0)
    ensures g.Some? ==> (g.value <= 4 <==> years <= 70.0)
  {
    if years <= 0.0 || years > 100.0 then None
    else if years <= 40.0 then Some(1)
    else if years <= 50.0 then Some(2)
    else if years <= 60.0 then Some(3)
    else if years <= 70.0 then Some(4)
    else Some(5)
  }

  lemma AgeGroupMonotone(a: real, b: real)
    requires 0.0 < a <= b <= 100.0
    ensures AgeGroup(a).value <= AgeGroup(b).value
  {
  }

  predicate Binary(x: int) { x == 0 || x == 1 }

  /** `smoke + alco + (1 - active)`. */
  function LifestyleRisk(smoke: int, alco: int, active: int): (r: int)
    ensures Binary(smoke) && Binary(alco) && Binary(active) ==> 0 <= r <= 3
  {
    smoke + alco + (1 - active)
  }

  /** `(cholesterol - 1) + (gluc - 1)`. */
  function MetabolicRisk(cholesterol: int, gluc: int): (r: int)
    ensures 1 <= cholesterol <= 3 && 1 <= gluc <= 3 ==> 0 <= r <= 4
  {
    (cholesterol - 1) + (gluc - 1)
  }

  /** `Series.between(lo, hi)`: both ends included. */
  predicate Between(x: int, lo: int, hi: int) { lo <= x <= hi }

  /**
    `bp_category` by three successive assignments: 0 everywhere, then 2 where
    ap_hi ≥ 140 or ap_lo ≥ 90, then 1 where ap_hi is in 120..139 or ap_lo in
    80..89; the later assignment overrides the earlier.
  */
  function BpCategory(apHi: int, apLo: int): (c: int)
    ensures 0 <= c <= 2
    ensures c == 1 <==> Between(apHi, 120, 139) || Between(apLo, 80, 89)
    ensures c == 2 <==> !(Between(apHi, 120, 139) || Between(apLo, 80, 89)) && (apHi >= 140 || apLo >= 90)
  {
    var c := 0;
    var c := if apHi >= 140 || apLo >= 90 then 2 else c;
    if Between(apHi, 120, 139) || Between(apLo, 80, 89) then 1 else c
  }

  /** `bmi_category`: 0/1/2/3 at 18.5, 25 and 30; NaN fails every test and lands in 3. */
  function BmiCategory(b: Features.Num): (c: int)
    ensures 0 <= c <= 3
    ensures c == 0 <==> Features.LessThan(b, 18.5)
    ensures c <= 1 <==> Features.LessThan(b, 25.0)
    ensures c <= 2 <==> Features.LessThan(b, 30.0)
  {
    if Features.LessThan(b, 18.5) then 0
    else if Features.LessThan(b, 25.0) then 1
    else if Features.LessThan(b, 30.0) then 2
    else 3
  }

  lemma BmiCategoryMonotone(a: Features.Num, b: Features.Num)
    requires Features.AtMost(a, b)
    ensures BmiCategory(a) <= BmiCategory(b)
  {
  }

  /** `map = (ap_hi + 2 * ap_lo) / 3`. */
  function Map(apHi: int, apLo: int): real {
    (apHi + 2 * apLo) as real / 3.0
  }

  /** `smoke + alco + [cholesterol > 1] + [gluc > 1]`. */
  function RiskScore(smoke: int, alco: int, cholesterol: int, gluc: int): (r: int)
    ensures Binary(smoke) && Binary(alco) ==> 0 <= r <= 4
  {
    smoke + alco + Features.Indicator(cholesterol > 1, 1) + Features.Indicator(gluc > 1, 1)
  }

  /** The engineered training row. */
  datatype Row = Row(bmi: Features.Num, pulsePressure: int, ageYears: real, ageGroup: int,
                     lifestyleRisk: int, metabolicRisk: int, bpCategory: int, bmiCategory: int,
                     meanArterialPressure: real, riskScore: int)

  /** `engineer_features` on one row; None when the age has no bin, which makes the whole frame fail. */
  function EngineerRow(r: RawRow): (e: Option<Row>)
    ensures e.Some? <==> 0.0 < AgeYears(r.age) <= 100.0
    ensures e.Some? ==> 1 <= e.value.ageGroup <= 5 && 0 <= e.value.bpCategory <= 2 && 0 <= e.value.bmiCategory <= 3
    ensures e.Some? ==> e.value.meanArterialPressure == Features.MeanArterialPressure(r.apHi, r.apLo)
  {
    var years := AgeYears(r.age);
    match AgeGroup(years)
    case None => None
    case Some(g) =>
      var bmi := Features.Bmi(r.height, r.weight);
      MapAgrees(r.apHi, r.apLo);
      Some(Row(bmi, Features.PulsePressure(r.apHi, r.apLo), years, g,
               LifestyleRisk(r.smoke, r.alco, r.active), MetabolicRisk(r.cholesterol, r.gluc),
               BpCategory(r.apHi, r.apLo), BmiCategory(bmi), Map(r.apHi, r.apLo),
               RiskScore(r.smoke, r.alco, r.cholesterol, r.gluc)))
  }

  /** The two MAP formulas are the same number. */
  lemma MapAgrees(apHi: int, apLo: int)
    ensures Map(apHi, apLo) == Features.MeanArterialPressure(apHi, apLo)
  {
    var m := Features.MeanArterialPressure(apHi, apLo);
    assert 3.0 * m == apHi as real + 2.0 * apLo as real;
    assert 3.0 * Map(apHi, apLo) == (apHi + 2 * apLo) as real;
  }

  /** The backend's BMI category is the training category plus one, for every BMI. */
  lemma BmiCategoryOffByOne(b: Features.Num)
    ensures Features.BmiCategory(b) == BmiCategory(b) + 1
  {
  }

  /** The blood-pressure encodings differ: a normal reading is 1 for the backend and 0 for training. */
  lemma BpCategoryEncodingsDiffer()
    ensures Features.BpCategory(110, 70) == 1 && BpCategory(110, 70) == 0
    ensures Features.BpCategory(150, 95) == 4 && BpCategory(150, 95) == 2
  {
  }

  /** The age groups differ at a bin edge: 40 years is group 2 for the backend and group 1 for training. */
  lemma AgeGroupEncodingsDiffer()
    ensures Features.AgeGroup(40) == 2 && AgeGroup(40.0) == Some(1)
  {
  }

  /** For binary habits the backend weighs smoking twice, so its lifestyle risk is the training one plus `smoke`. */
  lemma LifestyleRiskWeighsSmoking(smoke: int, alco: int, active: int)
    requires Binary(smoke) && Binary(alco) && Binary(active)
    ensures Features.LifestyleRisk(smoke, alco, active) == LifestyleRisk(smoke, alco, active) + smoke
  {
  }
}

=== FILE: features.dfy ===
/**
  The clinical feature helpers of backend/controllers/diagnosisController.js
  (`calculate*`): exact rational formulas and threshold lookups.  JavaScript
  numbers are modelled exactly; the only non-finite values that arise, from a
  zero height in the BMI division, are modelled by `Num`.
*/
module Features {
  import opened Wrappers

  /** A number as IEEE division can produce it from finite operands. */
  datatype Num = Finite(v: real) | PosInf | NegInf | NaN

  /** `x < t`: NaN compares false. */
  predicate LessThan(x: Num, t: real) {
    match x
    case Finite(v) => v < t
    case NegInf => true
    case _ => false
  }

  /** `x > t`: NaN compares false. */
  predicate GreaterThan(x: Num, t: real) {
    match x
    case Finite(v) => v > t
    case PosInf => true
    case _ => false
  }

  /** The order on non-NaN numbers. */
  predicate AtMost(x: Num, y: Num) {
    match (x, y)
    case (NegInf, _) => y != NaN
    case (_, PosInf) => x != NaN
    case (Finite(a), Finite(b)) => a <= b
    case _ => false
  }

  /** IEEE division of finite operands: a zero divisor gives an infinity of the dividend's sign, or NaN for 0/0. */
  function Divide(a: real, b: real): (r: Num)
    ensures b != 0.0 ==> r.Finite? && r.v * b == a
    ensures b == 0.0 ==> (r == NaN <==> a == 0.0) && (r == PosInf <==> a > 0.0) && (r == NegInf <==> a < 0.0)
  {
    if b != 0.0 then Finite(a / b)
    else if a > 0.0 then PosInf
    else if a < 0.0 then NegInf
    else NaN
  }

  /** `calculateBMI`: weight over the square of the height in metres. */
  function Bmi(heightCm: int, weightKg: int): (b: Num)
    ensures heightCm != 0 ==> b.Finite? && b.v * (heightCm as real / 100.0) * (heightCm as real / 100.0) == weightKg as real
    ensures heightCm == 0 ==> (b == PosInf <==> weightKg > 0) && (b == NaN <==> weightKg == 0)
  {
    var m := heightCm as real / 100.0;
    Divide(weightKg as real, m * m)
  }

  /** `calculateBMICategory`: thresholds 18.5, 25 and 30; NaN fails every test and lands in 4. */
  function BmiCategory(b: Num): (c: int)
    ensures 1 <= c <= 4
    ensures c == 1 <==> LessThan(b, 18.5)
    ensures c <= 2 <==> LessThan(b, 25.0)
    ensures c <= 3 <==> LessThan(b, 30.0)
  {
    if LessThan(b, 18.5) then 1
    else if LessThan(b, 25.0) then 2
    else if LessThan(b, 30.0) then 3
    else 4
  }

  /** A larger BMI never gets a smaller category. */
  lemma BmiCategoryMonotone(a: Num, b: Num)
    requires AtMost(a, b)
    ensures BmiCategory(a) <= BmiCategory(b)
  {
  }

  /** `calculatePulsePressure`. */
  function PulsePressure(systolic: int, diastolic: int): (p: int)
    ensures p + diastolic == systolic
  {
    systolic - diastolic
  }

  /** `calculateMAP`: diastolic plus a third of the pulse pressure. */
  function MeanArterialPressure(systolic: int, diastolic: int): (m: real)
    ensures 3.0 * m == systolic as real + 2.0 * diastolic as real
    ensures diastolic <= systolic ==> diastolic as real <= m <= systolic as real
  {
    diastolic as real + (systolic - diastolic) as real / 3.0
  }

  /** The tests of `calculateBPCategory`, in order. */
  predicate BpRule(k: int, systolic: int, diastolic: int) {
    if k == 1 then systolic < 120 && diastolic < 80
    else if k == 2 then systolic < 130 && diastolic < 80
    else if k == 3 then (130 <= systolic < 140) || (80 <= diastolic < 90)
    else if k == 4 then (140 <= systolic < 180) || (90 <= diastolic < 120)
    else true
  }

  /** `calculateBPCategory`: the first rule that holds wins; 5 when none does. */
  function BpCategory(systolic: int, diastolic: int): (c: int)
    ensures 1 <= c <= 5
    ensures BpRule(c, systolic, diastolic)
    ensures forall k :: 1 <= k < c ==> !BpRule(k, systolic, diastolic)
    ensures c == 1 <==> systolic < 120 && diastolic < 80
  {
    if systolic < 120 && diastolic < 80 then 1
    else if systolic < 130 && diastolic < 80 then 2
    else if (systolic >= 130 && systolic < 140) || (diastolic >= 80 && diastolic < 90) then 3
    else if (systolic >= 140 && systolic < 180) || (diastolic >= 90 && diastolic < 120) then 4
    else 5
  }

  /** The category is not monotone: raising only the diastolic value from 70 to 85 at systolic 150 lowers it. */
  lemma BpCategoryNotMonotone()
    ensures BpCategory(150, 70) == 4 && BpCategory(150, 85) == 3
  {
  }

  /** `calculateAgeGroup`: thresholds 40, 50 and 60 years. */
  function AgeGroup(age: int): (g: int)
    ensures 1 <= g <= 4
    ensures g == 1 <==> age < 40
    ensures g <= 2 <==> age < 50
    ensures g <= 3 <==> age < 60
  {
    if age < 40 then 1 else if age < 50 then 2 else if age < 60 then 3 else 4
  }

  lemma AgeGroupMonotone(a: int, b: int)
    requires a <= b
    ensures AgeGroup(a) <= AgeGroup(b)
  {
  }

  function Indicator(b: bool, weight: nat): nat {
    if b then weight else 0
  }

  /** `calculateLifestyleRisk`: smoking weighs 2, alcohol 1, inactivity 1. */
  function LifestyleRisk(smoke: int, alco: int, active: int): (r: nat)
    ensures r <= 4
    ensures r == 4 <==> smoke == 1 && alco == 1 && active == 0
    ensures r == 0 <==> smoke != 1 && alco != 1 && active != 0
  {
    var risk := 0;
    var risk := risk + Indicator(smoke == 1, 2);
    var risk := risk + Indicator(alco == 1, 1);
    risk + Indicator(active == 0, 1)
  }

  /** The three habits contribute independently: two points for smoking, one for alcohol, one for inactivity. */
  lemma LifestyleRiskAdditive(smoke: int, alco: int, active: int)
    ensures LifestyleRisk(smoke, alco, active)
            == LifestyleRisk(smoke, 0, 1) + LifestyleRisk(0, alco, 1) + LifestyleRisk(0, 0, active)
    ensures LifestyleRisk(smoke, 0, 1) == (if smoke == 1 then 2 else 0)
    ensures LifestyleRisk(0, alco, 1) == (if alco == 1 then 1 else 0)
    ensures LifestyleRisk(0, 0, active) == (if active == 0 then 1 else 0)
  {
  }

  /** `calculateMetabolicRisk`: one point each for cholesterol ≥ 2, glucose ≥ 2 and BMI > 30. */
  function MetabolicRisk(cholesterol: int, gluc: int, bmi: Num): (r: nat)
    ensures r <= 3
    ensures r == 3 <==> cholesterol >= 2 && gluc >= 2 && GreaterThan(bmi, 30.0)
    ensures r == 0 <==> cholesterol < 2 && gluc < 2 && !GreaterThan(bmi, 30.0)
  {
    Indicator(cholesterol >= 2, 1) + Indicator(gluc >= 2, 1) + Indicator(GreaterThan(bmi, 30.0), 1)
  }

  /** The three indicators contribute one point each, independently of one another. */
  lemma MetabolicRiskAdditive(cholesterol: int, gluc: int, bmi: Num)
    ensures MetabolicRisk(cholesterol, gluc, bmi)
            == MetabolicRisk(cholesterol, 0, Finite(0.0)) + MetabolicRisk(0, gluc, Finite(0.0)) + MetabolicRisk(0, 0, bmi)
    ensures MetabolicRisk(cholesterol, 0, Finite(0.0)) == (if cholesterol >= 2 then 1 else 0)
    ensures MetabolicRisk(0, gluc, Finite(0.0)) == (if gluc >= 2 then 1 else 0)
    ensures MetabolicRisk(0, 0, bmi) == (if GreaterThan(bmi, 30.0) then 1 else 0)
  {
  }

  /** The weighted indicator sum of `calculateRiskScore`, before the cap. */
  function RawRiskScore(age: int, bmi: Num, systolic: int, diastolic: int, cholesterol: int,
                        gluc: int, smoke: int, alco: int, active: int): (s: nat)
    ensures s <= 13
  {
    Indicator(age > 50, 2) + Indicator(GreaterThan(bmi, 30.0), 2) + Indicator(systolic > 140, 2)
    + Indicator(diastolic > 90, 1) + Indicator(cholesterol >= 2, 1) + Indicator(gluc >= 2, 1)
    + Indicator(smoke == 1, 2) + Indicator(alco == 1, 1) + Indicator(active == 0, 1)
  }

  /** `calculateRiskScore`: the weighted sum, capped at 10 by `Math.min`. */
  function RiskScore(age: int, bmi: Num, systolic: int, diastolic: int, cholesterol: int,
                     gluc: int, smoke: int, alco: int, active: int): (r: nat)
    ensures r <= 10
    ensures r <= RawRiskScore(age, bmi, systolic, diastolic, cholesterol, gluc, smoke, alco, active)
    ensures r < RawRiskScore(age, bmi, systolic, diastolic, cholesterol, gluc, smoke, alco, active) ==> r == 10
  {
    Min(RawRiskScore(age, bmi, systolic, diastolic, cholesterol, gluc, smoke, alco, active), 10)
  }

  /** Every indicator set gives 13 before the cap, so the cap at 10 is reached. */
  lemma RiskScoreCapReached()
    ensures RawRiskScore(60, Finite(35.0), 150, 95, 2, 2, 1, 1, 0) == 13
    ensures RiskScore(60, Finite(35.0), 150, 95, 2, 2, 1, 1, 0) == 10
  {
  }
}

=== FILE: migration.dfy ===
/**
  The one-off migration of backend/migrate-chats.js: old one-document-per-turn
  chat records (patientId, message, reply, timestamps) are sorted by creation
  time, grouped by patient, turned into user/assistant message pairs and
  written as one conversation document per patient into an emptied target
  collection.
*/
module Migration {
  import opened Wrappers
  import Sorting
  import opened ChatModel
  import opened ChatHistory
  import Text

  /** A stored `patientId`: missing, an explicit null, or a string. */
  datatype IdField = Absent | NullId | Given(s: string)

  /** An old-format chat record; every field may be absent. */
  datatype OldChat = OldChat(
    patientId: IdField,
    message: Option<string>,
    reply: Option<string>,
    createdAt: Option<nat>,
    updatedAt: Option<nat>)

  /** The sort key of `.sort({ createdAt: 1 })`: a missing creation time sorts first. */
  function CreatedKey(c: OldChat): real {
    if c.createdAt.Some? then c.createdAt.value as real else -1.0
  }

  /** The grouping key: a JavaScript object key, so a missing id becomes "undefined" and a null one "null". */
  function GroupKey(c: OldChat): string {
    match c.patientId
    case Absent => "undefined"
    case NullId => "null"
    case Given(s) => s
  }

  function UserMessage(c: OldChat, now: nat): (m: Message)
    ensures m.role == User
  {
    Message(User, c.message.GetOr(""), c.createdAt.GetOr(now))
  }

  /** The reply's time is `updatedAt || createdAt || now`. */
  function AssistantMessage(c: OldChat, now: nat): (m: Message)
    ensures m.role == Assistant
  {
    Message(Assistant, c.reply.GetOr(""),
            if c.updatedAt.Some? then c.updatedAt.value else c.createdAt.GetOr(now))
  }

  /** The pair of messages one old record becomes. */
  function Pairs(rs: seq<OldChat>, now: nat): (c: seq<Message>)
    ensures |c| == 2 * |rs|
    ensures WellPaired(c)
  {
    if rs == [] then []
    else
      var last := rs[|rs| - 1];
      WellPairedAppend(Pairs(rs[..|rs| - 1], now), UserMessage(last, now), AssistantMessage(last, now));
      Pairs(rs[..|rs| - 1], now) + [UserMessage(last, now), AssistantMessage(last, now)]
  }

  /** Record `i` becomes the messages at `2i` and `2i + 1`. */
  lemma {:induction false} PairsAt(rs: seq<OldChat>, now: nat, i: int)
    requires 0 <= i < |rs|
    ensures Pairs(rs, now)[2 * i] == UserMessage(rs[i], now)
    ensures Pairs(rs, now)[2 * i + 1] == AssistantMessage(rs[i], now)
    decreases |rs|
  {
    if i < |rs| - 1 {
      PairsAt(rs[..|rs| - 1], now, i);
    }
  }

  /** The (message, reply) entries the old records stood for, in order. */
  function Entries(rs: seq<OldChat>, now: nat): (h: seq<HistoryEntry>)
    ensures |h| == |rs|
  {
    if rs == [] then []
    else Entries(rs[..|rs| - 1], now) + [EntryOf(UserMessage(rs[|rs| - 1], now), AssistantMessage(rs[|rs| - 1], now))]
  }

  /** Round trip: pairing the migrated messages gives back exactly the old entries, in order. */
  lemma {:induction false} PairsRoundTrip(rs: seq<OldChat>, now: nat)
    ensures PairUp(Pairs(rs, now)) == Entries(rs, now)
    decreases |rs|
  {
    if rs != [] {
      var last := rs[|rs| - 1];
      PairsRoundTrip(rs[..|rs| - 1], now);
      AppendPairHistory(Pairs(rs[..|rs| - 1], now), UserMessage(last, now), AssistantMessage(last, now));
    }
  }

  function HasKey(key: string): OldChat -> bool {
    (c: OldChat) => GroupKey(c) == key
  }

  /** The old records of one patient, in input order. */
  function RecordsOf(chats: seq<OldChat>, key: string): seq<OldChat> {
    Sorting.Filter(chats, HasKey(key))
  }

  function KeysOf(chats: seq<OldChat>): set<string> {
    set i | 0 <= i < |chats| :: GroupKey(chats[i])
  }

  /** The `forEach` of the migration: each record appends its pair to its patient's list. */
  function Group(chats: seq<OldChat>, now: nat): (g: map<string, seq<Message>>)
    ensures g.Keys == KeysOf(chats)
    ensures forall k :: k in g ==> |g[k]| >= 2
  {
    if chats == [] then map[]
    else
      var before := Group(chats[..|chats| - 1], now);
      var c := chats[|chats| - 1];
      var k := GroupKey(c);
      assert KeysOf(chats) == KeysOf(chats[..|chats| - 1]) + {k} by {
        forall j | j in KeysOf(chats) ensures j in KeysOf(chats[..|chats| - 1]) + {k} {
          var i :| 0 <= i < |chats| && GroupKey(chats[i]) == j;
          if i < |chats| - 1 {
            assert chats[..|chats| - 1][i] == chats[i];
          }
        }
      }
      before[k := (if k in before then before[k] else []) + [UserMessage(c, now), AssistantMessage(c, now)]]
  }

  /** Each patient's list is the pairs of that patient's records, in input order. */
  lemma {:induction false} GroupIsPairsOfRecords(chats: seq<OldChat>, now: nat, key: string)
    ensures key in Group(chats, now) <==> RecordsOf(chats, key) != []
    ensures key in Group(chats, now) ==> Group(chats, now)[key] == Pairs(RecordsOf(chats, key), now)
    decreases |chats|
  {
    if chats != [] {
      var init := chats[..|chats| - 1];
      var c := chats[|chats| - 1];
      assert chats == init + [c];
      GroupIsPairsOfRecords(init, now, key);
      Sorting.FilterAppend(init, c, HasKey(key));
      assert HasKey(key)(c) == (GroupKey(c) == key);
      GroupSnoc(init, c, now);
      if GroupKey(c) == key {
        assert RecordsOf(chats, key) == RecordsOf(init, key) + [c];
        PairsSnoc(RecordsOf(init, key), c, now);
      } else {
        assert RecordsOf(chats, key) == RecordsOf(init, key);
      }
    }
  }

  /**
    Object keys are strings, so a record with a `null` id and one whose id is
    the string "null" end up in the same conversation.
  */
  lemma NullIdSharesStringKey(a: OldChat, b: OldChat, now: nat)
    requires a.patientId == NullId && b.patientId == Given("null")
    ensures Group([a, b], now).Keys == {"null"}
    ensures Group([a, b], now)["null"] == Pairs([a, b], now)
  {
    GroupIsPairsOfRecords([a, b], now, "null");
    assert RecordsOf([a, b], "null") == [a, b] by {
      assert HasKey("null")(a) && HasKey("null")(b);
      assert [a, b][..1] == [a];
    }
  }

  /** One more record appends its pair to its patient's list. */
  lemma GroupSnoc(init: seq<OldChat>, c: OldChat, now: nat)
    ensures var before := Group(init, now);
            var k := GroupKey(c);
            Group(init + [c], now) == before[k := (if k in before then before[k] else []) + [UserMessage(c, now), AssistantMessage(c, now)]]
  {
    assert (init + [c])[..|init|] == init;
  }

  /** One more record adds its pair at the end. */
  lemma PairsSnoc(rs: seq<OldChat>, c: OldChat, now: nat)
    ensures Pairs(rs + [c], now) == Pairs(rs, now) + [UserMessage(c, now), AssistantMessage(c, now)]
  {
    assert (rs + [c])[..|rs|] == rs;
  }

  /** The sum of the conversation lengths over some keys of a grouping. */
  ghost function SumLengths(g: map<string, seq<Message>>, keys: set<string>): nat
    requires keys <= g.Keys
    decreases keys
  {
    if keys == {} then 0
    else
      var k :| k in keys;
      |g[k]| + SumLengths(g, keys - {k})
  }

  /** Any key may be taken out of the sum first. */
  lemma {:induction false} SumLengthsSplit(g: map<string, seq<Message>>, keys: set<string>, k: string)
    requires keys <= g.Keys && k in keys
    ensures SumLengths(g, keys) == |g[k]| + SumLengths(g, keys - {k})
    decreases keys
  {
    var j :| j in keys && SumLengths(g, keys) == |g[j]| + SumLengths(g, keys - {j});
    if j != k {
      SumLengthsSplit(g, keys - {j}, k);
      SumLengthsSplit(g, keys - {k}, j);
      assert keys - {j} - {k} == keys - {k} - {j};
    }
  }

  /** The sum only looks at the keys it is given. */
  lemma {:induction false} SumLengthsAgree(g1: map<string, seq<Message>>, g2: map<string, seq<Message>>, keys: set<string>)
    requires keys <= g1.Keys && keys <= g2.Keys
    requires forall k :: k in keys ==> |g1[k]| == |g2[k]|
    ensures SumLengths(g1, keys) == SumLengths(g2, keys)
    decreases keys
  {
    if keys != {} {
      var k :| k in keys;
      SumLengthsSplit(g1, keys, k);
      SumLengthsSplit(g2, keys, k);
      SumLengthsAgree(g1, g2, keys - {k});
    }
  }

  /** Grouping loses and invents nothing: the lists hold two messages per old record. */
  lemma {:induction false} GroupTotal(chats: seq<OldChat>, now: nat)
    ensures SumLengths(Group(chats, now), Group(chats, now).Keys) == 2 * |chats|
    decreases |chats|
  {
    if chats != [] {
      var init := chats[..|chats| - 1];
      var before := Group(init, now);
      var after := Group(chats, now);
      var k := GroupKey(chats[|chats| - 1]);
      GroupTotal(init, now);
      SumLengthsSplit(after, after.Keys, k);
      assert after.Keys - {k} == before.Keys - {k};
      SumLengthsAgree(after, before, before.Keys - {k});
      if k in before {
        SumLengthsSplit(before, before.Keys, k);
      } else {
        assert before.Keys - {k} == before.Keys;
      }
    }
  }

  /**
    The validation `insertMany` performs: `patientId` and `content` are required
    strings, so neither the document's key nor a message or reply may be
    missing or empty.
  */
  predicate RecordValid(c: OldChat) {
    GroupKey(c) != "" && c.message.GetOr("") != "" && c.reply.GetOr("") != ""
  }

  predicate AllRecordsValid(chats: seq<OldChat>) {
    forall i :: 0 <= i < |chats| ==> RecordValid(chats[i])
  }

  /** One document per group; `lastActive` is the timestamp of the group's last message. */
  function Documents(g: map<string, seq<Message>>): (docs: ChatStore)
    requires forall k :: k in g ==> |g[k]| >= 2
    ensures docs.Keys == g.Keys
    ensures forall k :: k in docs ==> docs[k].patientId == k && docs[k].conversation == g[k]
    ensures forall k :: k in docs ==> docs[k].lastActive == g[k][|g[k]| - 1].timestamp
  {
    map k | k in g :: ChatDoc(k, g[k], g[k][|g[k]| - 1].timestamp)
  }

  /** The document written for one group. */
  lemma DocumentAt(g: map<string, seq<Message>>, key: string)
    requires forall k :: k in g ==> |g[k]| >= 2
    requires key in g
    ensures key in Documents(g)
    ensures Documents(g)[key] == ChatDoc(key, g[key], g[key][|g[key]| - 1].timestamp)
  {
  }

  /** Every document is filed under its own key, holds at least one pair and is last active at its last message. */
  ghost predicate DocumentsShaped(docs: ChatStore) {
    forall k :: k in docs ==>
      docs[k].patientId == k && |docs[k].conversation| >= 2
      && docs[k].lastActive == docs[k].conversation[|docs[k].conversation| - 1].timestamp
  }

  /** The documents built from a grouping are shaped. */
  lemma DocumentsShape(g: map<string, seq<Message>>)
    requires forall k :: k in g ==> |g[k]| >= 2
    ensures DocumentsShaped(Documents(g))
  {
    forall k | k in Documents(g)
      ensures Documents(g)[k].patientId == k && |Documents(g)[k].conversation| >= 2
              && Documents(g)[k].lastActive == Documents(g)[k].conversation[|Documents(g)[k].conversation| - 1].timestamp
    {
      DocumentAt(g, k);
    }
  }

  datatype MigrationOutcome = NothingToMigrate | Migrated(documents: nat) | GroupingFailed | InsertRejected

  /**
    Some record's key is a member every plain object inherits: the `forEach`
    finds it already "present" and `.push` on the inherited member throws.
  */
  predicate GroupingThrows(chats: seq<OldChat>) {
    exists i :: 0 <= i < |chats| && GroupKey(chats[i]) in Text.InheritedNames
  }

  /** The source the migration completes on. */
  predicate Migratable(source: seq<OldChat>) {
    source != [] && !GroupingThrows(source) && AllRecordsValid(source)
  }

  datatype MigrationResult = MigrationResult(outcome: MigrationOutcome, target: ChatStore)

  /** Sorting the records changes no patient key. */
  lemma SortKeepsKeys(source: seq<OldChat>)
    ensures KeysOf(Sorting.SortBy(source, CreatedKey)) == KeysOf(source)
  {
    var sorted := Sorting.SortBy(source, CreatedKey);
    forall k ensures k in KeysOf(sorted) <==> k in KeysOf(source) {
      if k in KeysOf(sorted) {
        var i :| 0 <= i < |sorted| && GroupKey(sorted[i]) == k;
        assert sorted[i] in multiset(source);
      }
      if k in KeysOf(source) {
        var i :| 0 <= i < |source| && GroupKey(source[i]) == k;
        assert source[i] in multiset(sorted);
      }
    }
  }

  /**
    `migrateChats`: an empty source returns early and writes nothing; a
    grouping loop that throws aborts before the target is touched; otherwise
    the target is emptied and then receives one document per patient, or stays
    empty when a document fails validation.
  */
  function Migrate(source: seq<OldChat>, target: ChatStore, now: nat): (r: MigrationResult)
    ensures r.outcome.NothingToMigrate? <==> source == []
    ensures r.outcome.GroupingFailed? <==> source != [] && GroupingThrows(source)
    ensures r.outcome.NothingToMigrate? || r.outcome.GroupingFailed? ==> r.target == target
    ensures r.outcome.InsertRejected? <==> source != [] && !GroupingThrows(source) && !AllRecordsValid(source)
    ensures r.outcome.InsertRejected? ==> r.target == map[]
    ensures r.outcome.Migrated? <==> Migratable(source)
    ensures r.outcome.Migrated? ==> r.target.Keys == KeysOf(source) && r.outcome.documents == |r.target|
    ensures r.outcome.Migrated? ==> DocumentsShaped(r.target)
  {
    if source == [] then MigrationResult(NothingToMigrate, target)
    else
      var sorted := Sorting.SortBy(source, CreatedKey);
      var groups := Group(sorted, now);
      SortKeepsKeys(source);
      if GroupingThrows(source) then MigrationResult(GroupingFailed, target)
      else if !AllRecordsValid(source) then MigrationResult(InsertRejected, map[])
      else
        var docs := Documents(groups);
        DocumentsShape(groups);
        MigrationResult(Migrated(|docs|), docs)
  }

  /** A record with an empty patientId fails the `required` check, and the emptied target stays empty. */
  lemma EmptyPatientIdRejected(c: OldChat, target: ChatStore, now: nat)
    requires c.patientId == Given("")
    ensures Migrate([c], target, now) == MigrationResult(InsertRejected, map[])
  {
    assert !RecordValid([c][0]);
  }

  /** A patient keyed like an inherited object member aborts the migration before anything is deleted. */
  lemma InheritedKeyKeepsTarget(source: seq<OldChat>, c: OldChat, target: ChatStore, now: nat)
    requires c.patientId == Given("toString")
    ensures Migrate(source + [c], target, now) == MigrationResult(GroupingFailed, target)
  {
    assert (source + [c])[|source|] == c;
  }

  /** The records of one patient as the migration sees them: sorted by creation time. */
  function MigratedRecordsOf(source: seq<OldChat>, key: string): seq<OldChat> {
    RecordsOf(Sorting.SortBy(source, CreatedKey), key)
  }

  /**
    For each migrated patient: the conversation is the pairs of that patient's
    records, which appear in ascending creation time, and pairing it back gives
    the old (message, reply) entries.
  */
  lemma MigratedConversation(source: seq<OldChat>, target: ChatStore, now: nat, key: string)
    requires Migratable(source)
    requires key in KeysOf(source)
    ensures var rs := MigratedRecordsOf(source, key);
            var conv := Migrate(source, target, now).target[key].conversation;
            conv == Pairs(rs, now)
            && |conv| == 2 * |rs|
            && Sorting.SortedBy(rs, CreatedKey)
            && PairUp(conv) == Entries(rs, now)
  {
    var sorted := Sorting.SortBy(source, CreatedKey);
    var groups := Group(sorted, now);
    MigratedDocument(source, target, now, key);
    GroupedConversation(sorted, now, key);
  }

  /** The document the migration writes for one patient key. */
  lemma MigratedDocument(source: seq<OldChat>, target: ChatStore, now: nat, key: string)
    requires Migratable(source)
    requires key in KeysOf(source)
    ensures var groups := Group(Sorting.SortBy(source, CreatedKey), now);
            key in groups
            && Migrate(source, target, now).target[key]
               == ChatDoc(key, groups[key], groups[key][|groups[key]| - 1].timestamp)
  {
    var groups := Group(Sorting.SortBy(source, CreatedKey), now);
    MigratedTarget(source, target, now);
    DocumentAt(groups, key);
  }

  /** The list of one group, stated on the sorted records. */
  lemma GroupedConversation(sorted: seq<OldChat>, now: nat, key: string)
    requires Sorting.SortedBy(sorted, CreatedKey)
    requires key in Group(sorted, now)
    ensures var rs := RecordsOf(sorted, key);
            Group(sorted, now)[key] == Pairs(rs, now)
            && Sorting.SortedBy(rs, CreatedKey)
            && PairUp(Pairs(rs, now)) == Entries(rs, now)
  {
    var rs := RecordsOf(sorted, key);
    GroupIsPairsOfRecords(sorted, now, key);
    Sorting.FilterSorted(sorted, HasKey(key), CreatedKey);
    PairsRoundTrip(rs, now);
  }

  /** The conversations of a store, by key. */
  function Conversations(docs: ChatStore): (g: map<string, seq<Message>>)
    ensures g.Keys == docs.Keys
    ensures forall k :: k in g ==> g[k] == docs[k].conversation
  {
    map k | k in docs :: docs[k].conversation
  }

  /** The target a successful migration writes. */
  lemma MigratedTarget(source: seq<OldChat>, target: ChatStore, now: nat)
    requires Migratable(source)
    ensures Migrate(source, target, now).target == Documents(Group(Sorting.SortBy(source, CreatedKey), now))
  {
  }

  /** Across all documents, exactly two messages per old record are written. */
  lemma MigratedTotal(source: seq<OldChat>, target: ChatStore, now: nat)
    requires Migratable(source)
    ensures var docs := Migrate(source, target, now).target;
            SumLengths(Conversations(docs), docs.Keys) == 2 * |source|
  {
    var sorted := Sorting.SortBy(source, CreatedKey);
    var groups := Group(sorted, now);
    var docs := Migrate(source, target, now).target;
    MigratedTarget(source, target, now);
    GroupTotal(sorted, now);
    SumLengthsAgree(Conversations(docs), groups, docs.Keys);
  }

  /** Pairs of valid records are valid messages. */
  lemma PairsValid(rs: seq<OldChat>, now: nat)
    requires AllRecordsValid(rs)
    ensures forall i :: 0 <= i < |Pairs(rs, now)| ==> ValidMessage(Pairs(rs, now)[i])
  {
    forall i | 0 <= i < |Pairs(rs, now)|
      ensures ValidMessage(Pairs(rs, now)[i])
    {
      PairsAt(rs, now, i / 2);
      assert i == 2 * (i / 2) || i == 2 * (i / 2) + 1;
    }
  }

  /** Every record the migration files under a patient comes from the source. */
  lemma MigratedRecordsValid(source: seq<OldChat>, key: string)
    requires AllRecordsValid(source)
    ensures AllRecordsValid(MigratedRecordsOf(source, key))
  {
    var sorted := Sorting.SortBy(source, CreatedKey);
    var rs := MigratedRecordsOf(source, key);
    forall i | 0 <= i < |rs| ensures RecordValid(rs[i]) {
      assert rs[i] in sorted;
      assert rs[i] in multiset(source);
      var j :| 0 <= j < |source| && source[j] == rs[i];
    }
  }

  /** A migrated store satisfies the conversation schema and the pairing invariant. */
  lemma MigratedStoreInvariants(source: seq<OldChat>, target: ChatStore, now: nat)
    requires Migratable(source)
    ensures var docs := Migrate(source, target, now).target;
            AllValid(docs) && AllWellPaired(docs) && KeyedByPatient(docs)
  {
    var docs := Migrate(source, target, now).target;
    MigratedTarget(source, target, now);
    forall k | k in docs
      ensures WellPaired(docs[k].conversation)
      ensures forall i :: 0 <= i < |docs[k].conversation| ==> ValidMessage(docs[k].conversation[i])
    {
      MigratedConversation(source, target, now, k);
      MigratedRecordsValid(source, k);
      PairsValid(MigratedRecordsOf(source, k), now);
    }
  }

  /** The target is emptied before inserting, so running the migration again changes nothing. */
  lemma RerunIsStable(source: seq<OldChat>, target: ChatStore, now: nat)
    ensures var first := Migrate(source, target, now);
            Migrate(source, first.target, now) == first
  {
  }
}

=== FILE: ml_api.dfy ===
/**
  The request handling of ml-api/app.py: the model table, the metric-key
  mapping, the validation chain of `/predict` and how its answer is labelled,
  and the `/model-metrics`, `/models` and `/model-comparison` listings.
  Model files on disk are a set of present model keys; loading, scaling and
  inference are an oracle.
*/
module MlApi {
  import opened Wrappers
  import Text
  import Sorting
  import DiagnosisModel

  /** The keys of `MODEL_PATHS`, in declaration order. */
  const ModelKeys: seq<string> := ["logistic_regression", "random_forest", "xgboost", "lightgbm",
                                   "catboost", "voting_ensemble", "stacking_model"]

  /** The model table and the diagnosis schema's `model` enum name the same seven models. */
  lemma ModelTableMatchesSchema(s: string)
    ensures s in ModelKeys <==> DiagnosisModel.ParseModelName(s).Some?
  {
  }

  function ModelPath(key: string): string {
    "models/" + key + ".pkl"
  }

  /** The key under which a model's metrics are stored; any other name maps to itself. */
  function MetricKey(name: string): (k: string)
    ensures name !in ModelKeys ==> k == name
    ensures name in ModelKeys ==> k !in ModelKeys && k != name
  {
    if name == "voting_ensemble" then "ensemble"
    else if name == "stacking_model" then "stacking"
    else if name == "logistic_regression" then "lr"
    else if name == "random_forest" then "rf"
    else if name == "xgboost" then "xgb"
    else if name == "lightgbm" then "lgb"
    else if name == "catboost" then "cat"
    else name
  }

  /** Mapping twice is mapping once, and distinct models keep distinct metric keys. */
  lemma MetricKeyProperties(a: string, b: string)
    ensures MetricKey(MetricKey(a)) == MetricKey(a)
    ensures a in ModelKeys && b in ModelKeys && a != b ==> MetricKey(a) != MetricKey(b)
  {
  }

  /** One model's stored metrics; a metric may be missing from the dictionary. */
  datatype Metrics = Metrics(accuracy: Option<real>, auc: Option<real>, precision: Option<real>,
                             recall: Option<real>, f1: Option<real>)

  /** The table used when `models/model_metrics.pkl` cannot be loaded. */
  const FallbackMetrics: map<string, Metrics> := map[
    "lr" := Metrics(Some(0.7136), Some(0.78), Some(0.68), Some(0.64), Some(0.66)),
    "rf" := Metrics(Some(0.7130), Some(0.77), Some(0.69), Some(0.67), Some(0.68)),
    "xgb" := Metrics(Some(0.7319), Some(0.79), Some(0.70), Some(0.69), Some(0.695))
  ]

  function MetricsTable(loaded: Option<map<string, Metrics>>): map<string, Metrics> {
    if loaded.Some? then loaded.value else FallbackMetrics
  }

  const NoMetrics: Metrics := Metrics(None, None, None, None, None)

  /** `model_metrics.get(metric_key, {})`. */
  function MetricsFor(table: map<string, Metrics>, name: string): Metrics {
    if MetricKey(name) in table then table[MetricKey(name)] else NoMetrics
  }

  function UpperChar(c: char): char {
    if 'a' <= c <= 'z' then (c as int - 32) as char else c
  }

  predicate IsLetter(c: char) {
    'a' <= c <= 'z' || 'A' <= c <= 'Z'
  }

  /**
    Python `str.title()` on ASCII text: a letter following a letter is lowered,
    any other letter raised; other characters are kept.
  */
  function TitleFrom(s: string, afterLetter: bool): (r: string)
    ensures |r| == |s|
    ensures forall i :: 0 <= i < |s| && !IsLetter(s[i]) ==> r[i] == s[i]
    ensures |s| > 0 && IsLetter(s[0]) ==>
              r[0] == (if afterLetter then Text.LowerChar(s[0]) else UpperChar(Text.LowerChar(s[0])))
    ensures forall i :: 0 < i < |s| && IsLetter(s[i]) && IsLetter(s[i - 1]) ==> r[i] == Text.LowerChar(s[i])
    ensures forall i :: 0 < i < |s| && IsLetter(s[i]) && !IsLetter(s[i - 1]) ==> r[i] == UpperChar(Text.LowerChar(s[i]))
  {
    if s == [] then []
    else
      var c := if !IsLetter(s[0]) then s[0]
               else if afterLetter then Text.LowerChar(s[0])
               else UpperChar(Text.LowerChar(s[0]));
      var rest := TitleFrom(s[1..], IsLetter(s[0]));
      var r := [c] + rest;
      assert forall i :: 0 < i < |s| ==> s[i] == s[1..][i - 1] && r[i] == rest[i - 1];
      r
  }

  /**
    `model_key.replace("_", " ").title()`: underscores become spaces, each word
    starts with a capital and continues in lower case.
  */
  function DisplayName(key: string): (r: string)
    ensures |r| == |key|
    ensures forall i :: 0 <= i < |key| && key[i] == '_' ==> r[i] == ' '
    ensures |key| > 0 && 'a' <= key[0] <= 'z' ==> r[0] == UpperChar(key[0])
    ensures forall i :: 0 < i < |key| && 'a' <= key[i] <= 'z' && key[i - 1] == '_' ==> r[i] == UpperChar(key[i])
    ensures forall i :: 0 < i < |key| && 'a' <= key[i] <= 'z' && 'a' <= key[i - 1] <= 'z' ==> r[i] == key[i]
  {
    var spaced := seq(|key|, i requires 0 <= i < |key| => if key[i] == '_' then ' ' else key[i]);
    assert forall i :: 0 <= i < |key| && 'a' <= key[i] <= 'z' ==> Text.LowerChar(spaced[i]) == key[i];
    TitleFrom(spaced, false)
  }

  /**
    The `model` field of a request body when the key is present: a string, or
    some other JSON value, `null` included.
  */
  datatype ModelField = StringField(s: string) | OtherField

  /** A `/predict` body: its `model` field and the keys of its `inputData` object, each possibly absent. */
  datatype PredictBody = PredictBody(model: Option<ModelField>, inputData: Option<set<string>>)

  /** What loading, scaling and `predict` give: the class and, if the model has `predict_proba`, the class probabilities. */
  datatype Inference = Inference(prediction: int, proba: Option<seq<real>>)

  datatype PredictFailure =
    | MissingBodyOrModel | EmptyModelName | InvalidModelName | ModelFileMissing
    | ModelLoadFailed | MissingInputData | MissingColumns(columns: set<string>) | InternalError

  datatype PredictError = PredictError(status: nat, failure: PredictFailure)

  datatype PredictResponse = PredictResponse(
    result: int, riskLabel: string, probability: real, lowRisk: real, highRisk: real,
    modelUsed: string, displayName: string, metrics: Metrics, confidence: real)

  /** Python indexing: a negative index counts from the end; anything else out of range raises. */
  function PyIndex(s: seq<real>, i: int): (r: Option<real>)
    ensures r.Some? <==> -|s| <= i < |s|
    ensures 0 <= i < |s| ==> r == Some(s[i])
    ensures -|s| <= i < 0 ==> r == Some(s[|s| + i])
  {
    if 0 <= i < |s| then Some(s[i]) else if -|s| <= i < 0 then Some(s[|s| + i]) else None
  }

  function MaxOf(s: seq<real>): (m: real)
    requires |s| > 0
    ensures forall i :: 0 <= i < |s| ==> s[i] <= m
    ensures exists i :: 0 <= i < |s| && s[i] == m
  {
    if |s| == 1 then s[0]
    else
      var rest := MaxOf(s[1..]);
      assert forall i :: 1 <= i < |s| ==> s[i] == s[1..][i - 1];
      if s[0] >= rest then s[0] else rest
  }

  /** "High Risk" exactly for class 1. */
  function RiskLabel(prediction: int): (l: string)
    ensures l == "High Risk" <==> prediction == 1
    ensures l == "Low Risk" <==> prediction != 1
  {
    if prediction == 1 then "High Risk" else "Low Risk"
  }

  /**
    The answer built from the inference: the probability of the predicted class,
    both class probabilities and their maximum as confidence.  A model without
    `predict_proba` leaves `probabilities` unbound, so building the answer
    raises; so does an index out of range.
  */
  function Answer(name: string, inf: Inference, table: map<string, Metrics>): (r: Result<PredictResponse, PredictError>)
    ensures r.Failure? ==> r.error == PredictError(500, InternalError)
    ensures inf.proba.None? ==> r.Failure?
    ensures inf.proba.Some? && |inf.proba.value| >= 2 && 0 <= inf.prediction < |inf.proba.value| ==> r.Success?
    ensures r.Success? ==> r.value.result == inf.prediction && r.value.riskLabel == RiskLabel(inf.prediction)
    ensures r.Success? ==> Some(r.value.probability) == PyIndex(inf.proba.value, inf.prediction)
    ensures r.Success? ==> |inf.proba.value| >= 2 && r.value.lowRisk == inf.proba.value[0] && r.value.highRisk == inf.proba.value[1]
    ensures r.Success? ==> forall i :: 0 <= i < |inf.proba.value| ==> inf.proba.value[i] <= r.value.confidence
    ensures r.Success? ==> exists i :: 0 <= i < |inf.proba.value| && inf.proba.value[i] == r.value.confidence
    ensures r.Success? ==> r.value.modelUsed == name && r.value.metrics == MetricsFor(table, name)
  {
    match inf.proba
    case None => Failure(PredictError(500, InternalError))
    case Some(p) =>
      if |p| < 2 then Failure(PredictError(500, InternalError))
      else match PyIndex(p, inf.prediction)
        case None => Failure(PredictError(500, InternalError))
        case Some(prob) =>
          Success(PredictResponse(inf.prediction, RiskLabel(inf.prediction), prob, p[0], p[1],
                                  name, DisplayName(name), MetricsFor(table, name), MaxOf(p)))
  }

  /** The body passes the first check: it is present and has a `model` key. */
  predicate HasModelKey(body: Option<PredictBody>) {
    body.Some? && body.value.model.Some?
  }

  /**
    The checks on the `model` value: a non-string makes `.strip()` raise (500),
    an empty stripped name (400), a name outside the model table (400);
    otherwise the stripped name.
  */
  function CheckName(field: ModelField): (r: Result<string, PredictError>)
    ensures field.OtherField? ==> r == Failure(PredictError(500, InternalError))
    ensures field.StringField? && Text.AllSpace(Text.PySpace, field.s) ==> r == Failure(PredictError(400, EmptyModelName))
    ensures field.StringField? && !Text.AllSpace(Text.PySpace, field.s) ==>
              (r.Success? <==> Text.Trim(Text.PySpace, field.s) in ModelKeys)
    ensures r.Failure? && field.StringField? && !Text.AllSpace(Text.PySpace, field.s) ==>
              r == Failure(PredictError(400, InvalidModelName))
    ensures r.Success? ==> field.StringField? && r.value == Text.Trim(Text.PySpace, field.s) && r.value in ModelKeys
  {
    match field
    case OtherField => Failure(PredictError(500, InternalError))
    case StringField(s) =>
      var name := Text.Trim(Text.PySpace, s);
      if name == "" then Failure(PredictError(400, EmptyModelName))
      else if name !in ModelKeys then Failure(PredictError(400, InvalidModelName))
      else Success(name)
  }

  /**
    The model checks of `/predict`, in order: missing body or `model` (400),
    the name checks, a missing model file (404), a failed load (500).
  */
  function CheckModel(body: Option<PredictBody>, files: set<string>, loadFails: bool): (r: Result<string, PredictError>)
    ensures !HasModelKey(body) ==> r == Failure(PredictError(400, MissingBodyOrModel))
    ensures HasModelKey(body) && CheckName(body.value.model.value).Failure? ==> r == Failure(CheckName(body.value.model.value).error)
    ensures HasModelKey(body) && CheckName(body.value.model.value).Success? ==>
              var name := CheckName(body.value.model.value).value;
              && (name !in files ==> r == Failure(PredictError(404, ModelFileMissing)))
              && (name in files && loadFails ==> r == Failure(PredictError(500, ModelLoadFailed)))
              && (name in files && !loadFails ==> r == Success(name))
    ensures r.Success? ==> HasModelKey(body) && r.value in ModelKeys && r.value in files && !loadFails
  {
    if !HasModelKey(body) then Failure(PredictError(400, MissingBodyOrModel))
    else
      match CheckName(body.value.model.value)
      case Failure(e) => Failure(e)
      case Success(name) =>
        if name !in files then Failure(PredictError(404, ModelFileMissing))
        else if loadFails then Failure(PredictError(500, ModelLoadFailed))
        else Success(name)
  }

  /**
    The feature checks: missing or empty `inputData` (400), then missing
    feature columns (400, listing exactly the expected columns not sent).
  */
  function CheckFeatures(inputData: Option<set<string>>, expected: set<string>): (r: Result<set<string>, PredictError>)
    ensures r == Failure(PredictError(400, MissingInputData)) <==> inputData.None? || inputData.value == {}
    ensures inputData.Some? && inputData.value != {} && expected - inputData.value != {} ==>
              r == Failure(PredictError(400, MissingColumns(expected - inputData.value)))
    ensures r.Success? <==> inputData.Some? && inputData.value != {} && expected <= inputData.value
    ensures r.Success? ==> r.value == inputData.value
  {
    if inputData.None? || inputData.value == {} then Failure(PredictError(400, MissingInputData))
    else if expected - inputData.value != {} then Failure(PredictError(400, MissingColumns(expected - inputData.value)))
    else
      assert forall c :: c in expected ==> c !in expected - inputData.value;
      Success(inputData.value)
  }

  /**
    `/predict`: the model checks, then the feature checks, and only then the
    model is run; the first failing check answers.  `infer` is `None` when
    scaling or prediction raises.
  */
  function Predict(body: Option<PredictBody>, files: set<string>, loadFails: bool, expected: set<string>,
                   infer: Option<Inference>, table: map<string, Metrics>): (r: Result<PredictResponse, PredictError>)
    ensures CheckModel(body, files, loadFails).Failure? ==> r == Failure(CheckModel(body, files, loadFails).error)
    ensures CheckModel(body, files, loadFails).Success? && CheckFeatures(body.value.inputData, expected).Failure? ==>
              r == Failure(CheckFeatures(body.value.inputData, expected).error)
    ensures r.Success? ==> CheckModel(body, files, loadFails).Success? && infer.Some?
                           && body.value.inputData.Some? && expected <= body.value.inputData.value
                           && r.value.modelUsed == CheckModel(body, files, loadFails).value
                           && r.value.result == infer.value.prediction
    ensures CheckModel(body, files, loadFails).Success? && CheckFeatures(body.value.inputData, expected).Success? ==>
              r == if infer.None? then Failure(PredictError(500, InternalError))
                   else Answer(CheckModel(body, files, loadFails).value, infer.value, table)
  {
    match CheckModel(body, files, loadFails)
    case Failure(e) => Failure(e)
    case Success(name) =>
      match CheckFeatures(body.value.inputData, expected)
      case Failure(e) => Failure(e)
      case Success(_) =>
        if infer.None? then Failure(PredictError(500, InternalError))
        else Answer(name, infer.value, table)
  }

  /** `{"model": null}` passes the key test, and `None.strip()` then raises: a 500, not a 400. */
  lemma NullModelIsServerError(inputData: Option<set<string>>, files: set<string>, loadFails: bool)
    ensures CheckModel(Some(PredictBody(Some(OtherField), inputData)), files, loadFails)
            == Failure(PredictError(500, InternalError))
  {
  }

  /** A request naming a model whose file loads, with every expected column, reaches the model. */
  lemma WellFormedRequestReachesModel(name: string, columns: set<string>, expected: set<string>,
                                      files: set<string>, inf: Inference, table: map<string, Metrics>)
    requires name in ModelKeys && name in files && Text.NoSpace(Text.PySpace, name)
    requires columns != {} && expected <= columns
    requires inf.proba.Some? && |inf.proba.value| == 2 && 0 <= inf.prediction <= 1
    ensures Predict(Some(PredictBody(Some(StringField(name)), Some(columns))), files, false,
                    expected, Some(inf), table).Success?
  {
    Text.TrimOfTrimmed(Text.PySpace, name);
    assert CheckName(StringField(name)) == Success(name);
    var body := Some(PredictBody(Some(StringField(name)), Some(columns)));
    assert CheckModel(body, files, false) == Success(name);
    assert CheckFeatures(Some(columns), expected) == Success(columns);
  }

  /** `/model-metrics/<name>`: 404 exactly when the mapped key has no entry. */
  function ModelMetrics(name: string, table: map<string, Metrics>): (r: Result<Metrics, nat>)
    ensures r.Failure? <==> MetricKey(name) !in table
    ensures r.Failure? ==> r.error == 404
    ensures r.Success? ==> r.value == table[MetricKey(name)]
  {
    if MetricKey(name) !in table then Failure(404) else Success(table[MetricKey(name)])
  }

  /** With the fallback table the default model has no metrics, so asking for them is a 404. */
  lemma FallbackLacksEnsembleMetrics()
    ensures ModelMetrics("voting_ensemble", FallbackMetrics) == Failure(404)
  {
  }

  datatype ModelEntry = ModelEntry(key: string, name: string, path: string, metrics: Metrics, available: bool)

  function EntryFor(key: string, files: set<string>, table: map<string, Metrics>): ModelEntry {
    if key in files then ModelEntry(key, DisplayName(key), ModelPath(key), MetricsFor(table, key), true)
    else ModelEntry(key, DisplayName(key), ModelPath(key), NoMetrics, false)
  }

  function CountAvailable(es: seq<ModelEntry>): (n: nat)
    ensures n <= |es|
  {
    if es == [] then 0 else (if es[0].available then 1 else 0) + CountAvailable(es[1..])
  }

  /** No key occurs twice. */
  predicate Distinct(keys: seq<string>) {
    forall i, j :: 0 <= i < j < |keys| ==> keys[i] != keys[j]
  }

  /** The model table names seven different models. */
  lemma ModelKeysDistinct()
    ensures Distinct(ModelKeys)
  {
  }

  /** One listing entry per key, in order. */
  function Entries(keys: seq<string>, files: set<string>, table: map<string, Metrics>): (es: seq<ModelEntry>)
    ensures |es| == |keys|
    ensures forall i :: 0 <= i < |keys| ==> es[i] == EntryFor(keys[i], files, table)
  {
    if keys == [] then [] else [EntryFor(keys[0], files, table)] + Entries(keys[1..], files, table)
  }

  datatype ModelsListing = ModelsListing(models: seq<ModelEntry>, total: nat, availableCount: nat)

  /** `/models`: every table key in order, available iff its file exists, and the count of available ones. */
  function ListModels(files: set<string>, table: map<string, Metrics>): (r: ModelsListing)
    ensures |r.models| == |ModelKeys| == r.total
    ensures forall i :: 0 <= i < |ModelKeys| ==> r.models[i].key == ModelKeys[i]
    ensures forall i :: 0 <= i < |ModelKeys| ==> (r.models[i].available <==> ModelKeys[i] in files)
    ensures forall i :: 0 <= i < |ModelKeys| && !r.models[i].available ==> r.models[i].metrics == NoMetrics
    ensures r.availableCount == CountAvailable(r.models)
  {
    var models := Entries(ModelKeys, files, table);
    ModelsListing(models, |models|, CountAvailable(models))
  }

  /** Over distinct keys, the available count is the number of keys whose file exists. */
  lemma {:induction false} CountAvailableIsFiles(keys: seq<string>, files: set<string>, table: map<string, Metrics>)
    requires Distinct(keys)
    ensures CountAvailable(Entries(keys, files, table)) == |(set k | k in keys) * files|
  {
    if keys != [] {
      var rest := keys[1..];
      assert Distinct(rest) by {
        forall i, j | 0 <= i < j < |rest| ensures rest[i] != rest[j] {
          assert rest[i] == keys[i + 1] && rest[j] == keys[j + 1];
        }
      }
      CountAvailableIsFiles(rest, files, table);
      var es := Entries(keys, files, table);
      assert es[1..] == Entries(rest, files, table);
      assert es[0].available <==> keys[0] in files;
      KeySetCons(keys);
      assert keys[0] !in (set k | k in rest) by {
        forall i | 0 <= i < |rest| ensures rest[i] != keys[0] {
          assert rest[i] == keys[i + 1];
        }
      }
      CountConsIntersection(keys[0], (set k | k in rest), files);
    }
  }

  /** The keys of a nonempty list are its head and the keys of its tail. */
  lemma KeySetCons(keys: seq<string>)
    requires keys != []
    ensures (set k | k in keys) == {keys[0]} + (set k | k in keys[1..])
  {
    assert keys == [keys[0]] + keys[1..];
  }

  /** Adding a new element to a set adds one to its intersection with `files` exactly when it is in `files`. */
  lemma CountConsIntersection(x: string, tail: set<string>, files: set<string>)
    requires x !in tail
    ensures |({x} + tail) * files| == (if x in files then 1 else 0) + |tail * files|
  {
    if x in files {
      assert ({x} + tail) * files == {x} + tail * files;
    } else {
      assert ({x} + tail) * files == tail * files;
    }
  }

  /** `available_count` is the number of table models whose file exists. */
  lemma AvailableCountIsFiles(files: set<string>, table: map<string, Metrics>)
    ensures ListModels(files, table).availableCount == |(set k | k in ModelKeys) * files|
  {
    ModelKeysDistinct();
    CountAvailableIsFiles(ModelKeys, files, table);
  }

  datatype ComparisonEntry = ComparisonEntry(key: string, name: string, metrics: Metrics, kind: string)

  /** `"Ensemble"` when the key mentions ensemble or stacking. */
  function KindOf(key: string): string {
    if Text.Contains(key, "ensemble") || Text.Contains(key, "stacking") then "Ensemble" else "Individual"
  }

  /** The sort key: accuracy, 0 when missing. */
  function AccuracyOf(e: ComparisonEntry): real {
    e.metrics.accuracy.GetOr(0.0)
  }

  function NegAccuracy(e: ComparisonEntry): real {
    -AccuracyOf(e)
  }

  /** The keys of a list of entries, in order. */
  function KeyList(es: seq<ComparisonEntry>): (ks: seq<string>)
    ensures |ks| == |es|
    ensures forall i :: 0 <= i < |es| ==> ks[i] == es[i].key
  {
    if es == [] then [] else [es[0].key] + KeyList(es[1..])
  }

  /** The entries of the models whose file exists, in table order. */
  function Existing(keys: seq<string>, files: set<string>, table: map<string, Metrics>): (es: seq<ComparisonEntry>)
    ensures |es| <= |keys|
    ensures forall e :: e in es ==> e.key in files && e.key in keys
    ensures forall k :: k in keys && k in files ==> k in KeyList(es)
  {
    if keys == [] then []
    else
      var rest := Existing(keys[1..], files, table);
      if keys[0] in files then
        var es := [ComparisonEntry(keys[0], DisplayName(keys[0]), MetricsFor(table, keys[0]), KindOf(keys[0]))] + rest;
        assert es[1..] == rest;
        es
      else rest
  }

  datatype Comparison = Comparison(ranking: seq<ComparisonEntry>, best: Option<string>, total: nat)

  /**
    The ranking: the entries sorted by accuracy from highest to lowest (a
    stable sort, missing accuracy counting as 0); the best model is the first
    one, or none when there are no entries.
  */
  function Rank(es: seq<ComparisonEntry>): (r: Comparison)
    ensures multiset(r.ranking) == multiset(es)
    ensures r.total == |r.ranking| == |es|
    ensures forall i, j :: 0 <= i < j < |r.ranking| ==> AccuracyOf(r.ranking[i]) >= AccuracyOf(r.ranking[j])
    ensures r.best.None? <==> es == []
    ensures r.best.Some? ==> r.ranking != [] && r.best.value == r.ranking[0].key
    ensures r.best.Some? ==> forall j :: 0 <= j < |r.ranking| ==> AccuracyOf(r.ranking[j]) <= AccuracyOf(r.ranking[0])
  {
    var ranking := Sorting.SortBy(es, NegAccuracy);
    assert forall i, j :: 0 <= i < j < |ranking| ==> NegAccuracy(ranking[i]) <= NegAccuracy(ranking[j]);
    if ranking != [] then
      Comparison(ranking, Some(ranking[0].key), |ranking|)
    else
      Comparison(ranking, None, 0)
  }

  /** A permutation keeps the entries and their keys. */
  lemma SameEntries(a: seq<ComparisonEntry>, b: seq<ComparisonEntry>)
    requires multiset(a) == multiset(b)
    ensures forall i :: 0 <= i < |b| ==> b[i] in a
    ensures forall k :: k in KeyList(a) ==> k in KeyList(b)
  {
    forall i | 0 <= i < |b| ensures b[i] in a {
      assert b[i] in multiset(a);
    }
    forall k | k in KeyList(a) ensures k in KeyList(b) {
      var j :| 0 <= j < |a| && KeyList(a)[j] == k;
      assert a[j] in multiset(b);
      var m :| 0 <= m < |b| && b[m] == a[j];
      assert KeyList(b)[m] == k;
    }
  }

  /** The models of `keys` whose file exists, ranked. */
  function CompareKeys(keys: seq<string>, files: set<string>, table: map<string, Metrics>): (r: Comparison)
    ensures forall i :: 0 <= i < |r.ranking| ==> r.ranking[i].key in files && r.ranking[i].key in keys
    ensures forall k :: k in keys && k in files ==> k in KeyList(r.ranking)
    ensures forall i, j :: 0 <= i < j < |r.ranking| ==> AccuracyOf(r.ranking[i]) >= AccuracyOf(r.ranking[j])
    ensures r.best.None? <==> r.ranking == []
    ensures r.best.Some? ==> r.best.value == r.ranking[0].key && r.best.value in files
  {
    var es := Existing(keys, files, table);
    var r := Rank(es);
    SameEntries(es, r.ranking);
    r
  }

  /**
    `/model-comparison`: every model whose file exists and only those, from the
    highest accuracy down; the best model is the first.
  */
  function CompareModels(files: set<string>, table: map<string, Metrics>): (r: Comparison)
    ensures forall i :: 0 <= i < |r.ranking| ==> r.ranking[i].key in files && r.ranking[i].key in ModelKeys
    ensures forall k :: k in ModelKeys && k in files ==> k in KeyList(r.ranking)
    ensures forall i, j :: 0 <= i < j < |r.ranking| ==> AccuracyOf(r.ranking[i]) >= AccuracyOf(r.ranking[j])
    ensures r.best.None? <==> r.ranking == []
    ensures r.best.Some? ==> r.best.value == r.ranking[0].key && r.best.value in files
  {
    CompareKeys(ModelKeys, files, table)
  }
}

=== FILE: patient_history.dfy ===
/**
  The history page of frontend/src/components/PatientHistory.js: diagnoses are
  grouped per patient in order of first appearance, each group and the global
  chart are ordered by time, and deleting an entry updates both views.
*/
module PatientHistory {
  import opened Wrappers
  import Sorting
  import Text

  /** One diagnosis as the list endpoint returns it; times in milliseconds. */
  datatype Entry = Entry(id: string, patientName: Option<string>, patientId: Option<string>,
                         timestamp: Option<nat>, createdAt: Option<nat>, prediction: int, probability: real)

  /** `entry.patientName || entry.patientId || 'Unknown'`: an empty string counts as missing. */
  function GroupName(e: Entry): (name: string)
    ensures name != ""
    ensures e.patientName.Some? && e.patientName.value != "" ==> name == e.patientName.value
  {
    if e.patientName.Some? && e.patientName.value != "" then e.patientName.value
    else if e.patientId.Some? && e.patientId.value != "" then e.patientId.value
    else "Unknown"
  }

  /** `timestamp || createdAt` as a sort key; an entry with neither sorts first. */
  function TimeKey(e: Entry): (k: real)
    ensures k >= 0.0 <==> e.timestamp.Some? || e.createdAt.Some?
    ensures e.timestamp.Some? ==> k == e.timestamp.value as real
  {
    if e.timestamp.Some? then e.timestamp.value as real
    else if e.createdAt.Some? then e.createdAt.value as real
    else -1.0
  }

  function InGroup(name: string): Entry -> bool {
    e => GroupName(e) == name
  }

  /** The entries of `data` that belong to the group `name`, in input order. */
  function Members(data: seq<Entry>, name: string): seq<Entry> {
    Sorting.Filter(data, InGroup(name))
  }

  /** Index of the first entry of group `name`, or `|data|` when there is none. */
  function FirstAt(data: seq<Entry>, name: string): (i: nat)
    ensures i <= |data|
    ensures i < |data| <==> exists j :: 0 <= j < |data| && GroupName(data[j]) == name
    ensures i < |data| ==> GroupName(data[i]) == name
    ensures forall j :: 0 <= j < i ==> GroupName(data[j]) != name
  {
    if data == [] then 0
    else if GroupName(data[0]) == name then 0
    else
      var rest := FirstAt(data[1..], name);
      assert forall j :: 1 <= j < |data| ==> data[j] == data[1..][j - 1];
      1 + rest
  }

  predicate NoDuplicates(xs: seq<string>) {
    forall i, j :: 0 <= i < j < |xs| ==> xs[i] != xs[j]
  }

  /** Groups keyed by name, with the order in which the page lists them. */
  datatype Groups = Groups(order: seq<string>, members: map<string, seq<Entry>>)

  ghost predicate Keyed(g: Groups) {
    NoDuplicates(g.order) && forall k :: k in g.members <==> k in g.order
  }

  /** Sum of the group sizes along `order`. */
  function Total(order: seq<string>, members: map<string, seq<Entry>>): nat
    requires forall k :: k in order ==> k in members
  {
    if order == [] then 0 else |members[order[0]]| + Total(order[1..], members)
  }

  /** Groups of the same sizes along `order` have the same total. */
  lemma {:induction false} TotalSameSizes(order: seq<string>, a: map<string, seq<Entry>>, b: map<string, seq<Entry>>)
    requires forall k :: k in order ==> k in a && k in b && |a[k]| == |b[k]|
    ensures Total(order, a) == Total(order, b)
  {
    if order != [] {
      TotalSameSizes(order[1..], a, b);
    }
  }

  /** Growing one listed group by one entry grows the total by one. */
  lemma {:induction false} TotalBump(order: seq<string>, a: map<string, seq<Entry>>, k: string, e: Entry)
    requires NoDuplicates(order) && k in order
    requires forall x :: x in order ==> x in a
    ensures Total(order, a[k := a[k] + [e]]) == Total(order, a) + 1
  {
    var b := a[k := a[k] + [e]];
    if order[0] == k {
      assert k !in order[1..];
      TotalSameSizes(order[1..], a, b);
    } else {
      TotalBump(order[1..], a, k, e);
    }
  }

  /** Appending a key to the order adds its group's size. */
  lemma {:induction false} TotalAppend(order: seq<string>, a: map<string, seq<Entry>>, k: string)
    requires forall x :: x in order ==> x in a
    requires k in a
    ensures Total(order + [k], a) == Total(order, a) + |a[k]|
  {
    if order != [] {
      assert (order + [k])[1..] == order[1..] + [k];
      TotalAppend(order[1..], a, k);
    }
  }

  /** Some entry of `data` belongs to group `name`. */
  ghost predicate Occurs(data: seq<Entry>, name: string) {
    exists i :: 0 <= i < |data| && GroupName(data[i]) == name
  }

  /** The listed names are exactly the names of the entries. */
  ghost predicate ListsNames(g: Groups, data: seq<Entry>) {
    Keyed(g) && forall k :: k in g.order <==> Occurs(data, k)
  }

  /** Every group holds exactly the entries of its name, in input order. */
  ghost predicate HoldsMembers(g: Groups, data: seq<Entry>) {
    forall k :: k in g.members ==> g.members[k] == Members(data, k) && g.members[k] != []
  }

  /** Names are listed in order of first appearance. */
  ghost predicate FirstAppearanceOrder(g: Groups, data: seq<Entry>) {
    InFirstAppearanceOrder(g.order, data)
  }

  ghost predicate InFirstAppearanceOrder(order: seq<string>, data: seq<Entry>) {
    forall i, j :: 0 <= i < j < |order| ==> FirstAt(data, order[i]) < FirstAt(data, order[j])
  }

  /** One step of the grouping loop: the entry joins its group, a new name is listed last. */
  function AddEntry(g: Groups, e: Entry): Groups
    requires Keyed(g)
  {
    var k := GroupName(e);
    if k in g.order then Groups(g.order, g.members[k := g.members[k] + [e]])
    else Groups(g.order + [k], g.members[k := [e]])
  }

  lemma AddEntryListsNames(g: Groups, prefix: seq<Entry>, e: Entry)
    requires ListsNames(g, prefix)
    ensures ListsNames(AddEntry(g, e), prefix + [e])
  {
    var data := prefix + [e];
    forall k ensures Occurs(data, k) <==> Occurs(prefix, k) || GroupName(e) == k {
      if Occurs(prefix, k) {
        var i :| 0 <= i < |prefix| && GroupName(prefix[i]) == k;
        assert data[i] == prefix[i];
      }
      if Occurs(data, k) && GroupName(e) != k {
        var i :| 0 <= i < |data| && GroupName(data[i]) == k;
        assert data[i] == prefix[i];
      }
      if GroupName(e) == k {
        assert data[|prefix|] == e;
      }
    }
  }

  /** A name no entry has has no members. */
  lemma {:induction false} NoMembersIfAbsent(data: seq<Entry>, name: string)
    requires !Occurs(data, name)
    ensures Members(data, name) == []
  {
    if data != [] {
      assert GroupName(data[0]) != name;
      assert !Occurs(data[1..], name) by {
        forall i | 0 <= i < |data[1..]| ensures GroupName(data[1..][i]) != name {
          assert data[1..][i] == data[i + 1];
        }
      }
      NoMembersIfAbsent(data[1..], name);
    }
  }

  lemma AddEntryHoldsMembers(g: Groups, prefix: seq<Entry>, e: Entry)
    requires ListsNames(g, prefix) && HoldsMembers(g, prefix)
    ensures HoldsMembers(AddEntry(g, e), prefix + [e])
  {
    var k := GroupName(e);
    if k !in g.order {
      NoMembersIfAbsent(prefix, k);
    }
    forall x ensures Members(prefix + [e], x) == Members(prefix, x) + (if x == k then [e] else []) {
      Sorting.FilterAppend(prefix, e, InGroup(x));
    }
  }

  lemma AddEntryKeepsOrder(g: Groups, prefix: seq<Entry>, e: Entry)
    requires ListsNames(g, prefix) && FirstAppearanceOrder(g, prefix)
    ensures FirstAppearanceOrder(AddEntry(g, e), prefix + [e])
  {
    var data := prefix + [e];
    var k := GroupName(e);
    assert forall x :: x in g.order ==> FirstAt(data, x) == FirstAt(prefix, x) < |prefix| by {
      forall x | x in g.order ensures FirstAt(data, x) == FirstAt(prefix, x) < |prefix| {
        assert Occurs(prefix, x);
        FirstAtAppend(prefix, e, x);
      }
    }
    if k in g.order {
      KnownNameKeepsOrder(g.order, prefix, data);
    } else {
      FirstAtAppend(prefix, e, k);
      NewNameKeepsOrder(g.order, k, prefix, data);
    }
  }

  /** Positions that do not move keep the order. */
  lemma KnownNameKeepsOrder(order: seq<string>, prefix: seq<Entry>, data: seq<Entry>)
    requires InFirstAppearanceOrder(order, prefix)
    requires forall x :: x in order ==> FirstAt(data, x) == FirstAt(prefix, x)
    ensures InFirstAppearanceOrder(order, data)
  {
    forall i, j | 0 <= i < j < |order| ensures FirstAt(data, order[i]) < FirstAt(data, order[j]) {
      assert order[i] in order && order[j] in order;
    }
  }

  /** A name first seen after every listed name may be listed last. */
  lemma NewNameKeepsOrder(order: seq<string>, k: string, prefix: seq<Entry>, data: seq<Entry>)
    requires InFirstAppearanceOrder(order, prefix)
    requires forall x :: x in order ==> FirstAt(data, x) == FirstAt(prefix, x) < |prefix|
    requires FirstAt(data, k) == |prefix|
    ensures InFirstAppearanceOrder(order + [k], data)
  {
    var o := order + [k];
    forall i, j | 0 <= i < j < |o| ensures FirstAt(data, o[i]) < FirstAt(data, o[j]) {
      assert o[i] == order[i] && order[i] in order;
      if j < |order| {
        assert o[j] == order[j] && order[j] in order;
      }
    }
  }

  lemma AddEntryTotal(g: Groups, e: Entry)
    requires Keyed(g) && Keyed(AddEntry(g, e))
    ensures Total(AddEntry(g, e).order, AddEntry(g, e).members) == Total(g.order, g.members) + 1
  {
    var k := GroupName(e);
    if k in g.order {
      TotalBump(g.order, g.members, k, e);
    } else {
      var members := g.members[k := [e]];
      TotalSameSizes(g.order, g.members, members);
      TotalAppend(g.order, members, k);
    }
  }

  /** `g` groups `data`: the four properties above and the size total. */
  ghost predicate GroupedFrom(g: Groups, data: seq<Entry>) {
    ListsNames(g, data) && HoldsMembers(g, data) && FirstAppearanceOrder(g, data)
    && Total(g.order, g.members) == |data|
  }

  lemma StepGrouped(g: Groups, prefix: seq<Entry>, e: Entry, data: seq<Entry>)
    requires Keyed(g) && data == prefix + [e] && |data| == |prefix| + 1
    requires ListsNames(AddEntry(g, e), prefix + [e]) && HoldsMembers(AddEntry(g, e), prefix + [e])
    requires FirstAppearanceOrder(AddEntry(g, e), prefix + [e])
    requires Total(AddEntry(g, e).order, AddEntry(g, e).members) == |prefix| + 1
    ensures GroupedFrom(AddEntry(g, e), data)
  {
  }

  /** One step of the loop keeps the grouping faithful to the entries seen so far. */
  lemma AddEntryGrouped(g: Groups, prefix: seq<Entry>, e: Entry)
    requires GroupedFrom(g, prefix)
    ensures Keyed(AddEntry(g, e)) && GroupedFrom(AddEntry(g, e), prefix + [e])
  {
    var data := prefix + [e];
    AddEntryListsNames(g, prefix, e);
    AddEntryHoldsMembers(g, prefix, e);
    AddEntryKeepsOrder(g, prefix, e);
    AddEntryTotal(g, e);
    StepGrouped(g, prefix, e, data);
  }

  lemma SplitLast<T>(xs: seq<T>)
    requires xs != []
    ensures xs == xs[..|xs| - 1] + [xs[|xs| - 1]]
  {
  }

  /**
    Some entry's name is one a plain object already inherits: `grouped[name]`
    is then a truthy inherited member, so the loop skips the initialisation and
    `.push` throws a TypeError.
  */
  predicate GroupingThrows(data: seq<Entry>) {
    exists i :: 0 <= i < |data| && GroupName(data[i]) in Text.InheritedNames
  }

  /** One more entry makes the loop throw exactly when its own name is inherited. */
  lemma ThrowsSnoc(prefix: seq<Entry>, e: Entry)
    ensures GroupingThrows(prefix + [e]) <==> GroupingThrows(prefix) || GroupName(e) in Text.InheritedNames
  {
    var data := prefix + [e];
    assert forall i :: 0 <= i < |prefix| ==> data[i] == prefix[i];
    assert data[|prefix|] == e;
  }

  /**
    The grouping loop over the entries.  It throws when some name is an
    inherited member of a plain object; otherwise every group holds exactly the
    entries of that name in input order, names are listed in order of first
    appearance, and the group sizes add up to the number of entries.
  */
  function GroupEntries(data: seq<Entry>): (r: Option<Groups>)
    ensures r.None? <==> GroupingThrows(data)
    ensures r.Some? ==> GroupedFrom(r.value, data)
    decreases |data|
  {
    if data == [] then Some(Groups([], map[]))
    else
      var prefix, e := data[..|data| - 1], data[|data| - 1];
      SplitLast(data);
      ThrowsSnoc(prefix, e);
      match GroupEntries(prefix)
      case None => None
      case Some(g) =>
        if GroupName(e) in Text.InheritedNames then None
        else
          AddEntryGrouped(g, prefix, e);
          Some(AddEntry(g, e))
  }

  /** Appending an entry leaves the first index of a name already present unchanged, and puts a new one last. */
  lemma {:induction false} FirstAtAppend(data: seq<Entry>, e: Entry, name: string)
    ensures FirstAt(data + [e], name) == if FirstAt(data, name) < |data| || GroupName(e) == name then FirstAt(data, name) else |data| + 1
  {
    if data != [] {
      assert (data + [e])[1..] == data[1..] + [e];
      FirstAtAppend(data[1..], e, name);
    }
  }

  /** Each group ordered by time; `Array.prototype.sort` is stable. */
  function SortGroups(g: Groups): (s: Groups)
    requires Keyed(g)
    ensures Keyed(s) && s.order == g.order
    ensures forall k :: k in s.members ==> multiset(s.members[k]) == multiset(g.members[k])
    ensures forall k :: k in s.members ==> Sorting.SortedBy(s.members[k], TimeKey)
    ensures Total(s.order, s.members) == Total(g.order, g.members)
  {
    var members := map k | k in g.members :: Sorting.SortBy(g.members[k], TimeKey);
    TotalSameSizes(g.order, g.members, members);
    Groups(g.order, members)
  }

  /** A point of the global chart. */
  datatype ChartPoint = ChartPoint(id: string, time: real, percent: real, patientName: Option<string>, riskLabel: string)

  /** The point for one entry: "At Risk" exactly for prediction 1. */
  function PointOf(e: Entry): (p: ChartPoint)
    ensures p.id == e.id && p.time == TimeKey(e) && p.percent == e.probability * 100.0
    ensures p.riskLabel == "At Risk" <==> e.prediction == 1
    ensures p.riskLabel == "Not at Risk" <==> e.prediction != 1
  {
    ChartPoint(e.id, TimeKey(e), e.probability * 100.0, e.patientName,
               if e.prediction == 1 then "At Risk" else "Not at Risk")
  }

  function Points(xs: seq<Entry>): (c: seq<ChartPoint>)
    ensures |c| == |xs| && forall i :: 0 <= i < |xs| ==> c[i] == PointOf(xs[i])
  {
    seq(|xs|, i requires 0 <= i < |xs| => PointOf(xs[i]))
  }

  /** The points of a permutation are the points of the original entries. */
  lemma PermutedPoints(a: seq<Entry>, b: seq<Entry>)
    requires multiset(a) == multiset(b)
    ensures forall j :: 0 <= j < |b| ==> PointOf(b[j]) in Points(a)
    ensures forall i :: 0 <= i < |a| ==> exists j :: 0 <= j < |b| && Points(a)[i] == PointOf(b[j])
  {
    var c := Points(a);
    forall j | 0 <= j < |b| ensures PointOf(b[j]) in c {
      assert b[j] in multiset(a);
      var i :| 0 <= i < |a| && a[i] == b[j];
      assert c[i] == PointOf(b[j]);
    }
    forall i | 0 <= i < |a| ensures exists j :: 0 <= j < |b| && c[i] == PointOf(b[j]) {
      assert a[i] in multiset(b);
      var j :| 0 <= j < |b| && b[j] == a[i];
    }
  }

  /** Mapping entries to points distributes over concatenation. */
  lemma PointsAppend(a: seq<Entry>, b: seq<Entry>)
    ensures Points(a + b) == Points(a) + Points(b)
  {
  }

  /** A permutation of the entries gives a permutation of their points. */
  lemma {:induction false} PermutedPointsMultiset(a: seq<Entry>, b: seq<Entry>)
    requires multiset(a) == multiset(b)
    ensures multiset(Points(a)) == multiset(Points(b))
    decreases |a|
  {
    if a != [] {
      var x := a[0];
      assert x in multiset(b);
      var j :| 0 <= j < |b| && b[j] == x;
      var rest := b[..j] + b[j + 1..];
      assert b == b[..j] + [x] + b[j + 1..];
      assert a == [x] + a[1..];
      assert multiset(b) == multiset(b[..j]) + multiset{x} + multiset(b[j + 1..]);
      assert multiset(a) == multiset{x} + multiset(a[1..]);
      assert multiset(rest) == multiset(b[..j]) + multiset(b[j + 1..]);
      assert multiset(a[1..]) == multiset(a) - multiset{x};
      assert multiset(rest) == multiset(b) - multiset{x};
      PermutedPointsMultiset(a[1..], rest);
      PointsAppend([x], a[1..]);
      PointsAppend(b[..j] + [x], b[j + 1..]);
      PointsAppend(b[..j], [x]);
      PointsAppend(b[..j], b[j + 1..]);
    }
  }

  /** The global chart: one point per entry, in time order. */
  function Chart(data: seq<Entry>): (c: seq<ChartPoint>)
    ensures |c| == |data|
    ensures forall i, j :: 0 <= i < j < |c| ==> c[i].time <= c[j].time
    ensures multiset(c) == multiset(Points(data))
    ensures forall j :: 0 <= j < |data| ==> PointOf(data[j]) in c
    ensures forall i :: 0 <= i < |c| ==> exists j :: 0 <= j < |data| && c[i] == PointOf(data[j])
  {
    var sorted := Sorting.SortBy(data, TimeKey);
    PermutedPoints(sorted, data);
    PermutedPointsMultiset(sorted, data);
    Points(sorted)
  }

  /** The page state: the groups and the chart. */
  datatype Page = Page(groups: Groups, chart: seq<ChartPoint>)

  /** The trend chart is drawn only with more than one point. */
  predicate ShowsTrend(p: Page) {
    |p.chart| > 1
  }

  /** The list request: an array of entries, some other JSON value, or a failure. */
  datatype ListResponse = EntryArray(entries: seq<Entry>) | NotAnArray | ListFailed

  const Initial: Page := Page(Groups([], map[]), [])

  /**
    Loading the page: grouped, time-ordered views of an array answer.  Any other
    answer, a failed request, or a grouping loop that throws leaves the empty
    initial state, since the exception is caught before either view is set.
  */
  function Load(response: ListResponse): (p: Page)
    ensures Keyed(p.groups)
    ensures !response.EntryArray? ==> p == Initial
    ensures response.EntryArray? && GroupingThrows(response.entries) ==> p == Initial
    ensures response.EntryArray? && !GroupingThrows(response.entries) ==>
              Total(p.groups.order, p.groups.members) == |response.entries| == |p.chart|
              && multiset(p.chart) == multiset(Points(response.entries))
    ensures response.EntryArray? && !GroupingThrows(response.entries) ==>
              (forall k :: k in p.groups.order <==> Occurs(response.entries, k))
              && forall k :: k in p.groups.members ==>
                   multiset(p.groups.members[k]) == multiset(Members(response.entries, k)) && p.groups.members[k] != []
  {
    match response
    case EntryArray(data) =>
      (match GroupEntries(data)
       case None => Initial
       case Some(g) => Page(SortGroups(g), Chart(data)))
    case _ => Initial
  }

  /** A patient named like an inherited object member makes the whole page come up empty. */
  lemma InheritedNameEmptiesPage(data: seq<Entry>, e: Entry)
    requires e.patientName == Some("constructor")
    ensures Load(EntryArray(data + [e])) == Initial
  {
    assert (data + [e])[|data|] == e;
  }

  /** A single diagnosis gives no trend chart. */
  lemma SingleEntryNoTrend(e: Entry)
    ensures !ShowsTrend(Load(EntryArray([e])))
  {
  }

  function KeepEntry(id: string): Entry -> bool {
    (e: Entry) => e.id != id
  }

  function KeepPoint(id: string): ChartPoint -> bool {
    (p: ChartPoint) => p.id != id
  }

  function KeepName(name: string): string -> bool {
    k => k != name
  }

  lemma {:induction false} FilterKeepsDistinct(xs: seq<string>, name: string)
    requires NoDuplicates(xs)
    ensures NoDuplicates(Sorting.Filter(xs, KeepName(name)))
    ensures forall k :: k in Sorting.Filter(xs, KeepName(name)) <==> k in xs && k != name
  {
    if xs != [] {
      FilterKeepsDistinct(xs[1..], name);
    }
  }

  /**
    `handleDelete(id, name)`, for a group the page lists: that group loses the
    entries with the id and disappears when nothing is left, the chart loses
    the points with the id, and everything else stays.  A failed request
    leaves the page as it was; the server's answer is not inspected.
  */
  function Delete(p: Page, id: string, name: string, requestFails: bool): (q: Page)
    requires Keyed(p.groups) && name in p.groups.members
    ensures Keyed(q.groups)
    ensures requestFails ==> q == p
    ensures !requestFails ==> forall k :: k in p.groups.members && k != name ==>
              k in q.groups.members && q.groups.members[k] == p.groups.members[k]
    ensures !requestFails ==> (name in q.groups.members <==> exists e :: e in p.groups.members[name] && e.id != id)
    ensures !requestFails && name in q.groups.members ==>
              forall e :: e in q.groups.members[name] <==> e in p.groups.members[name] && e.id != id
    ensures !requestFails ==> forall c :: c in q.chart <==> c in p.chart && c.id != id
    ensures forall k :: k in q.groups.members ==> k in p.groups.members
  {
    if requestFails then p
    else
      var kept := Sorting.Filter(p.groups.members[name], KeepEntry(id));
      var chart := Sorting.Filter(p.chart, KeepPoint(id));
      if kept == [] then
        FilterKeepsDistinct(p.groups.order, name);
        var order := Sorting.Filter(p.groups.order, KeepName(name));
        var members := map k | k in p.groups.members && k != name :: p.groups.members[k];
        Page(Groups(order, members), chart)
      else
        assert kept[0] in p.groups.members[name];
        Page(Groups(p.groups.order, p.groups.members[name := kept]), chart)
  }
}

=== FILE: prediction.dfy ===
/**
  `predictDiagnosis` and `batchPredict` of
  backend/controllers/diagnosisController.js: build the feature vector, call
  the ML service (an oracle here), classify its failures, and store the
  resulting diagnosis; for a batch, call once per patient and account for
  every index.
*/
module Prediction {
  import opened Wrappers
  import Text
  import Features
  import opened DiagnosisModel

  const DefaultModel: string := "voting_ensemble"

  /** The request's `selectedModel`: absent, present but `null`, or a string. */
  datatype ModelChoice = Unset | NullChoice | Chosen(name: string)

  /**
    `selectedModel = 'voting_ensemble'`: a destructuring default applies only
    when the field is undefined, so a `null` is passed on as `null` (`None`).
  */
  function SelectedModel(m: ModelChoice): (r: Option<string>)
    ensures r.None? <==> m.NullChoice?
    ensures m.Unset? ==> r == Some(DefaultModel)
    ensures m.Chosen? ==> r == Some(m.name)
  {
    match m
    case Unset => Some(DefaultModel)
    case NullChoice => None
    case Chosen(name) => Some(name)
  }

  /** The `inputData` the backend sends: the raw vitals plus the derived features. */
  datatype MappedFeatures = MappedFeatures(
    ageYears: int, gender: int, height: int, weight: int, bmi: Features.Num,
    apHi: int, apLo: int, pulsePressure: int, bpCategory: int,
    cholesterol: int, gluc: int, smoke: int, alco: int, active: int,
    ageGroup: int, lifestyleRisk: int, metabolicRisk: int, bmiCategory: int,
    meanArterialPressure: real, riskScore: int)

  /** The mapping of lines 255-290; `age_years` is the submitted age, passed on unconverted. */
  function MapFeatures(p: PatientData): (f: MappedFeatures)
    ensures f.ageYears == p.age && f.apHi == p.apHi && f.apLo == p.apLo
    ensures f.pulsePressure + f.apLo == f.apHi
    ensures 1 <= f.bpCategory <= 5 && 1 <= f.ageGroup <= 4 && 1 <= f.bmiCategory <= 4
    ensures 0 <= f.lifestyleRisk <= 4 && 0 <= f.metabolicRisk <= 3 && 0 <= f.riskScore <= 10
    ensures p.apLo <= p.apHi ==> p.apLo as real <= f.meanArterialPressure <= p.apHi as real
  {
    var bmi := Features.Bmi(p.height, p.weight);
    MappedFeatures(
      p.age, p.gender, p.height, p.weight, bmi,
      p.apHi, p.apLo, Features.PulsePressure(p.apHi, p.apLo), Features.BpCategory(p.apHi, p.apLo),
      p.cholesterol, p.gluc, p.smoke, p.alco, p.active,
      Features.AgeGroup(p.age), Features.LifestyleRisk(p.smoke, p.alco, p.active),
      Features.MetabolicRisk(p.cholesterol, p.gluc, bmi), Features.BmiCategory(bmi),
      Features.MeanArterialPressure(p.apHi, p.apLo),
      Features.RiskScore(p.age, bmi, p.apHi, p.apLo, p.cholesterol, p.gluc, p.smoke, p.alco, p.active))
  }

  /** The request sent to the ML service's `/predict`; a `None` model is sent as `null`. */
  datatype MlPayload = MlPayload(model: Option<string>, inputData: MappedFeatures)

  /** The fields of the ML service's answer the backend reads; any may be missing. */
  datatype MlResult = MlResult(
    result: Option<int>, riskLevel: Option<string>, probability: Option<real>,
    confidence: Option<real>, probabilities: Option<RiskProbabilities>, displayName: Option<string>)

  /**
    How a call to the ML service ends: an answer, an error response (status 0
    when absent), a refused connection, or any other thrown error.
  */
  datatype MlOutcome =
    | MlOk(body: MlResult)
    | MlHttpError(status: nat, detail: Option<string>, message: string)
    | ConnectionRefused(message: string)
    | OtherError(message: string)

  /** `error.response.status || 500`, 503 for ECONNREFUSED, 500 otherwise. */
  function ErrorStatus(o: MlOutcome): (s: nat)
    requires !o.MlOk?
    ensures o.MlHttpError? && o.status != 0 ==> s == o.status
    ensures o.MlHttpError? && o.status == 0 ==> s == 500
    ensures o.ConnectionRefused? <==> s == 503 && !o.MlHttpError?
    ensures o.OtherError? ==> s == 500
  {
    match o
    case MlHttpError(status, _, _) => if status != 0 then status else 500
    case ConnectionRefused(_) => 503
    case OtherError(_) => 500
  }

  /** The client-supplied request body. */
  datatype PredictRequest = PredictRequest(
    patientData: Option<PatientData>, selectedModel: ModelChoice,
    patientId: Option<string>, patientName: Option<string>)

  function NonEmpty(s: Option<string>): bool { s.Some? && s.value != "" }

  /** `req.body.patientId || \`patient_${Date.now()}\``. */
  function PatientIdOf(req: PredictRequest, now: nat): (id: string)
    ensures id != ""
  {
    if NonEmpty(req.patientId) then req.patientId.value else "patient_" + Text.NatToString(now)
  }

  /** `req.body.patientName || req.body.patientId || \`Patient_${Date.now()}\``. */
  function PatientNameOf(req: PredictRequest, now: nat): (name: string)
    ensures name != ""
    ensures !NonEmpty(req.patientName) && NonEmpty(req.patientId) ==> name == PatientIdOf(req, now)
    ensures !NonEmpty(req.patientName) && !NonEmpty(req.patientId) ==> name != PatientIdOf(req, now)
  {
    if NonEmpty(req.patientName) then req.patientName.value
    else if NonEmpty(req.patientId) then req.patientId.value
    else
      var name := "Patient_" + Text.NatToString(now);
      assert name[0] != PatientIdOf(req, now)[0];
      name
  }

  /** The record handed to `new Diagnosis(...)`. */
  function DraftOf(req: PredictRequest, model: Option<string>, body: MlResult, now: nat): Draft
    requires req.patientData.Some?
  {
    Draft(Some(PatientNameOf(req, now)), Some(PatientIdOf(req, now)), req.patientData,
          body.result, body.probability, body.probabilities, body.confidence, model,
          body.displayName, body.riskLevel, Some(now))
  }

  /** The stored record carries the trimmed patient id, the generated id and the request time. */
  predicate SavedAs(d: Diagnosis, patientId: string, id: string, now: nat) {
    d.patientId == Text.Trim(Text.JsSpace, patientId) && d.timestamp == now && d.id == id
  }

  datatype PredictOutcome = PredictOutcome(status: nat, sent: Option<MlPayload>, store: seq<Diagnosis>, saved: Option<Diagnosis>)

  /**
    `predictDiagnosis`: without patient data, 400 and no ML call; otherwise one
    call with the chosen model and the mapped features.  An ML failure is
    classified by `ErrorStatus`; a result the schema rejects, or a failed
    write, is a 500; only a 200 adds a record.
  */
  function PredictDiagnosis(req: PredictRequest, ml: MlPayload -> MlOutcome, store: seq<Diagnosis>,
                            saveFails: bool, newId: string, now: nat): (r: PredictOutcome)
    ensures req.patientData.None? <==> r.status == 400 && r.sent.None?
    ensures req.patientData.Some? ==>
              r.sent == Some(MlPayload(SelectedModel(req.selectedModel), MapFeatures(req.patientData.value)))
    ensures r.sent.Some? && !ml(r.sent.value).MlOk? ==> r.status == ErrorStatus(ml(r.sent.value))
    ensures r.saved.Some? <==> r.sent.Some? && ml(r.sent.value).MlOk? && !saveFails
                               && Validate(DraftOf(req, r.sent.value.model, ml(r.sent.value).body, now), newId, now).Success?
    ensures r.saved.None? ==> r.store == store
    ensures r.saved.None? && r.sent.Some? && ml(r.sent.value).MlOk? ==> r.status == 500
    ensures r.saved.Some? ==> r.status == 200 && r.store == store + [r.saved.value]
    ensures r.saved.Some? ==> WellFormed(r.saved.value) && SelectedModel(req.selectedModel) == Some(r.saved.value.model)
    ensures r.saved.Some? ==> SavedAs(r.saved.value, PatientIdOf(req, now), newId, now)
  {
    if req.patientData.None? then PredictOutcome(400, None, store, None)
    else
      var model := SelectedModel(req.selectedModel);
      var payload := MlPayload(model, MapFeatures(req.patientData.value));
      match ml(payload)
      case MlOk(body) =>
        (match Validate(DraftOf(req, model, body, now), newId, now)
         case Success(d) =>
           if saveFails then PredictOutcome(500, Some(payload), store, None)
           else PredictOutcome(200, Some(payload), store + [d], Some(d))
         case Failure(_) => PredictOutcome(500, Some(payload), store, None))
      case _ => PredictOutcome(ErrorStatus(ml(payload)), Some(payload), store, None)
  }

  /** A generated id survives the schema's trimming unchanged. */
  lemma GeneratedIdKept(req: PredictRequest, now: nat)
    requires !NonEmpty(req.patientId)
    ensures Text.Trim(Text.JsSpace, PatientIdOf(req, now)) == "patient_" + Text.NatToString(now)
  {
    var s := "patient_" + Text.NatToString(now);
    var digits := Text.NatToString(now);
    assert s[0] == 'p';
    assert s[|s| - 1] == digits[|digits| - 1];
    assert Text.IsDigit(digits[|digits| - 1]);
    Text.TrimOfTrimmed(Text.JsSpace, s);
  }

  /** A request without a model uses the voting ensemble. */
  lemma DefaultModelUsed(req: PredictRequest, ml: MlPayload -> MlOutcome, store: seq<Diagnosis>,
                         saveFails: bool, newId: string, now: nat)
    requires req.patientData.Some? && req.selectedModel.Unset?
    ensures PredictDiagnosis(req, ml, store, saveFails, newId, now).sent.value.model == Some("voting_ensemble")
  {
  }

  /**
    A `null` selected model is sent to the ML service as `null`, and no record
    is ever saved for it: the schema requires a model, so even an answer the
    ML service accepted ends in a 500.
  */
  lemma NullModelNeverSaved(req: PredictRequest, ml: MlPayload -> MlOutcome, store: seq<Diagnosis>,
                            saveFails: bool, newId: string, now: nat)
    requires req.patientData.Some? && req.selectedModel.NullChoice?
    ensures var r := PredictDiagnosis(req, ml, store, saveFails, newId, now);
            r.sent.value.model.None? && r.saved.None? && r.store == store
            && (ml(r.sent.value).MlOk? ==> r.status == 500)
  {
    var r := PredictDiagnosis(req, ml, store, saveFails, newId, now);
    if ml(r.sent.value).MlOk? {
      assert DraftOf(req, None, ml(r.sent.value).body, now).model.None?;
    }
  }

  /** A batch entry: its `id` and its `data`. */
  datatype BatchPatient = BatchPatient(id: Option<string>, data: Option<PatientData>)

  datatype BatchSuccess = BatchSuccess(patientIndex: nat, patientId: string, prediction: Option<int>,
                                       riskLevel: Option<string>, probability: Option<real>, confidence: Option<real>)

  datatype BatchError = BatchError(patientIndex: nat, patientId: string, error: string)

  datatype BatchReport = BatchReport(total: nat, successful: nat, failed: nat,
                                     predictions: seq<BatchSuccess>, errors: seq<BatchError>, model: Option<string>)

  /** `patient.id || \`batch_patient_${i}\``. */
  function BatchId(p: BatchPatient, i: nat): string {
    if NonEmpty(p.id) then p.id.value else "batch_patient_" + Text.NatToString(i)
  }

  /** `error.response?.data?.error || error.message`. */
  function ErrorText(o: MlOutcome): string
    requires !o.MlOk?
  {
    match o
    case MlHttpError(_, detail, message) => if NonEmpty(detail) then detail.value else message
    case ConnectionRefused(message) => message
    case OtherError(message) => message
  }

  predicate HasSuccess(ps: seq<BatchSuccess>, i: nat) {
    exists k :: 0 <= k < |ps| && ps[k].patientIndex == i
  }

  predicate HasError(es: seq<BatchError>, i: nat) {
    exists k :: 0 <= k < |es| && es[k].patientIndex == i
  }

  /** Appending a success records exactly one more index. */
  lemma HasSuccessAppend(ps: seq<BatchSuccess>, s: BatchSuccess)
    ensures forall j :: HasSuccess(ps + [s], j) <==> HasSuccess(ps, j) || j == s.patientIndex
  {
    var r := ps + [s];
    assert r[|ps|] == s;
    forall j | HasSuccess(ps, j) ensures HasSuccess(r, j) {
      var k :| 0 <= k < |ps| && ps[k].patientIndex == j;
      assert r[k] == ps[k];
    }
    forall j | HasSuccess(r, j) && j != s.patientIndex ensures HasSuccess(ps, j) {
      var k :| 0 <= k < |r| && r[k].patientIndex == j;
      assert r[k] == ps[k];
    }
  }

  /** Appending an error records exactly one more index. */
  lemma HasErrorAppend(es: seq<BatchError>, e: BatchError)
    ensures forall j :: HasError(es + [e], j) <==> HasError(es, j) || j == e.patientIndex
  {
    var r := es + [e];
    assert r[|es|] == e;
    forall j | HasError(es, j) ensures HasError(r, j) {
      var k :| 0 <= k < |es| && es[k].patientIndex == j;
      assert r[k] == es[k];
    }
    forall j | HasError(r, j) && j != e.patientIndex ensures HasError(es, j) {
      var k :| 0 <= k < |r| && r[k].patientIndex == j;
      assert r[k] == es[k];
    }
  }

  /** The entry for a successful call on index `i`. */
  function SuccessEntry(ps: seq<BatchPatient>, i: nat, o: MlOutcome): BatchSuccess
    requires i < |ps| && o.MlOk?
  {
    BatchSuccess(i, BatchId(ps[i], i), o.body.result, o.body.riskLevel, o.body.probability, o.body.confidence)
  }

  /** The entry for a failed call on index `i`. */
  function ErrorEntry(ps: seq<BatchPatient>, i: nat, o: MlOutcome): BatchError
    requires i < |ps| && !o.MlOk?
  {
    BatchError(i, BatchId(ps[i], i), ErrorText(o))
  }

  /** Successes come from successful calls, in ascending index order, with the patient's id. */
  ghost predicate SuccessesBelow(ps: seq<BatchPatient>, call: nat -> MlOutcome, i: nat, predictions: seq<BatchSuccess>) {
    && (forall k :: 0 <= k < |predictions| ==> predictions[k].patientIndex < i && predictions[k].patientIndex < |ps|)
    && (forall k :: 0 <= k < |predictions| ==> call(predictions[k].patientIndex).MlOk?)
    && (forall k :: 0 <= k < |predictions| && predictions[k].patientIndex < |ps| ==>
          predictions[k].patientId == BatchId(ps[predictions[k].patientIndex], predictions[k].patientIndex))
    && (forall a, b :: 0 <= a < b < |predictions| ==> predictions[a].patientIndex < predictions[b].patientIndex)
  }

  /** Errors come from failed calls, in ascending index order, with the patient's id and the error's text. */
  ghost predicate ErrorsBelow(ps: seq<BatchPatient>, call: nat -> MlOutcome, i: nat, errors: seq<BatchError>) {
    && (forall k :: 0 <= k < |errors| ==> errors[k].patientIndex < i && errors[k].patientIndex < |ps|)
    && (forall k :: 0 <= k < |errors| ==> !call(errors[k].patientIndex).MlOk?)
    && (forall k :: 0 <= k < |errors| && errors[k].patientIndex < |ps| && !call(errors[k].patientIndex).MlOk? ==>
          errors[k].patientId == BatchId(ps[errors[k].patientIndex], errors[k].patientIndex)
          && errors[k].error == ErrorText(call(errors[k].patientIndex)))
    && (forall a, b :: 0 <= a < b < |errors| ==> errors[a].patientIndex < errors[b].patientIndex)
  }

  /** Every index below `i` is recorded on the side its call's outcome says. */
  ghost predicate Recorded(call: nat -> MlOutcome, i: nat, predictions: seq<BatchSuccess>, errors: seq<BatchError>) {
    forall j :: 0 <= j < i ==> (call(j).MlOk? ==> HasSuccess(predictions, j)) && (!call(j).MlOk? ==> HasError(errors, j))
  }

  /** The state of the batch loop after the first `i` calls. */
  ghost predicate BatchState(ps: seq<BatchPatient>, call: nat -> MlOutcome, i: nat,
                             predictions: seq<BatchSuccess>, errors: seq<BatchError>) {
    i <= |ps| && |predictions| + |errors| == i
    && SuccessesBelow(ps, call, i, predictions) && ErrorsBelow(ps, call, i, errors)
    && Recorded(call, i, predictions, errors)
  }

  /** A successful call on index `i` extends the successes. */
  lemma SuccessStep(ps: seq<BatchPatient>, call: nat -> MlOutcome, i: nat,
                    predictions: seq<BatchSuccess>, errors: seq<BatchError>)
    requires BatchState(ps, call, i, predictions, errors) && i < |ps| && call(i).MlOk?
    ensures BatchState(ps, call, i + 1, predictions + [SuccessEntry(ps, i, call(i))], errors)
  {
    var e := SuccessEntry(ps, i, call(i));
    var r := predictions + [e];
    HasSuccessAppend(predictions, e);
    assert r[|predictions|] == e;
    assert forall k :: 0 <= k < |predictions| ==> r[k] == predictions[k];
    assert SuccessesBelow(ps, call, i + 1, r);
  }

  /** A failed call on index `i` extends the errors. */
  lemma ErrorStep(ps: seq<BatchPatient>, call: nat -> MlOutcome, i: nat,
                  predictions: seq<BatchSuccess>, errors: seq<BatchError>)
    requires BatchState(ps, call, i, predictions, errors) && i < |ps| && !call(i).MlOk?
    ensures BatchState(ps, call, i + 1, predictions, errors + [ErrorEntry(ps, i, call(i))])
  {
    var e := ErrorEntry(ps, i, call(i));
    var r := errors + [e];
    HasErrorAppend(errors, e);
    assert r[|errors|] == e;
    assert forall k :: 0 <= k < |errors| ==> r[k] == errors[k];
    assert ErrorsBelow(ps, call, i + 1, r);
  }

  /** After the whole batch, each index is a success exactly when its call succeeded, and an error otherwise. */
  lemma BatchDone(ps: seq<BatchPatient>, call: nat -> MlOutcome, predictions: seq<BatchSuccess>, errors: seq<BatchError>)
    requires BatchState(ps, call, |ps|, predictions, errors)
    ensures forall i :: 0 <= i < |ps| ==>
              (HasSuccess(predictions, i) <==> call(i).MlOk?) && (HasError(errors, i) <==> !call(i).MlOk?)
  {
    forall i | 0 <= i < |ps|
      ensures (HasSuccess(predictions, i) <==> call(i).MlOk?) && (HasError(errors, i) <==> !call(i).MlOk?)
    {
      if HasSuccess(predictions, i) {
        var k :| 0 <= k < |predictions| && predictions[k].patientIndex == i;
      }
      if HasError(errors, i) {
        var k :| 0 <= k < |errors| && errors[k].patientIndex == i;
      }
    }
  }

  /**
    `batchPredict`: 400 for a missing or empty array; otherwise the i-th call
    (`call(i)`) decides whether index i lands in `predictions` or in `errors`.
    Each index lands in exactly one, both lists ascend, and the counts add up.
  */
  method BatchPredict(patients: Option<seq<BatchPatient>>, selectedModel: ModelChoice, call: nat -> MlOutcome)
    returns (r: Result<BatchReport, nat>)
    ensures r.Failure? <==> patients.None? || patients.value == []
    ensures r.Failure? ==> r.error == 400
    ensures r.Success? ==> var b := r.value; var n := |patients.value|;
              b.total == n && b.successful == |b.predictions| && b.failed == |b.errors|
              && b.successful + b.failed == b.total && b.model == SelectedModel(selectedModel)
    ensures r.Success? ==> forall i :: 0 <= i < |patients.value| ==>
              (HasSuccess(r.value.predictions, i) <==> call(i).MlOk?)
              && (HasError(r.value.errors, i) <==> !call(i).MlOk?)
    ensures r.Success? ==> forall a, b :: 0 <= a < b < |r.value.predictions| ==>
              r.value.predictions[a].patientIndex < r.value.predictions[b].patientIndex
    ensures r.Success? ==> forall a, b :: 0 <= a < b < |r.value.errors| ==>
              r.value.errors[a].patientIndex < r.value.errors[b].patientIndex
    ensures r.Success? ==> forall k :: 0 <= k < |r.value.predictions| ==>
              var i := r.value.predictions[k].patientIndex;
              i < |patients.value| && r.value.predictions[k].patientId == BatchId(patients.value[i], i)
    ensures r.Success? ==> forall k :: 0 <= k < |r.value.errors| ==>
              var i := r.value.errors[k].patientIndex;
              i < |patients.value| && !call(i).MlOk? && r.value.errors[k].patientId == BatchId(patients.value[i], i)
              && r.value.errors[k].error == ErrorText(call(i))
  {
    if patients.None? || patients.value == [] {
      return Failure(400);
    }
    var ps := patients.value;
    var predictions: seq<BatchSuccess> := [];
    var errors: seq<BatchError> := [];
    var i := 0;
    while i < |ps|
      invariant BatchState(ps, call, i, predictions, errors)
    {
      var outcome := call(i);
      if outcome.MlOk? {
        SuccessStep(ps, call, i, predictions, errors);
        predictions := predictions + [SuccessEntry(ps, i, outcome)];
      } else {
        ErrorStep(ps, call, i, predictions, errors);
        errors := errors + [ErrorEntry(ps, i, outcome)];
      }
      i := i + 1;
    }
    BatchDone(ps, call, predictions, errors);
    return Success(BatchReport(|ps|, |predictions|, |errors|, predictions, errors, SelectedModel(selectedModel)));
  }
}

=== FILE: results_display.dfy ===
/**
  The decisions of frontend/src/components/ResultsDisplay.js: when the error
  state is shown, the at-risk message, the confidence band, the chart values,
  where the metrics come from, and the context record handed to the chatbot.
  The stored result is the backend's prediction response as saved by the form.
*/
module ResultsDisplay {
  import opened Wrappers
  import MlApi

  datatype ProbabilityPair = ProbabilityPair(lowRisk: Option<real>, highRisk: Option<real>)

  /** The `prediction` part of the stored response; `result` may be missing. */
  datatype PredictionPart = PredictionPart(result: Option<int>, probability: Option<real>,
                                           confidence: Option<real>, probabilities: Option<ProbabilityPair>)

  datatype ModelInfo = ModelInfo(name: string, metrics: Option<MlApi.Metrics>)

  datatype StoredResult = StoredResult(success: bool, prediction: Option<PredictionPart>, modelInfo: Option<ModelInfo>)

  /** The error card is shown when there is no result, it did not succeed, or it has no `prediction.result`. */
  predicate ShowsError(stored: Option<StoredResult>) {
    stored.None? || !stored.value.success || stored.value.prediction.None? || stored.value.prediction.value.result.None?
  }

  /** The result values the page renders, when it renders them. */
  function Shown(stored: Option<StoredResult>): (p: Option<PredictionPart>)
    ensures p.None? <==> ShowsError(stored)
    ensures p.Some? ==> stored.value.success && Some(p.value) == stored.value.prediction && p.value.result.Some?
  {
    if ShowsError(stored) then None else stored.value.prediction
  }

  const AtRiskMessage: string := "You are at risk of CHD. Follow precautions and consider consulting a cardiologist."
  const NotAtRiskMessage: string := "You are not at risk of CHD. Keep maintaining a healthy lifestyle!"

  /** The five immediate actions listed for an at-risk result. */
  const ImmediateActions: seq<string> := [
    "📞 Schedule consultation with a cardiologist",
    "🥗 Adopt a heart-healthy diet",
    "🏃‍♂️ Begin regular exercise routine",
    "🚭 Avoid smoking and excessive alcohol",
    "📈 Monitor blood pressure and cholesterol regularly"
  ]

  datatype Advice = Advice(message: string, actions: seq<string>)

  /** At risk exactly for prediction 1 (strict equality), which also brings the action list. */
  function AdviceFor(prediction: int): (a: Advice)
    ensures a.message == AtRiskMessage <==> prediction == 1
    ensures a.actions != [] <==> prediction == 1
    ensures prediction == 1 ==> a.actions == ImmediateActions
  {
    if prediction == 1 then Advice(AtRiskMessage, ImmediateActions) else Advice(NotAtRiskMessage, [])
  }

  datatype Band = VeryHigh | High | Moderate | Low

  function BandRank(b: Band): nat {
    match b
    case Low => 0
    case Moderate => 1
    case High => 2
    case VeryHigh => 3
  }

  /**
    `renderConfidenceLevel` on `confidence * 100`: at least 90 is very high,
    75 high, 60 moderate, anything lower is low.  A missing confidence makes
    the product NaN, which fails every comparison and so is low.
  */
  function ConfidenceBand(confidence: Option<real>): (b: Band)
    ensures confidence.None? ==> b == Low
    ensures confidence.Some? ==> (b == VeryHigh <==> confidence.value * 100.0 >= 90.0)
    ensures confidence.Some? ==> (b == High <==> 75.0 <= confidence.value * 100.0 < 90.0)
    ensures confidence.Some? ==> (b == Moderate <==> 60.0 <= confidence.value * 100.0 < 75.0)
    ensures confidence.Some? ==> (b == Low <==> confidence.value * 100.0 < 60.0)
  {
    if confidence.None? then Low
    else
      var level := confidence.value * 100.0;
      if level >= 90.0 then VeryHigh else if level >= 75.0 then High else if level >= 60.0 then Moderate else Low
  }

  /** A higher confidence never falls in a lower band. */
  lemma ConfidenceBandMonotone(x: real, y: real)
    requires x <= y
    ensures BandRank(ConfidenceBand(Some(x))) <= BandRank(ConfidenceBand(Some(y)))
  {
  }

  datatype ChartValue = ChartValue(name: string, value: real)

  /** The confidence chart: confidence and uncertainty, in percent. */
  function ConfidenceChart(confidence: real): (c: seq<ChartValue>)
    ensures |c| == 2 && c[0].name == "Confidence" && c[1].name == "Uncertainty"
    ensures c[0].value + c[1].value == 100.0
    ensures c[0].value == confidence * 100.0
  {
    [ChartValue("Confidence", confidence * 100.0), ChartValue("Uncertainty", (1.0 - confidence) * 100.0)]
  }

  /** `x * 100 || 0`: a missing value (NaN) or a zero shows as 0. */
  function PercentOrZero(x: Option<real>): (v: real)
    ensures x.Some? ==> v == x.value * 100.0
    ensures x.None? ==> v == 0.0
  {
    if x.Some? then x.value * 100.0 else 0.0
  }

  /** The probability chart: empty without probabilities, else low and high risk in percent. */
  function ProbabilityChart(p: Option<ProbabilityPair>): (c: seq<ChartValue>)
    ensures p.None? <==> c == []
    ensures p.Some? ==> |c| == 2 && c[0].value == PercentOrZero(p.value.lowRisk) && c[1].value == PercentOrZero(p.value.highRisk)
  {
    if p.None? then []
    else [ChartValue("Low Risk", PercentOrZero(p.value.lowRisk)), ChartValue("High Risk", PercentOrZero(p.value.highRisk))]
  }

  /** Complementary class probabilities fill the probability chart. */
  lemma ProbabilityChartComplete(low: real)
    ensures var c := ProbabilityChart(Some(ProbabilityPair(Some(low), Some(1.0 - low))));
            c[0].value + c[1].value == 100.0
  {
  }

  /** The metrics used when fetching them fails. */
  const FallbackMetrics: MlApi.Metrics :=
    MlApi.Metrics(Some(0.7134), Some(0.7759), Some(0.7159), Some(0.6599), Some(0.6867))

  /** The ensemble-metrics request: rejected (network, non-OK status, bad JSON) or answered. */
  datatype MetricsFetch = FetchRejected | Fetched(success: bool, metrics: Option<MlApi.Metrics>)

  datatype MetricsSource = FromResult | FromFetch | FromFallback | NoneShown

  /**
    Metrics present in the stored result are used without a request (an empty
    metrics object counts as present); otherwise the request's metrics when it
    succeeds with some, the fallback constants when it is rejected, and none
    when it answers without metrics.
  */
  function MetricsShown(stored: Option<StoredResult>, fetch: MetricsFetch): (r: (MetricsSource, Option<MlApi.Metrics>))
    ensures stored.Some? && stored.value.modelInfo.Some? && stored.value.modelInfo.value.metrics.Some? ==>
              r == (FromResult, stored.value.modelInfo.value.metrics)
    ensures r.0 != FromResult ==> (fetch == FetchRejected <==> r == (FromFallback, Some(FallbackMetrics)))
    ensures r.0 == FromFetch ==> fetch.Fetched? && fetch.success && r.1 == fetch.metrics && r.1.Some?
    ensures r.1.None? <==> r.0 == NoneShown
  {
    if stored.Some? && stored.value.modelInfo.Some? && stored.value.modelInfo.value.metrics.Some? then
      (FromResult, stored.value.modelInfo.value.metrics)
    else match fetch
      case FetchRejected => (FromFallback, Some(FallbackMetrics))
      case Fetched(ok, m) => if ok && m.Some? then (FromFetch, m) else (NoneShown, None)
  }

  /**
    With the ML service on its fallback metrics table, the default model's
    answer carries an empty metrics object; the page shows it as is and never
    reaches its own fallback.
  */
  lemma EmptyMetricsSuppressFallback(stored: StoredResult, fetch: MetricsFetch)
    requires stored.modelInfo == Some(ModelInfo("voting_ensemble", Some(MlApi.MetricsFor(MlApi.FallbackMetrics, "voting_ensemble"))))
    ensures MetricsShown(Some(stored), fetch) == (FromResult, Some(MlApi.NoMetrics))
  {
  }

  /** The record stored for the chatbot when moving on to the history page. */
  datatype ChatbotContext = ChatbotContext(prediction: int, probability: Option<real>, confidence: Option<real>,
                                           message: string, modelUsed: string)

  function ContextFor(p: PredictionPart, info: ModelInfo): (c: ChatbotContext)
    requires p.result.Some?
    ensures c.prediction == p.result.value && c.probability == p.probability && c.confidence == p.confidence
    ensures c.modelUsed == info.name
    ensures c.message == AtRiskMessage <==> p.result.value == 1
  {
    ChatbotContext(p.result.value, p.probability, p.confidence, AdviceFor(p.result.value).message, info.name)
  }
}

=== FILE: sorting.dfy ===
/**
  A stable insertion sort on sequences, ordered by a numeric key. It stands for
  JavaScript `Array.prototype.sort` with a subtraction comparator, Python
  `sorted(..., key=...)` and a MongoDB `.sort({field: 1})`.
*/
module Sorting {

  ghost predicate SortedBy<T>(xs: seq<T>, key: T -> real) {
    forall i, j :: 0 <= i < j < |xs| ==> key(xs[i]) <= key(xs[j])
  }

  /** An element below every element of a sorted sequence can be put in front. */
  lemma ConsSorted<T>(y: T, ys: seq<T>, key: T -> real)
    requires SortedBy(ys, key)
    requires forall k :: 0 <= k < |ys| ==> key(y) <= key(ys[k])
    ensures SortedBy([y] + ys, key)
  {
    var r := [y] + ys;
    forall i, j | 0 <= i < j < |r| ensures key(r[i]) <= key(r[j]) {
      assert r[j] == ys[j - 1];
      if i > 0 {
        assert r[i] == ys[i - 1];
      }
    }
  }

  /** A lower bound of `x` and of every element of `ys` bounds every element of a permutation of them. */
  lemma BoundOfPermutation<T>(zs: seq<T>, ys: seq<T>, x: T, b: real, key: T -> real)
    requires multiset(zs) == multiset(ys) + multiset{x}
    requires b <= key(x) && forall j :: 0 <= j < |ys| ==> b <= key(ys[j])
    ensures forall k :: 0 <= k < |zs| ==> b <= key(zs[k])
  {
    forall k | 0 <= k < |zs| ensures b <= key(zs[k]) {
      assert zs[k] in multiset(ys) + multiset{x};
      if zs[k] != x {
        assert zs[k] in ys;
      }
    }
  }

  /** Inserts `x` before the first element whose key is not smaller than its own. */
  function Insert<T>(x: T, xs: seq<T>, key: T -> real): (r: seq<T>)
    requires SortedBy(xs, key)
    ensures SortedBy(r, key)
    ensures multiset(r) == multiset(xs) + multiset{x}
    ensures |r| == |xs| + 1
  {
    if xs == [] || key(x) <= key(xs[0]) then
      ConsSorted(x, xs, key);
      [x] + xs
    else
      var rest := xs[1..];
      assert xs == [xs[0]] + rest;
      assert SortedBy(rest, key);
      var tail := Insert(x, rest, key);
      assert forall j :: 0 <= j < |rest| ==> rest[j] == xs[j + 1];
      BoundOfPermutation(tail, rest, x, key(xs[0]), key);
      ConsSorted(xs[0], tail, key);
      [xs[0]] + tail
  }

  /** Sorts `xs` ascending by `key`; elements with equal keys keep their input order. */
  function SortBy<T>(xs: seq<T>, key: T -> real): (r: seq<T>)
    ensures SortedBy(r, key)
    ensures multiset(r) == multiset(xs)
    ensures |r| == |xs|
  {
    if xs == [] then []
    else
      assert xs == [xs[0]] + xs[1..];
      Insert(xs[0], SortBy(xs[1..], key), key)
  }

  /** Keeps the elements satisfying `p`, in order. */
  function Filter<T>(xs: seq<T>, p: T -> bool): (r: seq<T>)
    ensures |r| <= |xs|
    ensures forall k :: 0 <= k < |r| ==> p(r[k])
    ensures forall k :: 0 <= k < |r| ==> r[k] in xs
    ensures forall k :: 0 <= k < |xs| && p(xs[k]) ==> xs[k] in r
  {
    if xs == [] then []
    else if p(xs[0]) then [xs[0]] + Filter(xs[1..], p)
    else Filter(xs[1..], p)
  }

  /** A filtered sorted sequence is still sorted. */
  lemma {:induction false} FilterSorted<T>(xs: seq<T>, p: T -> bool, key: T -> real)
    requires SortedBy(xs, key)
    ensures SortedBy(Filter(xs, p), key)
  {
    if xs != [] {
      FilterSorted(xs[1..], p, key);
      var tail := Filter(xs[1..], p);
      forall k | 0 <= k < |tail| ensures key(xs[0]) <= key(tail[k]) {
        assert tail[k] in xs[1..];
      }
    }
  }

  /** Filtering distributes over appending one element. */
  lemma {:induction false} FilterAppend<T>(xs: seq<T>, x: T, p: T -> bool)
    ensures Filter(xs + [x], p) == Filter(xs, p) + (if p(x) then [x] else [])
  {
    if xs != [] {
      assert (xs + [x])[1..] == xs[1..] + [x];
      FilterAppend(xs[1..], x, p);
    }
  }
}

=== FILE: text.dfy ===
/**
  String helpers with the semantics of the JavaScript and Python built-ins the
  system relies on: whitespace trimming, ASCII lower-casing, substring search,
  the `/\s+/g` replacement used to build patient ids, and decimal rendering.
*/
module Text {
  import opened Wrappers

  /** The two whitespace classes in play: JavaScript `\s` / `trim()` and Python `str.strip()`. */
  datatype Charset = JsSpace | PySpace

  predicate IsJsSpace(c: char) {
    c == ' ' || c == '\t' || c == '\n' || c == '\r' || c == '\U{000B}' || c == '\U{000C}'
    || c == '\U{00A0}' || c == '\U{1680}' || ('\U{2000}' <= c <= '\U{200A}')
    || c == '\U{2028}' || c == '\U{2029}' || c == '\U{202F}' || c == '\U{205F}'
    || c == '\U{3000}' || c == '\U{FEFF}'
  }

  predicate IsPySpace(c: char) {
    c == ' ' || c == '\t' || c == '\n' || c == '\r' || c == '\U{000B}' || c == '\U{000C}'
    || ('\U{001C}' <= c <= '\U{001F}') || c == '\U{0085}'
    || c == '\U{00A0}' || c == '\U{1680}' || ('\U{2000}' <= c <= '\U{200A}')
    || c == '\U{2028}' || c == '\U{2029}' || c == '\U{202F}' || c == '\U{205F}'
    || c == '\U{3000}'
  }

  predicate IsSpace(cs: Charset, c: char) {
    match cs
    case JsSpace => IsJsSpace(c)
    case PySpace => IsPySpace(c)
  }

  predicate AllSpace(cs: Charset, s: string) {
    forall k :: 0 <= k < |s| ==> IsSpace(cs, s[k])
  }

  predicate NoSpace(cs: Charset, s: string) {
    forall k :: 0 <= k < |s| ==> !IsSpace(cs, s[k])
  }

  /**
    The property names every plain JavaScript object inherits from
    `Object.prototype`. Reading one of them from `{}` yields a function (or the
    prototype itself), never `undefined`, and none of them has a `push` method.
  */
  const InheritedNames: set<string> := {
    "constructor", "__proto__", "__defineGetter__", "__defineSetter__",
    "__lookupGetter__", "__lookupSetter__", "hasOwnProperty", "isPrototypeOf",
    "propertyIsEnumerable", "toLocaleString", "toString", "valueOf"
  }

  /** Neither end of `s` is whitespace. */
  predicate Trimmed(cs: Charset, s: string) {
    s == [] || (!IsSpace(cs, s[0]) && !IsSpace(cs, s[|s| - 1]))
  }

  /** Number of whitespace characters at the start of `s`. */
  function LeadingSpaces(cs: Charset, s: string): (n: nat)
    ensures n <= |s|
    ensures AllSpace(cs, s[..n])
    ensures n < |s| ==> !IsSpace(cs, s[n])
  {
    if s == [] || !IsSpace(cs, s[0]) then 0 else 1 + LeadingSpaces(cs, s[1..])
  }

  /** Number of whitespace characters at the end of `s`. */
  function TrailingSpaces(cs: Charset, s: string): (n: nat)
    ensures n <= |s|
    ensures AllSpace(cs, s[|s| - n..])
    ensures n < |s| ==> !IsSpace(cs, s[|s| - n - 1])
  {
    if s == [] || !IsSpace(cs, s[|s| - 1]) then 0 else 1 + TrailingSpaces(cs, s[..|s| - 1])
  }

  /** `r` sits at offset `i` of `s`, with only whitespace before and after it. */
  ghost predicate PaddedAt(cs: Charset, s: string, r: string, i: int) {
    0 <= i && i + |r| <= |s| && s[i..i + |r|] == r
    && AllSpace(cs, s[..i]) && AllSpace(cs, s[i + |r|..])
  }

  /** `String.prototype.trim` (JsSpace) or `str.strip()` (PySpace). */
  function Trim(cs: Charset, s: string): (r: string)
    ensures Trimmed(cs, r)
    ensures PaddedAt(cs, s, r, LeadingSpaces(cs, s))
    ensures r == [] <==> AllSpace(cs, s)
  {
    var n := LeadingSpaces(cs, s);
    var rest := s[n..];
    var m := TrailingSpaces(cs, rest);
    TrimParts(cs, s, n, rest, m);
    rest[..|rest| - m]
  }

  /** `n` is the length of the whitespace run that starts `s`. */
  predicate LeadingCut(cs: Charset, s: string, n: nat) {
    n <= |s| && AllSpace(cs, s[..n]) && (n < |s| ==> !IsSpace(cs, s[n]))
  }

  /** `m` is the length of the whitespace run that ends `s`. */
  predicate TrailingCut(cs: Charset, s: string, m: nat) {
    m <= |s| && AllSpace(cs, s[|s| - m..]) && (m < |s| ==> !IsSpace(cs, s[|s| - m - 1]))
  }

  /** `LeadingSpaces` measures the leading whitespace run. */
  lemma LeadingSpacesCut(cs: Charset, s: string)
    ensures LeadingCut(cs, s, LeadingSpaces(cs, s))
  {
  }

  /** `TrailingSpaces` measures the trailing whitespace run. */
  lemma TrailingSpacesCut(cs: Charset, s: string)
    ensures TrailingCut(cs, s, TrailingSpaces(cs, s))
  {
  }

  /** What cutting `n` leading and `m` trailing whitespace characters leaves. */
  lemma TrimParts(cs: Charset, s: string, n: nat, rest: string, m: nat)
    requires n == LeadingSpaces(cs, s) && rest == s[n..] && m == TrailingSpaces(cs, rest)
    ensures Trimmed(cs, rest[..|rest| - m])
    ensures PaddedAt(cs, s, rest[..|rest| - m], n)
    ensures rest[..|rest| - m] == [] <==> AllSpace(cs, s)
  {
    LeadingSpacesCut(cs, s);
    TrailingSpacesCut(cs, rest);
    TrimPartTrimmed(cs, s, n, rest, m);
    TrimPartPadded(cs, s, n, rest, m);
    TrimPartEmpty(cs, s, n, rest, m);
  }

  /** The cut leaves no whitespace at either end. */
  lemma TrimPartTrimmed(cs: Charset, s: string, n: nat, rest: string, m: nat)
    requires LeadingCut(cs, s, n) && rest == s[n..] && TrailingCut(cs, rest, m)
    ensures Trimmed(cs, rest[..|rest| - m])
  {
    var r := rest[..|rest| - m];
    if r != [] {
      CutAt(s, n, rest, m);
      assert r[0] == s[n];
      assert r[|r| - 1] == rest[|rest| - m - 1];
    }
  }

  /** The cut sits at offset `n` between whitespace. */
  lemma TrimPartPadded(cs: Charset, s: string, n: nat, rest: string, m: nat)
    requires LeadingCut(cs, s, n) && rest == s[n..] && TrailingCut(cs, rest, m)
    ensures PaddedAt(cs, s, rest[..|rest| - m], n)
  {
    CutAt(s, n, rest, m);
  }

  /** The cut is empty exactly when the whole string is whitespace. */
  lemma TrimPartEmpty(cs: Charset, s: string, n: nat, rest: string, m: nat)
    requires LeadingCut(cs, s, n) && rest == s[n..] && TrailingCut(cs, rest, m)
    ensures rest[..|rest| - m] == [] <==> AllSpace(cs, s)
  {
    CutAt(s, n, rest, m);
    if m == |rest| {
      AllSpaceJoin(cs, s, n);
    } else {
      assert !IsSpace(cs, s[n + |rest| - m - 1]);
    }
  }

  /** Index facts about cutting `n` elements off the front of `s` and `m` off the back of what is left. */
  lemma CutAt<T>(s: seq<T>, n: nat, rest: seq<T>, m: nat)
    requires n <= |s| && rest == s[n..] && m <= |rest|
    ensures s[n..n + (|rest| - m)] == rest[..|rest| - m]
    ensures s[n + (|rest| - m)..] == rest[|rest| - m..]
    ensures m == |rest| ==> s[n..] == rest[|rest| - m..]
    ensures m < |rest| ==> rest[|rest| - m - 1] == s[n + |rest| - m - 1]
    ensures |rest| - m > 0 ==> rest[..|rest| - m][0] == s[n]
  {
  }

  /** A string whose two parts around `n` are whitespace is whitespace. */
  lemma AllSpaceJoin(cs: Charset, s: string, n: nat)
    requires n <= |s| && AllSpace(cs, s[..n]) && AllSpace(cs, s[n..])
    ensures AllSpace(cs, s)
  {
    forall k | 0 <= k < |s| ensures IsSpace(cs, s[k]) {
      if k < n {
        assert s[k] == s[..n][k];
      } else {
        assert s[k] == s[n..][k - n];
      }
    }
  }

  /** A string with no whitespace at either end is its own trim. */
  lemma TrimOfTrimmed(cs: Charset, s: string)
    requires Trimmed(cs, s)
    ensures Trim(cs, s) == s
  {
    if s != [] {
      assert LeadingSpaces(cs, s) == 0;
      assert TrailingSpaces(cs, s) == 0;
    }
  }

  /** Trimming is idempotent. */
  lemma TrimIdempotent(cs: Charset, s: string)
    ensures Trim(cs, Trim(cs, s)) == Trim(cs, s)
  {
    TrimOfTrimmed(cs, Trim(cs, s));
  }

  /** ASCII lower-casing of one character. */
  function LowerChar(c: char): (d: char)
    ensures !('A' <= d <= 'Z')
    ensures IsJsSpace(d) <==> IsJsSpace(c)
  {
    if 'A' <= c <= 'Z' then (c as int + 32) as char else c
  }

  predicate IsLower(s: string) {
    forall k :: 0 <= k < |s| ==> !('A' <= s[k] <= 'Z')
  }

  /** `String.prototype.toLowerCase` restricted to the ASCII letters. */
  function ToLower(s: string): (r: string)
    ensures |r| == |s|
    ensures forall k :: 0 <= k < |s| ==> r[k] == LowerChar(s[k])
    ensures IsLower(r)
  {
    seq(|s|, k requires 0 <= k < |s| => LowerChar(s[k]))
  }

  /** A string without upper-case letters is unchanged by lower-casing. */
  lemma ToLowerOfLower(s: string)
    requires IsLower(s)
    ensures ToLower(s) == s
  {
  }

  /** `sub` occurs in `s` starting at index `i`. */
  ghost predicate OccursAt(s: string, sub: string, i: int) {
    0 <= i && i + |sub| <= |s| && s[i..i + |sub|] == sub
  }

  /** `String.prototype.includes` / Python `in` on strings. */
  function Contains(s: string, sub: string): (b: bool)
    ensures b <==> exists i :: OccursAt(s, sub, i)
    decreases |s|
  {
    if |s| < |sub| then false
    else if s[..|sub|] == sub then (assert OccursAt(s, sub, 0); true)
    else (ContainsShift(s, sub); Contains(s[1..], sub))
  }

  /** An occurrence of `sub` in `s` past index 0 is an occurrence in `s[1..]`, and back. */
  lemma ContainsShift(s: string, sub: string)
    requires |s| >= |sub| && s[..|sub|] != sub
    ensures (exists i :: OccursAt(s, sub, i)) <==> (exists j :: OccursAt(s[1..], sub, j))
  {
    if exists i :: OccursAt(s, sub, i) {
      var i :| OccursAt(s, sub, i);
      assert i != 0;
      assert s[1..][i - 1..i - 1 + |sub|] == s[i..i + |sub|];
      assert OccursAt(s[1..], sub, i - 1);
    }
    if exists j :: OccursAt(s[1..], sub, j) {
      var j :| OccursAt(s[1..], sub, j);
      assert s[j + 1..j + 1 + |sub|] == s[1..][j..j + |sub|];
      assert OccursAt(s, sub, j + 1);
    }
  }

  /** The middle part of a concatenation occurs in it. */
  lemma ContainsMiddle(a: string, b: string, c: string)
    ensures Contains(a + b + c, b)
  {
    assert (a + b + c)[|a|..|a| + |b|] == b;
    assert OccursAt(a + b + c, b, |a|);
  }

  /** A non-empty pattern whose first character never appears in `s` does not occur in `s`. */
  lemma NotContainsMissingChar(s: string, sub: string)
    requires |sub| > 0
    requires forall k :: 0 <= k < |s| ==> s[k] != sub[0]
    ensures !Contains(s, sub)
  {
  }

  /**
    JavaScript `s.replace(/\s+/g, "_")`: every maximal run of whitespace becomes
    a single underscore; every other character is kept.
  */
  function ReplaceSpaceRuns(s: string): (r: string)
    ensures |r| <= |s|
    ensures NoSpace(JsSpace, r)
    ensures forall k :: 0 <= k < |r| ==> r[k] == '_' || r[k] in s
    ensures NoSpace(JsSpace, s) ==> r == s
    ensures (r == []) <==> (s == [])
    decreases |s|
  {
    if s == [] then []
    else if IsJsSpace(s[0]) then
      var rest := s[LeadingSpaces(JsSpace, s)..];
      var tail := ReplaceSpaceRuns(rest);
      assert forall k :: 0 <= k < |tail| && tail[k] != '_' ==> tail[k] in s by {
        forall k | 0 <= k < |tail| && tail[k] != '_' ensures tail[k] in s {
          assert tail[k] in rest;
        }
      }
      ['_'] + tail
    else
      var tail := ReplaceSpaceRuns(s[1..]);
      assert forall k :: 0 <= k < |tail| && tail[k] != '_' ==> tail[k] in s by {
        forall k | 0 <= k < |tail| && tail[k] != '_' ensures tail[k] in s {
          assert tail[k] in s[1..];
        }
      }
      [s[0]] + tail
  }

  predicate IsDigit(c: char) {
    '0' <= c <= '9'
  }

  function DigitChar(d: nat): (c: char)
    requires d < 10
    ensures IsDigit(c)
  {
    ('0' as int + d) as char
  }

  function DigitValue(c: char): (d: nat)
    requires IsDigit(c)
    ensures d < 10 && DigitChar(d) == c
  {
    c as int - '0' as int
  }

  predicate AllDigits(s: string) {
    forall k :: 0 <= k < |s| ==> IsDigit(s[k])
  }

  /** The value of a string of decimal digits. */
  function DigitsValue(s: string): nat
    requires AllDigits(s)
  {
    if s == [] then 0 else 10 * DigitsValue(s[..|s| - 1]) + DigitValue(s[|s| - 1])
  }

  /** Decimal rendering of a natural number, as JavaScript template literals print it. */
  function NatToString(n: nat): (r: string)
    ensures |r| >= 1 && AllDigits(r)
    ensures r[0] == '0' ==> n == 0
  {
    if n < 10 then [DigitChar(n)] else NatToString(n / 10) + [DigitChar(n % 10)]
  }

  /** Reading back a rendered number gives the number. */
  lemma {:induction false} NatToStringValue(n: nat)
    ensures DigitsValue(NatToString(n)) == n
  {
    if n >= 10 {
      var s := NatToString(n);
      assert s[..|s| - 1] == NatToString(n / 10);
      NatToStringValue(n / 10);
    }
  }

  /** Distinct numbers render to distinct strings. */
  lemma NatToStringInjective(m: nat, n: nat)
    requires NatToString(m) == NatToString(n)
    ensures m == n
  {
    NatToStringValue(m);
    NatToStringValue(n);
  }

  /** The longest prefix of `s` made of decimal digits. */
  function DigitPrefix(s: string): (r: string)
    ensures |r| <= |s| && r == s[..|r|] && AllDigits(r)
    ensures |r| < |s| ==> !IsDigit(s[|r|])
  {
    if s == [] || !IsDigit(s[0]) then [] else [s[0]] + DigitPrefix(s[1..])
  }

  /**
    JavaScript `parseInt(s)` on decimal text: leading whitespace is skipped, an
    optional sign is read, then the longest run of digits; no digits gives NaN (None).
  */
  function ParseInt(s: string): (r: Option<int>)
    ensures r.Some? ==> exists k :: 0 <= k < |s| && IsDigit(s[k])
  {
    var t := s[LeadingSpaces(JsSpace, s)..];
    var negative := |t| > 0 && t[0] == '-';
    var body := if |t| > 0 && (t[0] == '-' || t[0] == '+') then t[1..] else t;
    var digits := DigitPrefix(body);
    if digits == [] then None
    else
      assert IsDigit(digits[0]);
      assert exists k :: 0 <= k < |s| && IsDigit(s[k]) by {
        var off := LeadingSpaces(JsSpace, s) + (|t| - |body|);
        assert s[off] == digits[0];
      }
      Some(if negative then -(DigitsValue(digits) as int) else DigitsValue(digits) as int)
  }

  /** `parseInt` reads back what decimal rendering writes. */
  lemma ParseIntOfNatToString(n: nat)
    ensures ParseInt(NatToString(n)) == Some(n)
  {
    var s := NatToString(n);
    assert LeadingSpaces(JsSpace, s) == 0;
    DigitPrefixOfDigits(s);
    NatToStringValue(n);
  }

  lemma {:induction false} DigitPrefixOfDigits(s: string)
    requires AllDigits(s)
    ensures DigitPrefix(s) == s
  {
    if s != [] {
      DigitPrefixOfDigits(s[1..]);
    }
  }
}

=== FILE: wrappers.dfy ===
/** Failure-compatible wrappers shared by every module of the model. */
module Wrappers {

  /** A value that may be absent (JavaScript `undefined`, Python `None`). */
  datatype Option<+T> = None | Some(value: T) {
    function GetOr(default: T): T {
      match this
      case Some(v) => v
      case None => default
    }
  }

  /** The outcome of an operation that either succeeds with a value or fails with an error. */
  datatype Result<+R, +E> = Success(value: R) | Failure(error: E)

  /** The outcome of reading one document from a store: found, not there, or the read itself failed. */
  datatype Lookup<+T> = Hit(value: T) | Miss | Fault

  function Min(a: int, b: int): int {
    if a <= b then a else b
  }
}
